=== FILE: README.md ===
# CAXpert bookkeeping, modelled in Dafny

CAXpert is a workflow for adsorbate coverage on catalyst surfaces. It
enumerates adsorbate arrangements on a tagged slab and stores them in an ASE
database, keyed by coverage. It samples structures by coverage range and
prepares them for DFT relaxation. It checks ML predictions against DFT
single points through a reserve-then-update protocol on an output database.
It also assembles a binding-energy training database and draws one structure
per coverage.

This project models the bookkeeping around the chemistry:

- the ordered input checks and the template reduction of `generate_structures`;
- the species pool handed to the enumerator;
- the per-structure relabelling and coverage counts;
- the range query, atom-count filter and provenance stamps of `select_covs`;
- the freezing rule, in-place rewrite and slab de-duplication of `make_trajs` and `get_slabs_from_db`;
- the force-threshold decisions of `CalculateEnergy`;
- the `ml_val` state machine over an output store with `reserve`;
- adsorbate counting over graph components and the skip and lookup rules of `create_ase_database`;
- coverage grouping in `cov_draw`;
- `check_reconstruction` and the placeholder list in `utils.py`.

## Conventions

- Sites are `Atoms.Site(symbol, tag, z, magmom)`.
- A structure holds its sites and an opaque cell signature, which stands for `cellpar().tobytes()`. It also holds its FixAtoms index sets, the optional top-layer index from `info`, and the optional calculator results (energy and per-atom force norms).
- A database row keeps no `info`, so a structure written to a store loses its top-layer index (`Atoms.Stored`). Calculator results stay attached only while the calculator sees the same atoms: deleting a site or changing a magnetic moment detaches them, so the next write stores none (`Materialise.Strip`, `Materialise.Freeze`).
- An ASE database is `Store.Db`: row ids in insertion order, and a map from id to a row of atoms, key-value pairs and data. `Store.Valid` requires ids strictly increasing. A new id is one past the last, as in ASE's SQLite back end.
- `db.get` by key and value is `Store.Get`. It fails with `KeyNotFound` when no row matches and with `MultipleRowsMatched` when several do. `db.reserve` is `Store.Reserve`: it returns no id when a row already carries the pair.
- Every Python exception the core raises is a variant of `Errors.Error`, returned in a `Result`. A loop that stops at the first raising iteration is `Errors.AllOrFirstError`.
- A `with connect(...)` block that raises is rolled back to its last commit. ASE's SQLite back end commits at the end of the block and after every 5000th use of the open connection. The model reads a failing block as committing nothing, so an operation that fails returns no new store; this holds for blocks with fewer than 5000 uses (see "## Left out"). `make_trajs` is different: it commits its rewrite before the lookups that can fail, and every trajectory file it writes before a failing lookup stays on disk.
- Foreign code becomes a function parameter:
  - ICET `enumerate_structures` (`Enumeration.Enumerator`);
  - `DetectTrajAnomaly` (`TrainingDb.Detector`);
  - the neighbour list;
  - `get_chemical_formula`;
  - the calculator used by `ml_val` (`Validation.Evaluator`);
  - `os.path.exists`.
- Randomness is an input. `random.sample` is the drawn index list given to `select_covs`, and the choice function given to `cov_draw`.
- Heights, energies and coverages are exact reals. No rounding is applied.

Some behaviours are reproduced as the code has them:

- With no FixAtoms constraint on the template, `prim_structure.constraints[0]` raises before anything is written (`Enumeration.FixedLayers`).
- A FixAtoms object is always true in a Python test, so the `if constraints:` at gen_str.py:53 always takes its branch. An empty FixAtoms gives no fixed layers, the test at gen_str.py:114 writes no FixAtoms, and the `fixed_layers` argument never has an effect (`Enumeration.CallerLayersHaveNoEffect`).
- When fewer structures match than requested, the warning at gen_str.py:163 reads `random_samples` before it is assigned, so that call raises (`UnboundSampleCount`).
- Restart mode of `ml_val` collects the pending `original_id`s into `structs` but loops over the empty `restart_ids`. The evaluation loop then fails to unpack a bare id (`CannotUnpack`). So restart succeeds exactly when nothing is pending.
- `calculate_energy` stops at max force ≤ fmax. `calculate_energy_from_db` relaxes at max force ≥ fmax. So at exactly fmax the two entry points disagree.
- `add_adsorbate` places each binding atom relative to the height of the site at the template's top-layer index, read from the copy being edited (gen_str.py:95-103). When that index is at or above a deleted vacancy or placeholder, it names a shifted site, or lies past the end and raises (`Enumeration.ReferenceHeight`).
- A placeholder given to two adsorbates stands for the later one. Only that adsorbate's formula becomes a coverage key (`Enumeration.Identity`).
- `check_reconstruction` compares the top layer with itself. It reports a reconstruction exactly when the tolerance is negative.

## Model

| member | source | states |
|---|---|---|
| Utils.PlaceHoldersAreUsable | src/utils/utils.py:32 | there are six placeholder symbols, all distinct, and neither the vacancy label 'X' nor the centre label 'O' is among them |
| Utils.TopLayerZ | src/utils/utils.py:21-22 | the top-layer height is attained by some site and bounds every site; an empty structure has no maximum |
| Utils.TopIds | src/utils/utils.py:23-26 | the top ids are exactly the indices of sites at that height, in ascending order |
| Utils.TopIdsNonEmpty | src/utils/utils.py:23-26 | a non-empty structure has at least one top id |
| Utils.CheckReconstruction | src/utils/utils.py:14-30 | an empty structure fails the max reduction |
| Utils.CheckReconstructionIffNegativeTolerance | src/utils/utils.py:27-30 | on a non-empty structure the check answers true exactly when the tolerance is negative, so with tolerance ≥ 0 it always answers false |
| Atoms.CountTag | src/tasks/gen_str.py:42-47 | the tag count is zero exactly when no site carries the tag |
| Atoms.WithoutTag | src/tasks/gen_str.py:216-218 | removing a tag keeps exactly the sites without it, and the length drops by the tag count |
| Atoms.MaxForce | src/tasks/run_dft.py:58 | without a calculator the force query fails; with an empty force list the max fails; otherwise the result is a force norm that bounds all the others |
| Text.LowerIsIdempotent | src/tasks/gen_str.py:147 | a lower-cased name has no capital letters, and lower-casing it again changes nothing |
| Text.SplitJoin | src/tasks/gen_str.py:149 | splitting a ','-joined list of comma-free parts gives the parts back |
| Text.ContainsIffOccurs | src/tasks/run_dft.py:89 | the substring test succeeds exactly when the substring occurs at some position |
| Dicts.Put | src/tasks/gen_str.py:211 | assignment into a dict sets the key, keeps the key order, and appends a new key at the end |
| Dicts.FromPairsLastWins | src/tasks/gen_str.py:209-211 | a dict built by successive assignments has every assigned key, and each key holds the value of its last assignment |
| Store.Insert | src/tasks/gen_str.py:119 | a write appends a fresh id after every existing one and leaves the other rows alone |
| Store.Update | src/tasks/run_dft.py:170 | an update replaces one row and keeps every other row and the id order |
| Store.Where | src/tasks/gen_str.py:150 | a selection holds exactly the rows satisfying the predicate, in store order |
| Store.Find | src/tasks/run_dft.py:151 | the rows matching a key and value are exactly its owners, in id order |
| Store.Get | src/tasks/run_dft.py:151-153 | get by key and value fails with KeyError exactly when no row matches; it succeeds exactly when one row matches and returns it; otherwise two distinct rows match |
| Store.GetSucceedsIffUniqueOwner | src/tasks/run_dft.py:168 | get succeeds exactly when one row carries the pair |
| Store.Reserve | src/tasks/run_dft.py:154 | reserve writes nothing when a row carries the pair; otherwise it appends one empty row carrying only the pair, which becomes its sole owner |
| Store.ReserveIsExclusive | src/tasks/run_dft.py:154 | reserving the same pair twice writes at most one row |
| Store.InsertAll | src/tasks/gen_str.py:169-173 | writing a list of rows appends them in order under fresh ids |
| Store.AppendedOwners | src/tasks/run_dft.py:146-156 | after appends, a pair is owned by its old owners plus the appended rows that carry it |
| Store.AppendedRow | src/tasks/gen_str.py:173 | the k-th appended row sits at position old length + k and is the k-th written row |
| Enumeration.Validate | src/tasks/gen_str.py:33-49 | the checks succeed exactly when the adsorbates fit the placeholders and the tags are exactly {0,1,2}; the first failing check decides the error: capacity, then tag 2, then tag 1, then tag 0, then the tag domain |
| Enumeration.TagSetCharacterisation | src/tasks/gen_str.py:42-49 | the tag set is {0,1,2} exactly when every tag passes the four tag checks |
| Enumeration.TopReference | src/tasks/gen_str.py:55-61 | a stored index is used when present (a Python index that must be in range); otherwise the reference is the lowest-index site at the maximum height of the non-adsorbate sites, and it fails when there is none |
| Enumeration.ReduceTemplate | src/tasks/gen_str.py:63-69 | the backward deletion loop yields the reduced template |
| Enumeration.ReducedKeepsHosts | src/tasks/gen_str.py:63-69 | reduction keeps every non-adsorbate site in order, and every remaining adsorbate site is a relabelled centre |
| Enumeration.ReducedSize | src/tasks/gen_str.py:63-69 | the reduced template loses every adsorbate site except the kept centres, which remain its only tag-2 sites |
| Enumeration.Identity | src/tasks/gen_str.py:76-77 | a symbol stands for the last of the adsorbates whose placeholder it is, and for none when no adsorbate has it |
| Enumeration.IdentityIsTheDictionary | src/tasks/gen_str.py:76-77 | the resolution agrees with the dictionary built by assigning each placeholder its adsorbate in turn: a symbol resolves exactly when it is a key, and to the value stored there |
| Enumeration.PoolLabelsResolve | src/tasks/gen_str.py:70-86 | with distinct placeholders, every tag-2 pool is the vacancy followed by one label per adsorbate, and the j-th label resolves back to adsorbate j |
| Enumeration.CellSizes | src/tasks/gen_str.py:87 | the sizes are 1 up to but not including cell_size, ascending |
| Enumeration.Place | src/tasks/gen_str.py:103 | add_adsorbate fails exactly when the binding index is not a valid Python index into the adsorbate; otherwise every atom keeps its symbol and moment and is tagged 2, the binding atom sits the given height above the reference height, and the adsorbate moves rigidly (height differences between its atoms are kept) |
| Enumeration.Hosts | src/tasks/gen_str.py:105-110 | host sites are tagged 0 or 1, and the tag-1 count is the top-layer count |
| Enumeration.ReferenceHeight | src/tasks/gen_str.py:95-103 | the reference height is read at the stored top-layer index in the copy as it stands when placeholder j is replaced (the unvisited sites, the surviving hosts above j, the atoms placed so far); an index outside that copy raises, and an index below j reads the original site |
| Enumeration.PlaceFrom | src/tasks/gen_str.py:97-104 | the backward loop can only fail with IndexError; it keeps the atoms already placed in front and adds exactly the atoms of the adsorbates of the visited placeholder sites, all tagged 2 |
| Enumeration.Placed | src/tasks/gen_str.py:97-104 | the placed atoms number exactly the atoms of the adsorbates the placeholder sites stand for, all tagged 2 |
| Enumeration.HostsAreTheNonPlaceholderSites | src/tasks/gen_str.py:97-110 | the hosts are exactly the sites that are neither vacancies nor placeholders |
| Enumeration.Keys | src/tasks/gen_str.py:92-93 | the coverage keys are the lower-cased formulas of the adsorbates the placeholder dictionary holds, each once |
| Enumeration.Postprocess | src/tasks/gen_str.py:88-119 | a structure fails with IndexError exactly when placing an adsorbate fails, and with ZeroDivisionError exactly when placing succeeds, there are coverage keys and no top-layer host; otherwise the row holds the hosts and the placed adsorbates with no calculator results and no stored `info` (the top index survives only as the `top_layer_atom_index` pair), and has a coverage key for every adsorbate the dictionary holds (zero included) equal to its placed count over the top-layer count; with fixed layers the row carries one FixAtoms over exactly the sites at those heights, and without them the labelling's own constraints |
| Enumeration.TopLayerRecount | src/tasks/gen_str.py:97-110 | the written structure has exactly the counted top-layer sites tagged 1, and exactly the atoms of the placed adsorbates tagged 2 |
| Enumeration.EachPlaceholderCountedOnce | src/tasks/gen_str.py:101-104 | summed over the coverage keys, the counts equal the number of placeholder sites, so each placeholder is counted exactly once |
| Enumeration.FixedLayers | src/tasks/gen_str.py:52-54 | the lookup succeeds exactly when the template has a constraint whose indices are all in range, and otherwise raises IndexError; the fixed layers are exactly the heights of the fixed sites, so an empty FixAtoms gives none |
| Enumeration.MakePlan | src/tasks/gen_str.py:33-87 | the plan exists exactly when validation, the constraint lookup and the top-layer reference all succeed, and otherwise carries the first of their errors in that order; the plan holds the adsorbates, placeholders, surface heights, top-layer index and height, fixed layers, reduced template, cell sizes and species pool those steps produce |
| Enumeration.Collect | src/tasks/gen_str.py:88-119 | the structures are recorded exactly when none fails, and then one row per structure, in order; otherwise the error is the first failing structure's IndexError or ZeroDivisionError |
| Enumeration.CallerLayersHaveNoEffect | src/tasks/gen_str.py:52-54 | the run is the same whatever fixed layers the caller passes |
| Enumeration.GenerateStructures | src/tasks/gen_str.py:16-120 | the run succeeds exactly when the plan exists and every enumerated structure post-processes; a plan failure (too many adsorbates, a wrong tag set, the constraint or reference lookups) is the run's error, otherwise the first failing structure's error is; success appends exactly one post-processed row per enumerated structure |
| Sampling.Clauses | src/tasks/gen_str.py:145-148 | each adsorbate contributes a lower-bound clause and then an upper-bound clause on its lower-cased name, in dict order |
| Sampling.QueryStringSplitsIntoClauses | src/tasks/gen_str.py:145-149 | the query string splits at commas back into the rendered clauses, one per bound |
| Sampling.QueryMeansAllInRange | src/tasks/gen_str.py:145-150 | a row satisfies the query exactly when every adsorbate coverage lies within its range |
| Sampling.Matching | src/tasks/gen_str.py:150 | the matches are exactly the rows satisfying the query, in id order |
| Sampling.Filtered | src/tasks/gen_str.py:153-160 | the filtered rows are exactly the matches within the atom cap (no cap when it is falsy), in id order |
| Sampling.Stamp | src/tasks/gen_str.py:173 | the written row keeps the structure, data and pairs, and adds original_id = source id and round = 1 |
| Sampling.PickIsDistinct | src/tasks/gen_str.py:164-168 | distinct draws from the ascending filtered list pick distinct source ids |
| Sampling.SelectCovs | src/tasks/gen_str.py:144-177 | the call succeeds exactly when some row matches and 0 ≤ the request ≤ the filtered count; no match fails with NoStructureMatchQuery, a request above the filtered count fails at the warning, and a negative request fails in the sampler; success appends one stamped row per drawn id and returns those ids in draw order |
| Sampling.SampledIdsAreDistinct | src/tasks/gen_str.py:164 | the returned ids are distinct |
| Sampling.SampledRowsMatchQuery | src/tasks/gen_str.py:150-160 | every returned id is a source row within the cap and within every range |
| Sampling.WrittenRowsRecordProvenance | src/tasks/gen_str.py:169-173 | the k-th written row holds the k-th returned id as original_id, round 1, and the source structure |
| Materialise.FrozenIffBelowBand | src/tasks/gen_str.py:183 | a site is frozen exactly when it lies below the fix layer plus the tolerance (the tolerance counts only when positive) |
| Materialise.Freeze | src/tasks/gen_str.py:183-188 | freezing keeps symbols, tags, heights and cell, sets the Ni moment to 10.8, and fixes exactly the frozen sites; the results survive exactly when the sites come out unchanged |
| Materialise.FreezeKeepsResultsIff | src/tasks/gen_str.py:186-188 | the rewritten row keeps its energy and forces exactly when every Ni site already had the moment 10.8 |
| Materialise.FreezeIsIdempotent | src/tasks/gen_str.py:183-188 | freezing a frozen structure changes nothing |
| Materialise.RewriteKeepsOwners | src/tasks/gen_str.py:188 | the rewrite keeps every row's pairs, so every original_id keeps its rows |
| Materialise.TrajOf | src/tasks/gen_str.py:192-193 | a lookup succeeds exactly when one row records the id, and yields that row's structure |
| Materialise.InitTrajsFindsTheOwners | src/tasks/gen_str.py:191-196 | every trajectory written, including those written before a failing lookup, is the structure of the one row recording its id |
| Materialise.MakeTrajs | src/tasks/gen_str.py:179-196 | the rewritten store is kept whether or not the lookups succeed; the lookups succeed exactly when every id is recorded by exactly one row, and then one trajectory is written per id; otherwise the files written are those of the ids before the first id without exactly one row, and the error is that id's KeyError or multiple-rows error |
| Materialise.MakeTrajsWritesFrozenStructures | src/tasks/gen_str.py:183-196 | each written trajectory, including those written before a failure, goes to its id's directory and is the frozen structure of the row recording that id, as the store keeps it (no `info`) |
| Materialise.Strip | src/tasks/gen_str.py:216-218 | a slab keeps exactly the non-adsorbate sites, and keeps the results only when no site was deleted |
| Materialise.GetSlabs | src/tasks/gen_str.py:207-225 | one stripped and frozen slab per distinct cell, in first-seen order of the cells |
| Materialise.SlabResultsDescribeItsSites | src/tasks/gen_str.py:214-225 | a slab written with results has exactly its row's sites and results, so an init.traj written after a deletion or a moment change carries no energy |
| Materialise.SlabCellsAreDistinct | src/tasks/gen_str.py:207-211 | no two slabs share a cell |
| Materialise.EveryCellHasASlab | src/tasks/gen_str.py:209-211 | every cell in the store has a slab |
| Materialise.SlabIsLastRowWithItsCell | src/tasks/gen_str.py:209-211 | each slab comes from the last row in the store with its cell |
| Materialise.SlabsHaveNoAdsorbate | src/tasks/gen_str.py:216-218 | no slab has an adsorbate site |
| Relaxation.CalculateEnergy | src/tasks/run_dft.py:52-70 | in restart mode: a relaxation with no frames fails; the run stops when the last frame's max force is ≤ fmax; otherwise it optimises from the last frame, appending to the initial trajectory. Otherwise it optimises frame 0 into relax.traj |
| Relaxation.CalculateEnergyFromDb | src/tasks/run_dft.py:74-104 | the call succeeds exactly when the path contains '.db', the id exists and its structure has forces; otherwise the path, then the lookup, then the force query decides the error; the run optimises exactly when the max force is ≥ fmax |
| Relaxation.EntryPointsDisagreeAtThreshold | src/tasks/run_dft.py:56-104 | at max force equal to fmax, restart mode stops while the database entry point relaxes |
| Validation.ReserveKeepsOtherOwners | src/tasks/run_dft.py:154 | reserving one original_id changes no other id's rows |
| Validation.QueuedOwners | src/tasks/run_dft.py:146-156 | after the reservations, each queued id is recorded by exactly its reservation row |
| Validation.UnqueuedOwners | src/tasks/run_dft.py:146-156 | an id that was not queued is recorded by the same rows as before |
| Validation.ReserveAll | src/tasks/run_dft.py:146-156 | the pass succeeds exactly when every requested id exists in the source and has at most one output row, and otherwise fails at the first that does not; on success it reserves one row per requested, unrecorded id, each once, in request order |
| Validation.ReserveOne | src/tasks/run_dft.py:147-156 | one request: a missing source id or a duplicated output row fails; a recorded id is skipped; an unrecorded id is reserved and queued |
| Validation.RecordedOnce | src/tasks/run_dft.py:151-156 | after the pass, any id with exactly one row either had a row before or was queued by this pass |
| Validation.QueuedOnlyOnce | src/tasks/run_dft.py:151-156 | a queued id is never recorded twice, even when requested twice |
| Validation.EvaluateQueue | src/tasks/run_dft.py:158-170 | evaluation creates no rows and keeps every row's pairs; it succeeds exactly when every job evaluates and finds its row, and otherwise fails at the first job that does not; on success each job has filled its own row and no other row changed |
| Validation.PendingIdsAreOriginals | src/tasks/run_dft.py:128-131 | the collected ids are exactly the original_ids of the unfinished rows, in store order |
| Validation.RestartSucceedsIffNothingPending | src/tasks/run_dft.py:123-158 | restart mode ends without error exactly when no output row is unfinished |
| Validation.MlVal | src/tasks/run_dft.py:106-170 | restart without an output store raises FileNotFoundError; fresh mode with an unfinished output row raises before any write; otherwise the run succeeds exactly when every request passes the reservation pass and evaluates, and then leaves each requested id recorded once, the old rows untouched, and every new row the filled reservation of a newly requested id |
| Validation.QueueEvaluatesIff | src/tasks/run_dft.py:158-170 | the queue evaluates exactly when every requested, unrecorded source structure evaluates |
| Validation.FreshOutcome | src/tasks/run_dft.py:146-170 | a completed fresh run satisfies the uniqueness, preservation and completion properties |
| TrainingDb.CheckProblematic | src/tasks/make_db.py:11-24 | an empty trajectory fails; a tag outside 0..2 in the first frame raises ValueError; a single-frame trajectory fails at the second frame; otherwise the file is problematic exactly when the detector flags dissociation, desorption, a surface change or intercalation |
| TrainingDb.NewTrainingDb | src/tasks/make_db.py:30-38 | construction succeeds exactly when both reference stores exist, checking the slab store first |
| Graph.ClosureIsClosed | src/tasks/make_db.py:49-60 | a component is closed under the undirected adjacency |
| Graph.ClosureIsLeast | src/tasks/make_db.py:49-60 | a component is contained in every closed set containing its root |
| Graph.SameComponent | src/tasks/make_db.py:60 | any site of a component has that same component |
| Graph.RootsCoverNodes | src/tasks/make_db.py:60 | every graph node lies in some component |
| Graph.RootsDisjoint | src/tasks/make_db.py:60 | no two components share a site |
| Graph.RootsHoldOnlyNodes | src/tasks/make_db.py:51-58 | components hold only adsorbate sites and non-surface neighbours of adsorbates |
| TrainingDb.Zeros | src/tasks/make_db.py:65-71 | there is a key for every gas-reference formula, each starting at zero |
| TrainingDb.CountAdsorbates | src/tasks/make_db.py:40-77 | keys are exactly the gas-reference formulas, and each count is the number of (component, reference) pairs of that formula with equal symbol multisets |
| TrainingDb.PairCountPositive | src/tasks/make_db.py:73-76 | a formula's count is positive exactly when some component matches some reference of that formula |
| TrainingDb.BindingRows | src/tasks/make_db.py:109-113 | every frame is written, in order, exactly when every frame has results; each keeps its sites and forces, and its `info` is not stored |
| TrainingDb.BindingKeepsDifferences | src/tasks/make_db.py:110 | the shift is the same for every frame: energy differences between frames are preserved |
| TrainingDb.GasEnergy | src/tasks/make_db.py:104 | the gas-reference energy exists exactly when every counted formula has a reference with results, and is then the running sum, in key order, of each reference energy times its count |
| TrainingDb.GasEnergyOfZeroCounts | src/tasks/make_db.py:104-107 | with every count zero the gas-reference energy is 0, so the file is skipped |
| TrainingDb.SlabsByCellLastWins | src/tasks/make_db.py:82-85 | every slab's cell is a key, and each key holds the last slab in the store with that cell |
| TrainingDb.GasByFormulaLastWins | src/tasks/make_db.py:87-90 | every reference's formula is a key, and each key holds the last reference in the store with that formula |
| TrainingDb.FileRowsScreen | src/tasks/make_db.py:99-101 | a check error is the file's error, and a file flagged problematic is skipped |
| TrainingDb.FileRowsSkipRules | src/tasks/make_db.py:103-108 | an unflagged file writes nothing exactly when its gas-reference energy is zero; otherwise a first-frame cell with no slab raises KeyError |
| TrainingDb.FileRowsWriteEveryFrame | src/tasks/make_db.py:108-113 | otherwise every frame is written, shifted by the slab energy plus the gas-reference energy |
| TrainingDb.AllRows | src/tasks/make_db.py:98-113 | the files are processed in order and all succeed or the first error stops the run; the rows are the files' rows concatenated |
| TrainingDb.CreateAseDatabase | src/tasks/make_db.py:79-114 | the database is written exactly when every file succeeds, and then holds the concatenated rows appended in order; a failure leaves the store as it was, up to ASE's periodic commit |
| CoverageDraw.Coverage | src/tasks/drawstructures.py:25-27 | the coverage fails with ZeroDivisionError exactly when there is no Ni site |
| CoverageDraw.CoverageIsCarbonPerFourNickel | src/tasks/drawstructures.py:25-27 | the coverage is four times the C count over the Ni count; it is non-negative and zero exactly when there is no C |
| CoverageDraw.Coverages | src/tasks/drawstructures.py:23-27 | every sid's coverage is computed, or the first failing lookup or division is the error |
| CoverageDraw.Groups | src/tasks/drawstructures.py:28-31 | the group keys are exactly the coverages that occur |
| CoverageDraw.GroupsCollectIndices | src/tasks/drawstructures.py:28-31 | each group lists, ascending, exactly the indices with that coverage |
| CoverageDraw.EachIndexInOneGroup | src/tasks/drawstructures.py:23-31 | every index lies in its own coverage's group and in no other |
| CoverageDraw.Sort | src/tasks/drawstructures.py:34 | sorting yields a non-decreasing permutation |
| CoverageDraw.SortDistinctIsAscending | src/tasks/drawstructures.py:34 | the sorted distinct keys are strictly ascending |
| CoverageDraw.NonZero | src/tasks/drawstructures.py:35-36 | the zero coverage is dropped and nothing else is |
| CoverageDraw.DrawCoveragesKeys | src/tasks/drawstructures.py:33-37 | the drawn keys are exactly the non-zero coverages, ascending |
| CoverageDraw.CovDraw | src/tasks/drawstructures.py:7-46 | the draw succeeds exactly when every sid's coverage can be computed |
| CoverageDraw.CovDrawKeysAreNonZeroCoverages | src/tasks/drawstructures.py:33-36 | a key is drawn exactly when it is a non-zero coverage of some index |
| CoverageDraw.CovDrawKeysAscend | src/tasks/drawstructures.py:34 | the drawn keys are in ascending order |
| CoverageDraw.CovDrawPicksFromTheGroup | src/tasks/drawstructures.py:37 | each drawn value is a single index whose coverage is its key |

## Left out

- I/O. This covers `connect`, `Trajectory` reads and writes, `write`, `os.makedirs`, log files and the CSV export of `cov_draw` with pandas. Stores and trajectories are values; file existence is a predicate parameter.
- Loading the template from a trajectory path, and the ValueError for a template that is neither Atoms nor a path (gen_str.py:35-40). The template is always a structure value.
- ICET `enumerate_structures` is a function parameter. Its symmetry reduction is foreign code.
- ASE geometry. Only heights are modelled: in-plane positions, the in-plane part of `add_adsorbate` and `cellpar().tobytes()` are left out; the cell is an opaque signature.
- `get_chemical_formula` is a parameter. An empty structure stands for an empty formula.
- `NeighborList` and `covalent_radii` are a neighbour-set parameter. Out-of-range neighbour indices are ignored.
- The order of `nx.connected_components` is not modelled. Components are rooted at their lowest index; the counts do not depend on the order.
- Floating point. `round(·, 2)` on the fixed-layer heights and `round(·, 3)` on coverages are not modelled, and the binding-energy subtraction uses exact reals.
- Calculators, BFGS and `ml_relax`. `CalculateEnergy` returns the decision (stop or optimise which frame into which trajectory) instead of running an optimiser.
- The `SinglePointCalculator` step of `ml_val` is the evaluator parameter. It yields the results or fails.
- `DetectTrajAnomaly` is a parameter returning the four anomaly flags.
- Logging and the `timeit` decorator (utils.py:4-12) have no effect on results.
- `is_generator_empty` (imported at gen_str.py:12) is not defined in src/utils/utils.py, so importing gen_str.py fails as written. The model reads the test at gen_str.py:151 as "no row matched the query". A `next()`-based helper would also consume the first matching row before the loop at gen_str.py:154; the model keeps every matching row.
- The `return samples_pool` branch of `select_covs` (gen_str.py:175-176) is not modelled: the output path is always given, so the model returns the sampled ids.
- Cross-process atomicity of `reserve`. Only its sequential meaning is modelled.
- The exception classes in src/utils/error.py are not modelled as classes. Each raise site is an `Errors.Error` variant.
- The job-launching scripts and the inference helpers they import are not part of this model.
- Utils.CheckReconstruction: its own contract states only the empty-structure error. The full answer is stated by Utils.CheckReconstructionIffNegativeTolerance.
- CoverageDraw.Coverage: its own contract states only the division error. The value is stated by CoverageDraw.CoverageIsCarbonPerFourNickel.
- TrainingDb.CreateAseDatabase: a failing file is modelled as leaving the new database empty. ASE's SQLite back end commits every 5000th use of the open connection, so rows committed in such a batch before the failure stay written; the model does not count connection uses.
- Enumeration.GenerateStructures: the same periodic commit applies. A failing structure after 5000 or more uses of the connection keeps the rows committed so far; the model returns no store.
- Validation.MlVal: the same periodic commit applies to the reservation and evaluation passes. A failure after 5000 or more uses keeps the committed reservations; the model returns no store.
- Enumeration.Postprocess: without fixed layers the labelling's constraints are written with their indices as they were, although the deletions at gen_str.py:100-102 renumber the sites. ICET's enumerated structures carry no constraints, so nothing is written in practice.
- Atoms.Stored: structures read from an input store are passed on with whatever top-layer index they hold. ASE rows never hold one, so the realistic inputs are those whose index is None.
- Enumeration.Postprocess: a lower-cased formula equal to `top_layer_atom_index` would make the write at gen_str.py:119 raise on a repeated keyword argument. The model lets the index value win, and the contract states coverage only for the other keys. No chemical formula takes that form.

=== FILE: atoms.dfy ===
/**
 The atomic configurations the tasks pass around. Geometry is abstract: a site
 keeps its chemical symbol, its role tag, its height (z) and its initial
 magnetic moment; a cell is an opaque signature; forces are per-site norms.
 */
module Atoms {
  import opened Errors

  /** Role tags: 0 bulk, 1 surface (top layer), 2 adsorbate. */
  const BulkTag: int := 0
  const SurfaceTag: int := 1
  const AdsorbateTag: int := 2

  datatype Site = Site(symbol: string, tag: int, z: real, magmom: real)

  /** Results attached by a calculator: the energy and the norm of each site's force. */
  datatype Calc = Calc(energy: real, forceNorms: seq<real>)

  /**
   A structure: its sites in order, its cell signature (cell lengths and angles),
   its list of fixed-atom constraints (each a set of site indices), the
   optional top-layer reference index kept in its info, and optional results.
   */
  datatype Structure = Structure(
    sites: seq<Site>,
    cell: seq<real>,
    constraints: seq<set<nat>>,
    topIndex: Option<int>,
    results: Option<Calc>)

  /** The empty structure a reservation writes. */
  const Empty: Structure := Structure([], [], [], None, None)

  predicate HasTag(sites: seq<Site>, t: int) {
    exists i :: 0 <= i < |sites| && sites[i].tag == t
  }

  function TagSet(sites: seq<Site>): set<int> {
    set i | 0 <= i < |sites| :: sites[i].tag
  }

  /** Number of sites carrying tag t. */
  function CountTag(sites: seq<Site>, t: int): (n: nat)
    ensures n <= |sites|
    ensures n == 0 <==> !HasTag(sites, t)
  {
    if |sites| == 0 then 0
    else (if sites[0].tag == t then 1 else 0) + CountTag(sites[1..], t)
  }

  lemma CountTagAppend(a: seq<Site>, b: seq<Site>, t: int)
    ensures CountTag(a + b, t) == CountTag(a, t) + CountTag(b, t)
  {
    if |a| == 0 {
      assert a + b == b;
    } else {
      assert (a + b)[1..] == a[1..] + b;
      CountTagAppend(a[1..], b, t);
    }
  }

  /** The sites whose tag is not t, in their original order. */
  function WithoutTag(sites: seq<Site>, t: int): (r: seq<Site>)
    ensures |r| == |sites| - CountTag(sites, t)
    ensures forall k :: 0 <= k < |r| ==> r[k].tag != t
    ensures forall k :: 0 <= k < |sites| && sites[k].tag != t ==> sites[k] in r
    ensures forall s :: s in r ==> s in sites
  {
    if |sites| == 0 then []
    else if sites[0].tag == t then WithoutTag(sites[1..], t)
    else [sites[0]] + WithoutTag(sites[1..], t)
  }

  /** Deleting a tag no site carries deletes nothing. */
  lemma {:induction false} WithoutAbsentTag(sites: seq<Site>, t: int)
    requires !HasTag(sites, t)
    ensures WithoutTag(sites, t) == sites
  {
    if |sites| > 0 {
      assert forall k :: 0 <= k < |sites| - 1 ==> sites[1..][k] == sites[k + 1];
      WithoutAbsentTag(sites[1..], t);
    }
  }

  /**
   What an ASE database row keeps of a structure written to it: everything
   but the info dictionary, so the top-layer reference index is not stored.
   */
  function Stored(s: Structure): (r: Structure)
    ensures r.topIndex.None?
    ensures r.sites == s.sites && r.cell == s.cell && r.constraints == s.constraints
    ensures r.results == s.results
  {
    s.(topIndex := None)
  }

  /** The largest element of a non-empty sequence of reals. */
  function Max(xs: seq<real>): (m: real)
    requires |xs| > 0
    ensures m in xs
    ensures forall k :: 0 <= k < |xs| ==> xs[k] <= m
  {
    if |xs| == 1 then xs[0]
    else
      var rest := Max(xs[1..]);
      if xs[0] >= rest then xs[0] else rest
  }

  function Heights(sites: seq<Site>): (zs: seq<real>)
    ensures |zs| == |sites|
    ensures forall k :: 0 <= k < |sites| ==> zs[k] == sites[k].z
  {
    seq(|sites|, k requires 0 <= k < |sites| => sites[k].z)
  }

  /**
   The maximum per-site force norm of a structure's attached results, as
   np.max(np.linalg.norm(forces, axis=1)) computes it.
   */
  function MaxForce(s: Structure): (r: Result<real>)
    ensures s.results.None? <==> r == Err(NoCalculator)
    ensures s.results.Some? && |s.results.value.forceNorms| == 0 <==> r == Err(EmptyReduction)
    ensures r.Ok? ==> r.value in s.results.value.forceNorms
    ensures r.Ok? ==> forall k :: 0 <= k < |s.results.value.forceNorms| ==> s.results.value.forceNorms[k] <= r.value
  {
    match s.results
    case None => Err(NoCalculator)
    case Some(c) => if |c.forceNorms| == 0 then Err(EmptyReduction) else Ok(Max(c.forceNorms))
  }
}

=== FILE: coveragedraw.dfy ===
/**
 Drawing one structure per coverage: each structure of a store, looked up
 by its "sid" key, gets the coverage of C atoms per four Ni atoms; the
 indices are grouped by coverage and, for every non-zero coverage in
 ascending order, one index of its group is drawn. The draw is an input.
 */
module CoverageDraw {
  import opened Errors
  import opened Atoms
  import opened Store
  import opened Dicts
  import opened Seqs

  /** The key under which each structure records its index. */
  const SidKey: string := "sid"

  /** The surface-site and adsorbate symbols of the coverage: four Ni atoms make one site. */
  const SiteSymbol: string := "Ni"
  const AdsorbateSymbol: string := "C"

  function CountSymbol(sites: seq<Site>, sym: string): (n: nat)
    ensures n <= |sites|
    ensures n == 0 <==> forall k :: 0 <= k < |sites| ==> sites[k].symbol != sym
  {
    if |sites| == 0 then 0
    else CountSymbol(sites[..|sites| - 1], sym) + (if sites[|sites| - 1].symbol == sym then 1 else 0)
  }

  /**
   The coverage: C atoms divided by a quarter of the Ni atoms. A structure
   without Ni divides by zero.
   */
  function Coverage(s: Structure): (r: Result<real>)
    ensures r.Err? <==> CountSymbol(s.sites, SiteSymbol) == 0
    ensures r.Err? ==> r.error == ZeroDivision
  {
    var ni := CountSymbol(s.sites, SiteSymbol);
    if ni == 0 then Err(ZeroDivision)
    else Ok(CountSymbol(s.sites, AdsorbateSymbol) as real / (ni as real / 4.0))
  }

  /** A coverage is four times the C count over the Ni count: C atoms per four Ni atoms. */
  lemma CoverageIsCarbonPerFourNickel(s: Structure)
    requires Coverage(s).Ok?
    ensures Coverage(s).value == (4 * CountSymbol(s.sites, AdsorbateSymbol)) as real / CountSymbol(s.sites, SiteSymbol) as real
    ensures Coverage(s).value >= 0.0
    ensures Coverage(s).value == 0.0 <==> CountSymbol(s.sites, AdsorbateSymbol) == 0
  {
    PerQuarter(CountSymbol(s.sites, AdsorbateSymbol), CountSymbol(s.sites, SiteSymbol));
  }

  /** Dividing a count by a quarter of a positive count. */
  lemma PerQuarter(c: nat, ni: nat)
    requires ni > 0
    ensures c as real / (ni as real / 4.0) == (4 * c) as real / ni as real
    ensures c as real / (ni as real / 4.0) >= 0.0
    ensures c as real / (ni as real / 4.0) == 0.0 <==> c == 0
  {
    var q := ni as real / 4.0;
    var v := c as real / q;
    assert v * q == c as real;
    assert ni as real == 4.0 * q;
    assert v * ni as real == 4.0 * (v * q);
    assert v * ni as real == (4 * c) as real;
  }

  /** The coverage of the structure recorded with sid = i. */
  function CoverageOfSid(db: Db, i: int): (r: Result<real>)
    requires Valid(db)
  {
    var id :- Get(db, SidKey, IntV(i));
    Coverage(db.rows[id].atoms)
  }

  /** The coverage results of sids 0 .. n-1. */
  function SidCoverages(db: Db, n: nat): (rs: seq<Result<real>>)
    requires Valid(db)
    ensures |rs| == n && forall i :: 0 <= i < n ==> rs[i] == CoverageOfSid(db, i)
  {
    seq(n, i requires 0 <= i < n => CoverageOfSid(db, i))
  }

  /** The coverages of sids 0 .. n-1; the first failing lookup or division decides the error. */
  function Coverages(db: Db, n: nat): (r: Result<seq<real>>)
    requires Valid(db)
    ensures r.Ok? <==> forall i :: 0 <= i < n ==> CoverageOfSid(db, i).Ok?
    ensures r.Ok? ==> |r.value| == n && forall i :: 0 <= i < n ==> r.value[i] == CoverageOfSid(db, i).value
    ensures r.Err? ==> exists i :: FirstErrAt(SidCoverages(db, n), i, r.error)
  {
    AllOrFirstError(SidCoverages(db, n))
  }

  /** The indices of covs whose coverage is c, ascending. */
  ghost predicate GroupOf(covs: seq<real>, c: real, g: seq<nat>) {
    && (forall i :: i in g <==> 0 <= i < |covs| && covs[i] == c)
    && (forall k, l :: 0 <= k < l < |g| ==> g[k] < g[l])
  }

  /** ce_sys: the indices grouped by coverage, the groups in order of first appearance. */
  function Groups(covs: seq<real>): (d: Dict<real, seq<nat>>)
    ensures WellFormed(d)
    ensures forall c :: c in d.m <==> c in covs
  {
    if |covs| == 0 then Dict([], map[])
    else
      var n := |covs| - 1;
      var prev := Groups(covs[..n]);
      var c := covs[n];
      assert forall x :: x in covs <==> x in covs[..n] || x == c;
      Put(prev, c, if c in prev.m then prev.m[c] + [n] else [n])
  }

  /** The group of a coverage holds exactly the indices with that coverage, ascending. */
  lemma {:induction false} GroupsCollectIndices(covs: seq<real>, c: real)
    requires c in Groups(covs).m
    ensures GroupOf(covs, c, Groups(covs).m[c])
  {
    var n := |covs| - 1;
    var init := covs[..n];
    var prev := Groups(init);
    if covs[n] == c {
      if c in prev.m {
        GroupsCollectIndices(init, c);
        GroupExtend(covs, c, prev.m[c]);
      } else {
        GroupNew(covs, c);
      }
    } else {
      GroupsCollectIndices(init, c);
      GroupKeep(covs, c, prev.m[c]);
    }
  }

  lemma GroupExtend(covs: seq<real>, c: real, g: seq<nat>)
    requires |covs| > 0 && covs[|covs| - 1] == c && GroupOf(covs[..|covs| - 1], c, g)
    ensures GroupOf(covs, c, g + [|covs| - 1])
  {
    var n := |covs| - 1;
    assert forall i :: 0 <= i < n ==> covs[..n][i] == covs[i];
    forall k | 0 <= k < |g|
      ensures g[k] < n
    {
      assert g[k] in g;
    }
  }

  lemma GroupNew(covs: seq<real>, c: real)
    requires |covs| > 0 && covs[|covs| - 1] == c && c !in covs[..|covs| - 1]
    ensures GroupOf(covs, c, [|covs| - 1])
  {
    var n := |covs| - 1;
    forall i | 0 <= i < n
      ensures covs[i] != c
    {
      assert covs[..n][i] == covs[i];
    }
  }

  lemma GroupKeep(covs: seq<real>, c: real, g: seq<nat>)
    requires |covs| > 0 && covs[|covs| - 1] != c && GroupOf(covs[..|covs| - 1], c, g)
    ensures GroupOf(covs, c, g)
  {
    var n := |covs| - 1;
    assert forall i :: 0 <= i < n ==> covs[..n][i] == covs[i];
  }

  /** Every index lies in exactly one group: the one of its own coverage. */
  lemma EachIndexInOneGroup(covs: seq<real>, i: nat, c: real)
    requires i < |covs| && c in Groups(covs).m
    ensures covs[i] in Groups(covs).m && i in Groups(covs).m[covs[i]]
    ensures i in Groups(covs).m[c] <==> c == covs[i]
  {
    GroupsCollectIndices(covs, c);
    GroupsCollectIndices(covs, covs[i]);
  }

  predicate Ascending(xs: seq<real>) {
    forall i, j :: 0 <= i < j < |xs| ==> xs[i] < xs[j]
  }

  predicate NonDecreasing(xs: seq<real>) {
    forall i, j :: 0 <= i < j < |xs| ==> xs[i] <= xs[j]
  }

  function InsertSorted(x: real, xs: seq<real>): (r: seq<real>)
    requires NonDecreasing(xs)
    ensures NonDecreasing(r)
    ensures multiset(r) == multiset(xs) + multiset{x}
  {
    if |xs| == 0 then [x]
    else if x <= xs[0] then [x] + xs
    else
      var rest := InsertSorted(x, xs[1..]);
      assert xs == [xs[0]] + xs[1..];
      HeadBelowInserted(x, xs, rest);
      var r := [xs[0]] + rest;
      assert multiset(r) == multiset{xs[0]} + multiset(rest);
      r
  }

  /** Inserting a larger element behind the head leaves the head the least. */
  lemma HeadBelowInserted(x: real, xs: seq<real>, rest: seq<real>)
    requires NonDecreasing(xs) && |xs| > 0 && xs[0] < x
    requires multiset(rest) == multiset(xs[1..]) + multiset{x}
    ensures forall k :: 0 <= k < |rest| ==> xs[0] <= rest[k]
  {
    forall k | 0 <= k < |rest|
      ensures xs[0] <= rest[k]
    {
      assert rest[k] in multiset(rest);
      if rest[k] != x {
        assert rest[k] in multiset(xs[1..]);
        assert rest[k] in xs[1..];
      }
    }
  }

  /** sorted(): the same elements in non-decreasing order. */
  function Sort(xs: seq<real>): (r: seq<real>)
    ensures NonDecreasing(r)
    ensures multiset(r) == multiset(xs)
  {
    if |xs| == 0 then []
    else
      assert xs == xs[..|xs| - 1] + [xs[|xs| - 1]];
      InsertSorted(xs[|xs| - 1], Sort(xs[..|xs| - 1]))
  }

  /** Sorting keeps the elements. */
  lemma SortKeepsElements(xs: seq<real>)
    ensures forall x :: x in Sort(xs) <==> x in xs
  {
    var r := Sort(xs);
    forall x
      ensures x in r <==> x in xs
    {
      assert x in r <==> x in multiset(r);
      assert x in xs <==> x in multiset(xs);
    }
  }

  /** Sorting distinct keys gives them in strictly ascending order. */
  lemma SortDistinctIsAscending(xs: seq<real>)
    requires Distinct(xs)
    ensures Ascending(Sort(xs)) && Distinct(Sort(xs))
  {
    var r := Sort(xs);
    forall i, j | 0 <= i < j < |r|
      ensures r[i] != r[j]
    {
      if r[i] == r[j] {
        RepeatCountsTwice(r, i, j);
        DistinctCount(xs, r[i]);
      }
    }
  }

  lemma RepeatCountsTwice(r: seq<real>, i: int, j: int)
    requires 0 <= i < j < |r| && r[i] == r[j]
    ensures multiset(r)[r[i]] >= 2
  {
    assert r == r[..j] + r[j..];
    assert r[i] in r[..j];
    assert r[j..][0] == r[j];
  }

  /** In a sequence without repetitions every element occurs once. */
  lemma {:induction false} DistinctCount(xs: seq<real>, x: real)
    requires Distinct(xs)
    ensures multiset(xs)[x] <= 1
  {
    if |xs| > 0 {
      var n := |xs| - 1;
      assert xs == xs[..n] + [xs[n]];
      assert Distinct(xs[..n]);
      DistinctCount(xs[..n], x);
      if xs[n] == x {
        assert x !in xs[..n];
      }
    }
  }

  /** The draw: given a non-empty group, the position of the member random.sample picks. */
  type Picker = seq<nat> -> nat

  predicate PicksInside(pick: Picker, g: seq<nat>) {
    |g| > 0 ==> pick(g) < |g|
  }

  /** The keys of ks that are not 0, in order. */
  function NonZero(ks: seq<real>): (r: seq<real>)
    ensures forall x :: x in r <==> x in ks && x != 0.0
  {
    if |ks| == 0 then []
    else
      var n := |ks| - 1;
      assert forall x :: x in ks <==> x in ks[..n] || x == ks[n];
      NonZero(ks[..n]) + (if ks[n] != 0.0 then [ks[n]] else [])
  }

  /** Dropping keys keeps an ascending order. */
  lemma {:induction false} NonZeroAscending(ks: seq<real>)
    requires Ascending(ks)
    ensures Ascending(NonZero(ks))
  {
    if |ks| > 0 {
      var n := |ks| - 1;
      var prev := NonZero(ks[..n]);
      NonZeroAscending(ks[..n]);
      forall k | 0 <= k < |prev|
        ensures prev[k] < ks[n]
      {
        assert prev[k] in ks[..n];
      }
    }
  }

  /** Every key of ks has a non-empty group. */
  predicate Grouped(groups: Dict<real, seq<nat>>, ks: seq<real>) {
    forall k :: 0 <= k < |ks| ==> ks[k] in groups.m && |groups.m[ks[k]]| > 0
  }

  /** Dropping the last key keeps Draw's requirements, and the last key is not among the rest. */
  lemma DrawPrefix(groups: Dict<real, seq<nat>>, ks: seq<real>)
    requires |ks| > 0 && Distinct(ks)
    requires Grouped(groups, ks)
    ensures Distinct(ks[..|ks| - 1]) && ks[|ks| - 1] !in ks[..|ks| - 1]
    ensures Grouped(groups, ks[..|ks| - 1])
  {
    var n := |ks| - 1;
    assert forall k :: 0 <= k < n ==> ks[..n][k] == ks[k];
  }

  /** For each key of ks that is not 0, in order, the one-element list drawn from its group. */
  function Draw(groups: Dict<real, seq<nat>>, ks: seq<real>, pick: Picker): (d: Dict<real, seq<nat>>)
    requires Distinct(ks) && Grouped(groups, ks)
    requires forall g :: PicksInside(pick, g)
    ensures WellFormed(d)
    ensures d.keys == NonZero(ks)
    ensures forall c :: c in d.m ==> |d.m[c]| == 1 && d.m[c][0] in groups.m[c]
  {
    if |ks| == 0 then Dict([], map[])
    else
      var n := |ks| - 1;
      DrawPrefix(groups, ks);
      var prev := Draw(groups, ks[..n], pick);
      var c := ks[n];
      if c == 0.0 then prev
      else
        assert c !in prev.keys;
        var g := groups.m[c];
        assert PicksInside(pick, g);
        Put(prev, c, [g[pick(g)]])
  }

  /** The groups of the coverages, and one drawn index per non-zero coverage, in ascending order. */
  function DrawCoverages(covs: seq<real>, pick: Picker): (d: Dict<real, seq<nat>>)
    requires forall g :: PicksInside(pick, g)
    ensures WellFormed(d)
    ensures forall c :: c in d.m ==> c in Groups(covs).m && |d.m[c]| == 1 && d.m[c][0] in Groups(covs).m[c]
  {
    var groups := Groups(covs);
    var ks := Sort(groups.keys);
    SortDistinctIsAscending(groups.keys);
    SortKeepsElements(groups.keys);
    forall k | 0 <= k < |ks|
      ensures ks[k] in groups.m && |groups.m[ks[k]]| > 0
    {
      assert ks[k] in ks;
      var i :| 0 <= i < |covs| && covs[i] == ks[k];
      EachIndexInOneGroup(covs, i, ks[k]);
    }
    Draw(groups, ks, pick)
  }

  /**
   cov_draw (without the CSV output): the coverage of every structure, its
   group, and one drawn index per non-zero coverage.
   */
  function CovDraw(db: Db, pick: Picker): (r: Result<Dict<real, seq<nat>>>)
    requires Valid(db)
    requires forall g :: PicksInside(pick, g)
    ensures r.Ok? <==> forall i :: 0 <= i < |db.ids| ==> CoverageOfSid(db, i).Ok?
    ensures r.Err? ==> exists i :: FirstErrAt(SidCoverages(db, |db.ids|), i, r.error)
  {
    var covs :- Coverages(db, |db.ids|);
    Ok(DrawCoverages(covs, pick))
  }

  /** The draw's keys are the coverages that are not 0, ascending. */
  lemma DrawCoveragesKeys(covs: seq<real>, pick: Picker)
    requires forall g :: PicksInside(pick, g)
    ensures Ascending(DrawCoverages(covs, pick).keys)
    ensures forall c :: c in DrawCoverages(covs, pick).m <==> c in covs && c != 0.0
  {
    var groups := Groups(covs);
    SortDistinctIsAscending(groups.keys);
    SortKeepsElements(groups.keys);
    NonZeroAscending(Sort(groups.keys));
    var d := DrawCoverages(covs, pick);
    assert d.keys == NonZero(Sort(groups.keys));
  }

  /** The draw's keys are the non-zero coverages that occur, ascending. */
  lemma CovDrawKeysAscend(db: Db, pick: Picker)
    requires Valid(db)
    requires forall g :: PicksInside(pick, g)
    requires CovDraw(db, pick).Ok?
    ensures Ascending(CovDraw(db, pick).value.keys)
  {
    DrawCoveragesKeys(Coverages(db, |db.ids|).value, pick);
  }

  /** The draw has a key for exactly the non-zero coverages that occur. */
  lemma CovDrawKeysAreNonZeroCoverages(db: Db, pick: Picker, c: real)
    requires Valid(db)
    requires forall g :: PicksInside(pick, g)
    requires CovDraw(db, pick).Ok?
    ensures c in CovDraw(db, pick).value.m <==> c != 0.0 && exists i :: 0 <= i < |db.ids| && CoverageOfSid(db, i) == Ok(c)
  {
    var covs := Coverages(db, |db.ids|).value;
    DrawCoveragesKeys(covs, pick);
    if c in covs {
      var i :| 0 <= i < |covs| && covs[i] == c;
      assert CoverageOfSid(db, i) == Ok(c);
    }
  }

  /** Each key maps to a one-element list holding an index with that coverage. */
  lemma CovDrawPicksFromTheGroup(db: Db, pick: Picker, c: real)
    requires Valid(db)
    requires forall g :: PicksInside(pick, g)
    requires CovDraw(db, pick).Ok? && c in CovDraw(db, pick).value.m
    ensures |CovDraw(db, pick).value.m[c]| == 1
    ensures CovDraw(db, pick).value.m[c][0] < |db.ids|
    ensures CoverageOfSid(db, CovDraw(db, pick).value.m[c][0]) == Ok(c)
  {
    var covs := Coverages(db, |db.ids|).value;
    var v := DrawCoverages(covs, pick).m[c];
    GroupsCollectIndices(covs, c);
    assert v[0] < |covs| && covs[v[0]] == c;
  }
}

=== FILE: dicts.dfy ===
/**
 Python dictionaries: a map together with its keys in insertion order.
 Assigning to a present key replaces its value and keeps its position;
 assigning to a new key appends it.
 */
module Dicts {
  import opened Seqs

  datatype Dict<K, V> = Dict(keys: seq<K>, m: map<K, V>)

  ghost predicate WellFormed<K(!new), V>(d: Dict<K, V>) {
    Distinct(d.keys) && forall k :: k in d.m <==> k in d.keys
  }

  /** d[k] = v */
  function Put<K(!new), V>(d: Dict<K, V>, k: K, v: V): (r: Dict<K, V>)
    requires WellFormed(d)
    ensures WellFormed(r)
    ensures r.m == d.m[k := v]
    ensures k in d.m ==> r.keys == d.keys
    ensures k !in d.m ==> r.keys == d.keys + [k]
  {
    if k in d.m then Dict(d.keys, d.m[k := v]) else Dict(d.keys + [k], d.m[k := v])
  }

  /** The dictionary built by assigning the pairs in order, starting from an empty one. */
  function FromPairs<K(!new), V>(ps: seq<(K, V)>): (r: Dict<K, V>)
    ensures WellFormed(r)
  {
    if |ps| == 0 then Dict([], map[])
    else Put(FromPairs(ps[..|ps| - 1]), ps[|ps| - 1].0, ps[|ps| - 1].1)
  }

  /** The pair that set key k's value is the last pair mentioning k. */
  predicate LastFor<K(==), V>(ps: seq<(K, V)>, i: int, k: K) {
    0 <= i < |ps| && ps[i].0 == k && forall j :: i < j < |ps| ==> ps[j].0 != k
  }

  /**
   Building from pairs keeps every key that occurs, and only those, and each
   keeps the value of its last pair: the last write wins.
   */
  lemma FromPairsLastWins<K(!new), V>(ps: seq<(K, V)>)
    ensures forall i :: 0 <= i < |ps| ==> ps[i].0 in FromPairs(ps).m
    ensures forall k :: k in FromPairs(ps).m ==> exists i :: LastFor(ps, i, k) && ps[i].1 == FromPairs(ps).m[k]
  {
    FromPairsHasKeys(ps);
    forall k | k in FromPairs(ps).m
      ensures exists i :: LastFor(ps, i, k) && ps[i].1 == FromPairs(ps).m[k]
    {
      FromPairsValueIsLast(ps, k);
    }
  }

  /** Every key that occurs in the pairs is a key of the dictionary. */
  lemma {:induction false} FromPairsHasKeys<K(!new), V>(ps: seq<(K, V)>)
    ensures forall i :: 0 <= i < |ps| ==> ps[i].0 in FromPairs(ps).m
  {
    if |ps| > 0 {
      var n := |ps| - 1;
      var init := ps[..n];
      FromPairsHasKeys(init);
      assert FromPairs(ps) == Put(FromPairs(init), ps[n].0, ps[n].1);
      forall i | 0 <= i < n
        ensures ps[i].0 in FromPairs(ps).m
      {
        assert init[i] == ps[i];
      }
    }
  }

  /** The value of a key is the value of the last pair mentioning it. */
  lemma {:induction false} FromPairsValueIsLast<K(!new), V>(ps: seq<(K, V)>, k: K)
    requires k in FromPairs(ps).m
    ensures exists i :: LastFor(ps, i, k) && ps[i].1 == FromPairs(ps).m[k]
  {
    var n := |ps| - 1;
    var init := ps[..n];
    var prev := FromPairs(init);
    assert FromPairs(ps) == Put(prev, ps[n].0, ps[n].1);
    if k == ps[n].0 {
      assert FromPairs(ps).m[k] == ps[n].1;
      assert LastFor(ps, n, k);
    } else {
      assert k in prev.m && FromPairs(ps).m[k] == prev.m[k];
      FromPairsValueIsLast(init, k);
      var i :| LastFor(init, i, k) && init[i].1 == prev.m[k];
      forall j | i < j < |ps|
        ensures ps[j].0 != k
      {
        if j < n {
          assert init[j] == ps[j];
        }
      }
      assert init[i] == ps[i];
      assert LastFor(ps, i, k);
    }
  }
}

=== FILE: enumeration.dfy ===
/**
 Enumeration pre- and post-processing of generate_structures
 (src/tasks/gen_str.py): validation of the tagged template, reduction of the
 template to binding-site atoms, the per-site species pool handed to the
 lattice enumerator, and the conversion of each enumerated labelling into a
 stored record carrying per-adsorbate coverages. The enumerator itself
 (icet.tools.enumerate_structures) is a parameter.
 */
module Enumeration {
  import opened Errors
  import opened Atoms
  import opened Store
  import opened Text
  import opened Seqs
  import Dicts

  /**
   An adsorbate: its atoms, the index of the atom binding to the surface (a
   Python index, so negative values count from the end), its chemical formula.
   */
  datatype AdsorbateDef = AdsorbateDef(sites: seq<Site>, binding: int, formula: string)

  /** The vacancy label of the enumeration. */
  const Vacancy: string := "X"
  /** The label an adsorbate centre carries in the reduced template. */
  const CentreLabel: string := "O"
  /** The key under which each record stores the top-layer reference index. */
  const TopKey: string := "top_layer_atom_index"

  // ---------------------------------------------------------------------------
  // Validation (gen_str.py:33-49)
  // ---------------------------------------------------------------------------

  predicate AllTagsKnown(sites: seq<Site>) {
    forall i :: 0 <= i < |sites| ==> 0 <= sites[i].tag <= 2
  }

  /**
   The checks in the order generate_structures makes them: placeholder capacity, then a
   tag 2, a tag 1, a tag 0, and finally the tag domain.
   */
  function Validate(sites: seq<Site>, nAdsorbates: nat, nPlaceholders: nat): (r: Result<()>)
    ensures r.Ok? <==> nAdsorbates <= nPlaceholders && TagSet(sites) == {0, 1, 2}
    ensures nAdsorbates > nPlaceholders ==> r == Err(TooManyAdsorbates)
    ensures nAdsorbates <= nPlaceholders && !HasTag(sites, 2) ==> r == Err(AdsorbatesNotTagged)
    ensures nAdsorbates <= nPlaceholders && HasTag(sites, 2) && !HasTag(sites, 1) ==> r == Err(SurfaceNotTagged)
    ensures nAdsorbates <= nPlaceholders && HasTag(sites, 2) && HasTag(sites, 1) && !HasTag(sites, 0) ==>
      r == Err(BulkTag)
    ensures (nAdsorbates <= nPlaceholders && HasTag(sites, 2) && HasTag(sites, 1) && HasTag(sites, 0)
             && !AllTagsKnown(sites)) ==> r == Err(InvalidTag)
  {
    var ok := if nAdsorbates > nPlaceholders then Err(TooManyAdsorbates)
      else if !HasTag(sites, 2) then Err(AdsorbatesNotTagged)
      else if !HasTag(sites, 1) then Err(SurfaceNotTagged)
      else if !HasTag(sites, 0) then Err(BulkTag)
      else if !AllTagsKnown(sites) then Err(InvalidTag)
      else Ok(());
    TagSetCharacterisation(sites);
    ok
  }

  /** The tags are exactly {0, 1, 2} iff each occurs and no other does. */
  lemma TagSetCharacterisation(sites: seq<Site>)
    ensures TagSet(sites) == {0, 1, 2} <==>
      HasTag(sites, 0) && HasTag(sites, 1) && HasTag(sites, 2) && AllTagsKnown(sites)
  {
    if TagSet(sites) == {0, 1, 2} {
      assert 0 in TagSet(sites) && 1 in TagSet(sites) && 2 in TagSet(sites);
      forall i | 0 <= i < |sites|
        ensures 0 <= sites[i].tag <= 2
      {
        assert sites[i].tag in TagSet(sites);
      }
    }
    if HasTag(sites, 0) && HasTag(sites, 1) && HasTag(sites, 2) && AllTagsKnown(sites) {
      var i0 :| 0 <= i0 < |sites| && sites[i0].tag == 0;
      var i1 :| 0 <= i1 < |sites| && sites[i1].tag == 1;
      var i2 :| 0 <= i2 < |sites| && sites[i2].tag == 2;
      assert sites[i0].tag in TagSet(sites);
      assert sites[i1].tag in TagSet(sites);
      assert sites[i2].tag in TagSet(sites);
    }
  }

  // ---------------------------------------------------------------------------
  // Top-layer reference (gen_str.py:55-61)
  // ---------------------------------------------------------------------------

  /** The reference stored with every record and the height used to place adsorbates. */
  datatype TopRef = TopRef(index: int, surfaceZ: real)

  /** Heights of the sites that are not adsorbates. */
  function HostHeights(sites: seq<Site>): (zs: seq<real>)
    ensures forall k :: 0 <= k < |zs| ==> exists i :: 0 <= i < |sites| && sites[i].tag != 2 && sites[i].z == zs[k]
    ensures forall i :: 0 <= i < |sites| && sites[i].tag != 2 ==> sites[i].z in zs
    ensures |zs| == 0 <==> !exists i :: 0 <= i < |sites| && sites[i].tag != 2
  {
    if |sites| == 0 then []
    else
      var rest := HostHeights(sites[1..]);
      assert forall i :: 1 <= i < |sites| ==> sites[1..][i - 1] == sites[i];
      if sites[0].tag != 2 then [sites[0].z] + rest else rest
  }

  /** The lowest index of a site at height z, when there is one. */
  function FirstAtHeight(sites: seq<Site>, z: real): (i: nat)
    ensures i <= |sites|
    ensures i < |sites| ==> sites[i].z == z
    ensures forall k :: 0 <= k < i ==> sites[k].z != z
  {
    if |sites| == 0 then 0
    else if sites[0].z == z then 0
    else 1 + FirstAtHeight(sites[1..], z)
  }

  /** A Python index into a sequence of length n: negative values count from the end. */
  predicate PyIndexOk(t: int, n: nat) {
    -(n as int) <= t < n
  }

  function PyIndex(t: int, n: nat): (k: nat)
    requires PyIndexOk(t, n)
    ensures k < n
  {
    if t < 0 then t + n else t
  }

  /**
   The index stored in the template's info when there is one (its site giving
   the reference height), otherwise the lowest-index site at the largest
   height of any non-adsorbate site.
   */
  function TopReference(prim: Structure): (r: Result<TopRef>)
    ensures prim.topIndex.Some? ==>
      (r.Ok? <==> PyIndexOk(prim.topIndex.value, |prim.sites|))
    ensures prim.topIndex.Some? && r.Ok? ==>
      r.value.index == prim.topIndex.value
      && r.value.surfaceZ == prim.sites[PyIndex(prim.topIndex.value, |prim.sites|)].z
    ensures prim.topIndex.None? ==>
      (r.Ok? <==> exists i :: 0 <= i < |prim.sites| && prim.sites[i].tag != 2)
    ensures prim.topIndex.None? && r.Ok? ==>
      && 0 <= r.value.index < |prim.sites|
      && prim.sites[r.value.index].z == r.value.surfaceZ
      && (forall k :: 0 <= k < r.value.index ==> prim.sites[k].z != r.value.surfaceZ)
      && (forall i :: 0 <= i < |prim.sites| && prim.sites[i].tag != 2 ==> prim.sites[i].z <= r.value.surfaceZ)
      && (exists i :: 0 <= i < |prim.sites| && prim.sites[i].tag != 2 && prim.sites[i].z == r.value.surfaceZ)
    ensures r.Err? ==> r.error == IndexOutOfRange || r.error == EmptyReduction
  {
    match prim.topIndex
    case Some(t) =>
      if PyIndexOk(t, |prim.sites|) then Ok(TopRef(t, prim.sites[PyIndex(t, |prim.sites|)].z))
      else Err(IndexOutOfRange)
    case None =>
      var zs := HostHeights(prim.sites);
      if |zs| == 0 then Err(EmptyReduction)
      else
        var z := Max(zs);
        var i := FirstAtHeight(prim.sites, z);
        Ok(TopRef(i, z))
  }

  // ---------------------------------------------------------------------------
  // Template reduction (gen_str.py:63-69)
  // ---------------------------------------------------------------------------

  function Relabel(s: Site): Site {
    s.(symbol := CentreLabel)
  }

  /**
   The reduced template: the sites whose original index starts at base, with
   adsorbate sites that are not centres dropped and centres relabelled.
   */
  function Reduced(sites: seq<Site>, centres: seq<int>, base: int): seq<Site>
    decreases |sites|
  {
    if |sites| == 0 then []
    else ReducedHead(sites[0], centres, base) + Reduced(sites[1..], centres, base + 1)
  }

  /**
   The reduced template keeps every non-adsorbate site, in order, and every
   adsorbate site it keeps is a centre relabelled 'O'.
   */
  lemma {:induction false} ReducedKeepsHosts(sites: seq<Site>, centres: seq<int>, base: int)
    ensures forall k :: 0 <= k < |Reduced(sites, centres, base)| ==>
      Reduced(sites, centres, base)[k].tag != 2 || Reduced(sites, centres, base)[k].symbol == CentreLabel
    ensures WithoutTag(Reduced(sites, centres, base), 2) == WithoutTag(sites, 2)
    decreases |sites|
  {
    if |sites| > 0 {
      var head := ReducedHead(sites[0], centres, base);
      var tail := Reduced(sites[1..], centres, base + 1);
      ReducedKeepsHosts(sites[1..], centres, base + 1);
      assert sites == [sites[0]] + sites[1..];
      WithoutTagAppend(head, tail);
      WithoutTagAppend([sites[0]], sites[1..]);
    }
  }

  /** What becomes of the site at original index i. */
  function ReducedHead(s: Site, centres: seq<int>, i: int): seq<Site> {
    if s.tag != 2 then [s]
    else if i in centres then [Relabel(s)]
    else []
  }

  lemma {:induction false} WithoutTagAppend(a: seq<Site>, b: seq<Site>)
    ensures WithoutTag(a + b, 2) == WithoutTag(a, 2) + WithoutTag(b, 2)
  {
    if |a| == 0 {
      assert a + b == b;
    } else {
      var ab := a + b;
      var tail := a[1..];
      assert ab[0] == a[0] && ab[1..] == tail + b;
      WithoutTagAppend(tail, b);
      WithoutTagStep(ab);
      WithoutTagStep(a);
      if a[0].tag != 2 {
        SeqAssoc([a[0]], WithoutTag(tail, 2), WithoutTag(b, 2));
      }
    }
  }

  /** One unfolding of WithoutTag. */
  lemma WithoutTagStep(s: seq<Site>)
    requires |s| > 0
    ensures WithoutTag(s, 2) == (if s[0].tag == 2 then [] else [s[0]]) + WithoutTag(s[1..], 2)
  {
    if s[0].tag == 2 {
      assert [] + WithoutTag(s[1..], 2) == WithoutTag(s[1..], 2);
    }
  }

  lemma SeqAssoc<T>(x: seq<T>, y: seq<T>, z: seq<T>)
    ensures x + (y + z) == (x + y) + z
  {
  }

  /** The number of adsorbate sites, from original index base on, that are centres. */
  function CentresKept(sites: seq<Site>, centres: seq<int>, base: int): nat
    decreases |sites|
  {
    if |sites| == 0 then 0
    else (if sites[0].tag == 2 && base in centres then 1 else 0) + CentresKept(sites[1..], centres, base + 1)
  }

  /** Only the centres survive of the adsorbate sites; everything else is kept. */
  lemma {:induction false} ReducedSize(sites: seq<Site>, centres: seq<int>, base: int)
    ensures |Reduced(sites, centres, base)| == |sites| - CountTag(sites, 2) + CentresKept(sites, centres, base)
    ensures CountTag(Reduced(sites, centres, base), 2) == CentresKept(sites, centres, base)
    decreases |sites|
  {
    if |sites| > 0 {
      ReducedSize(sites[1..], centres, base + 1);
      var head := if sites[0].tag != 2 then [sites[0]]
        else if base in centres then [Relabel(sites[0])]
        else [];
      CountTagAppend(head, Reduced(sites[1..], centres, base + 1), 2);
    }
  }

  /**
   The template loop of generate_structures: walk the indices from the last down to the first,
   deleting non-centre adsorbate sites and relabelling centres. Deleting at i
   leaves indices below i untouched, so the result is the reduced template.
   */
  method ReduceTemplate(sites: seq<Site>, centres: seq<int>) returns (cur: seq<Site>)
    ensures cur == Reduced(sites, centres, 0)
  {
    cur := sites;
    var i := |sites|;
    while i > 0
      invariant 0 <= i <= |sites|
      invariant cur == sites[..i] + Reduced(sites[i..], centres, i)
    {
      i := i - 1;
      var tail := Reduced(sites[i + 1..], centres, i + 1);
      assert sites[i..] == [sites[i]] + sites[i + 1..];
      assert sites[i..][1..] == sites[i + 1..];
      assert Reduced(sites[i..], centres, i) == ReducedHead(sites[i], centres, i) + tail;
      assert sites[..i + 1] == sites[..i] + [sites[i]];
      assert cur == sites[..i] + [sites[i]] + tail;
      assert cur[..i] == sites[..i] && cur[i] == sites[i] && cur[i + 1..] == tail;
      if cur[i].tag == 2 {
        if i !in centres {
          cur := cur[..i] + cur[i + 1..];
        } else {
          cur := cur[..i] + [Relabel(cur[i])] + cur[i + 1..];
        }
      }
      assert cur == sites[..i] + ReducedHead(sites[i], centres, i) + tail;
    }
  }

  // ---------------------------------------------------------------------------
  // Species pool and cell sizes (gen_str.py:76-87)
  // ---------------------------------------------------------------------------

  /**
   The adsorbate a symbol stands for. The dictionary built at gen_str.py:76-77
   assigns placeholders[j] := adsorbate j for each j < k in turn, so the
   symbol stands for the last of the first k adsorbates whose placeholder it
   is.
   */
  function Identity(placeholders: seq<string>, k: nat, sym: string): (r: Option<nat>)
    ensures r.Some? ==> r.value < k && r.value < |placeholders| && placeholders[r.value] == sym
    ensures r.Some? ==> forall j :: r.value < j < k && j < |placeholders| ==> placeholders[j] != sym
    ensures r.None? ==> forall j :: 0 <= j < k && j < |placeholders| ==> placeholders[j] != sym
  {
    if k == 0 then None
    else if k - 1 < |placeholders| && placeholders[k - 1] == sym then Some(k - 1)
    else Identity(placeholders, k - 1, sym)
  }

  /** The assignments made at gen_str.py:76-77, in order. */
  function PlaceholderPairs(placeholders: seq<string>, k: nat): (ps: seq<(string, nat)>)
    requires k <= |placeholders|
    ensures |ps| == k && forall j :: 0 <= j < k ==> ps[j] == (placeholders[j], j)
  {
    seq(k, j requires 0 <= j < k => (placeholders[j], j))
  }

  /**
   Identity is the lookup in the dictionary those assignments build: a symbol
   stands for an adsorbate exactly when it is a key, and then for the one the
   dictionary holds.
   */
  lemma IdentityIsTheDictionary(placeholders: seq<string>, k: nat, sym: string)
    requires k <= |placeholders|
    ensures var d := Dicts.FromPairs(PlaceholderPairs(placeholders, k)).m;
      (Identity(placeholders, k, sym).Some? <==> sym in d)
      && (sym in d ==> Identity(placeholders, k, sym) == Some(d[sym]))
  {
    var ps := PlaceholderPairs(placeholders, k);
    var d := Dicts.FromPairs(ps).m;
    Dicts.FromPairsLastWins(ps);
    if sym in d {
      var i :| Dicts.LastFor(ps, i, sym) && ps[i].1 == d[sym];
      LastAssignmentIsIdentity(placeholders, k, sym, i);
    } else {
      forall j | 0 <= j < k
        ensures placeholders[j] != sym
      {
        assert ps[j].0 == placeholders[j];
      }
    }
  }

  lemma LastAssignmentIsIdentity(placeholders: seq<string>, k: nat, sym: string, i: int)
    requires k <= |placeholders|
    requires Dicts.LastFor(PlaceholderPairs(placeholders, k), i, sym)
    ensures Identity(placeholders, k, sym) == Some(i) && PlaceholderPairs(placeholders, k)[i].1 == i
  {
    var ps := PlaceholderPairs(placeholders, k);
    assert ps[i] == (placeholders[i], i);
    forall j | i < j < k
      ensures placeholders[j] != sym
    {
      assert ps[j] == (placeholders[j], j);
    }
  }

  /** With distinct placeholders, the j-th one stands for adsorbate j. */
  lemma IdentityOfPlaceholder(placeholders: seq<string>, k: nat, j: nat)
    requires Distinct(placeholders) && j < k <= |placeholders|
    ensures Identity(placeholders, k, placeholders[j]) == Some(j)
  {
  }

  /** The labels each reduced site may take: vacancy or one placeholder per adsorbate for centres, its own symbol otherwise. */
  function SpeciesPool(reduced: seq<Site>, placeholders: seq<string>, k: nat): (pool: seq<seq<string>>)
    requires k <= |placeholders|
    ensures |pool| == |reduced|
    ensures forall i :: 0 <= i < |reduced| && reduced[i].tag == 2 ==> pool[i] == [Vacancy] + placeholders[..k]
    ensures forall i :: 0 <= i < |reduced| && reduced[i].tag != 2 ==> pool[i] == [reduced[i].symbol]
  {
    seq(|reduced|, i requires 0 <= i < |reduced| =>
      if reduced[i].tag == 2 then [Vacancy] + placeholders[..k] else [reduced[i].symbol])
  }

  /**
   Every label an adsorbate site may take is either the vacancy or the
   placeholder of exactly the adsorbate at the same position.
   */
  lemma PoolLabelsResolve(reduced: seq<Site>, placeholders: seq<string>, k: nat, i: nat)
    requires k <= |placeholders| && Distinct(placeholders)
    requires i < |reduced| && reduced[i].tag == 2
    ensures var p := SpeciesPool(reduced, placeholders, k)[i];
      p[0] == Vacancy && |p| == k + 1
      && forall j :: 0 <= j < k ==> Identity(placeholders, k, p[j + 1]) == Some(j)
  {
    var p := SpeciesPool(reduced, placeholders, k)[i];
    forall j | 0 <= j < k
      ensures Identity(placeholders, k, p[j + 1]) == Some(j)
    {
      assert p[j + 1] == placeholders[j];
      IdentityOfPlaceholder(placeholders, k, j);
    }
  }

  /** range(1, cellSize): every size from 1 up to but excluding cellSize. */
  function CellSizes(cellSize: int): (r: seq<int>)
    ensures forall x :: x in r <==> 1 <= x < cellSize
    ensures forall k, l :: 0 <= k < l < |r| ==> r[k] < r[l]
    ensures cellSize !in r
  {
    if cellSize <= 1 then []
    else
      var r := seq(cellSize - 1, k requires 0 <= k < cellSize - 1 => k + 1);
      forall x | 1 <= x < cellSize
        ensures x in r
      {
        assert r[x - 1] == x;
      }
      r
  }

  // ---------------------------------------------------------------------------
  // Post-processing of one labelling (gen_str.py:91-119)
  // ---------------------------------------------------------------------------

  /** What the enumeration fixed for the post-processing of every labelling. */
  datatype Context = Context(
    ads: seq<AdsorbateDef>,       // the adsorbates, placeholder j standing for ads[j]
    placeholders: seq<string>,
    surfaceZs: set<real>,         // heights of the template's top-layer (tag 1) sites
    topIndex: int,                // stored under TopKey and used by add_adsorbate
    surfaceZ: real,               // the template's reference height
    fixedLayers: set<real>)       // heights to freeze; empty when none are known

  datatype Label = Vacant | Placeholder(j: nat) | Host

  /** Adsorbate j is the one its placeholder stands for (no later adsorbate shares the placeholder). */
  predicate Named(ctx: Context, j: nat) {
    j < |ctx.ads| && j < |ctx.placeholders| && Identity(ctx.placeholders, |ctx.ads|, ctx.placeholders[j]) == Some(j)
  }

  /** The vacancy test comes first, then the placeholder lookup. */
  function Classify(ctx: Context, sym: string): (l: Label)
    ensures l.Placeholder? ==> Named(ctx, l.j) && ctx.placeholders[l.j] == sym
    ensures l.Vacant? <==> sym == Vacancy
    ensures l.Host? <==> sym != Vacancy && forall j :: 0 <= j < |ctx.ads| && j < |ctx.placeholders| ==> ctx.placeholders[j] != sym
  {
    if sym == Vacancy then Vacant
    else match Identity(ctx.placeholders, |ctx.ads|, sym)
      case Some(j) => Placeholder(j)
      case None => Host
  }

  /** The coverage key of adsorbate j: its formula in lower case. */
  function KeyOf(ctx: Context, j: nat): string
    requires j < |ctx.ads|
  {
    Lower(ctx.ads[j].formula)
  }

  /**
   add_adsorbate: the adsorbate is translated rigidly so that its binding atom
   (a Python index into its atoms) sits height above the reference height
   base; every atom is tagged 2. A binding index out of range raises.
   */
  function Place(a: AdsorbateDef, base: real, height: real): (r: Result<seq<Site>>)
    ensures r.Ok? <==> PyIndexOk(a.binding, |a.sites|)
    ensures r.Err? ==> r.error == IndexOutOfRange
    ensures r.Ok? ==> |r.value| == |a.sites|
    ensures r.Ok? ==> forall k :: 0 <= k < |r.value| ==>
      r.value[k].tag == 2 && r.value[k].symbol == a.sites[k].symbol && r.value[k].magmom == a.sites[k].magmom
    ensures r.Ok? ==> r.value[PyIndex(a.binding, |a.sites|)].z == base + height
    ensures r.Ok? ==> forall k, l :: 0 <= k < |r.value| && 0 <= l < |r.value| ==>
      r.value[k].z - r.value[l].z == a.sites[k].z - a.sites[l].z
  {
    if !PyIndexOk(a.binding, |a.sites|) then Err(IndexOutOfRange)
    else
      var b := PyIndex(a.binding, |a.sites|);
      Ok(seq(|a.sites|, k requires 0 <= k < |a.sites| =>
        Site(a.sites[k].symbol, 2, base + height + (a.sites[k].z - a.sites[b].z), a.sites[k].magmom)))
  }

  /** A host site re-tagged: top layer (1) iff its height is one of the template's surface heights. */
  function Retag(ctx: Context, s: Site): Site {
    s.(tag := if s.z in ctx.surfaceZs then 1 else 0)
  }

  /** The number of host sites at a surface height: the coverage denominator. */
  function TopCount(ctx: Context, sites: seq<Site>): nat {
    if |sites| == 0 then 0
    else
      (if Classify(ctx, sites[0].symbol).Host? && sites[0].z in ctx.surfaceZs then 1 else 0)
      + TopCount(ctx, sites[1..])
  }

  /** The host sites, re-tagged, in their order. */
  function Hosts(ctx: Context, sites: seq<Site>): (r: seq<Site>)
    ensures |r| <= |sites|
    ensures forall k :: 0 <= k < |r| ==> r[k].tag == 0 || r[k].tag == 1
    ensures CountTag(r, 1) == TopCount(ctx, sites)
  {
    if |sites| == 0 then []
    else
      var rest := Hosts(ctx, sites[1..]);
      if Classify(ctx, sites[0].symbol).Host? then
        CountTagAppend([Retag(ctx, sites[0])], rest, 1);
        [Retag(ctx, sites[0])] + rest
      else rest
  }

  /**
   The height add_adsorbate reads when the placeholder at index j is replaced:
   that of the site at the stored top-layer index (a Python index) in the copy
   as it stands then. The copy still holds the sites below j unchanged, then
   the hosts above j (every vacancy and placeholder above j already deleted),
   then the adsorbate atoms placed so far.
   */
  function ReferenceHeight(ctx: Context, sites: seq<Site>, j: nat, placed: seq<Site>): (r: Result<real>)
    requires j < |sites|
    ensures r.Ok? <==> PyIndexOk(ctx.topIndex, j + |Hosts(ctx, sites[j + 1..])| + |placed|)
    ensures r.Err? ==> r.error == IndexOutOfRange
    ensures 0 <= ctx.topIndex < j ==> r == Ok(sites[ctx.topIndex].z)
  {
    var slab := sites[..j] + Hosts(ctx, sites[j + 1..]) + placed;
    if PyIndexOk(ctx.topIndex, |slab|) then Ok(slab[PyIndex(ctx.topIndex, |slab|)].z)
    else Err(IndexOutOfRange)
  }

  /** The number of adsorbate atoms the placeholder sites among sites stand for. */
  function PlacedAtoms(ctx: Context, sites: seq<Site>): nat {
    if |sites| == 0 then 0
    else
      PlacedAtoms(ctx, sites[..|sites| - 1])
      + match Classify(ctx, sites[|sites| - 1].symbol)
        case Placeholder(a) => |ctx.ads[a].sites|
        case _ => 0
  }

  /**
   The placement loop of generate_structures from index i - 1 down to 0, given the atoms placed for
   the indices from i on: each placeholder site is replaced by its adsorbate,
   placed relative to the reference height at that moment, the new atoms
   appended after those already placed.
   */
  function PlaceFrom(ctx: Context, sites: seq<Site>, i: nat, placed: seq<Site>): (r: Result<seq<Site>>)
    requires i <= |sites|
    ensures r.Err? ==> r.error == IndexOutOfRange
    ensures r.Ok? ==> |r.value| == |placed| + PlacedAtoms(ctx, sites[..i]) && r.value[..|placed|] == placed
    ensures r.Ok? ==> forall k :: |placed| <= k < |r.value| ==> r.value[k].tag == 2
    decreases i
  {
    if i == 0 then Ok(placed)
    else
      var j := i - 1;
      assert sites[..i][..j] == sites[..j];
      match Classify(ctx, sites[j].symbol)
      case Placeholder(a) =>
        (match ReferenceHeight(ctx, sites, j, placed)
         case Err(e) => Err(e)
         case Ok(base) =>
           match Place(ctx.ads[a], base, sites[j].z - ctx.surfaceZ)
           case Err(e) => Err(e)
           case Ok(here) =>
             var r := PlaceFrom(ctx, sites, j, placed + here);
             if r.Ok? then ExtendPlaced(placed, here, r.value); r else r)
      case _ => PlaceFrom(ctx, sites, j, placed)
  }

  /** Atoms placed after placed + here, all tagged 2, extend placed by atoms tagged 2. */
  lemma ExtendPlaced(placed: seq<Site>, here: seq<Site>, out: seq<Site>)
    requires |out| >= |placed| + |here| && out[..|placed + here|] == placed + here
    requires forall k :: 0 <= k < |here| ==> here[k].tag == 2
    requires forall k :: |placed + here| <= k < |out| ==> out[k].tag == 2
    ensures out[..|placed|] == placed
    ensures forall k :: |placed| <= k < |out| ==> out[k].tag == 2
  {
    assert out[..|placed|] == (placed + here)[..|placed|];
    forall k | |placed| <= k < |placed + here|
      ensures out[k].tag == 2
    {
      assert out[k] == (placed + here)[k] == here[k - |placed|];
    }
  }

  /** The adsorbate atoms placed at placeholder sites, in the order generate_structures appends them. */
  function Placed(ctx: Context, sites: seq<Site>): (r: Result<seq<Site>>)
    ensures r.Err? ==> r.error == IndexOutOfRange
    ensures r.Ok? ==> |r.value| == PlacedAtoms(ctx, sites)
    ensures r.Ok? ==> forall k :: 0 <= k < |r.value| ==> r.value[k].tag == 2
  {
    assert sites[..|sites|] == sites;
    PlaceFrom(ctx, sites, |sites|, [])
  }

  /** How many placeholder sites stand for an adsorbate whose key is f. */
  function PlacedCount(ctx: Context, sites: seq<Site>, f: string): nat {
    if |sites| == 0 then 0
    else
      (match Classify(ctx, sites[0].symbol)
       case Placeholder(j) => if KeyOf(ctx, j) == f then 1 else 0
       case _ => 0)
      + PlacedCount(ctx, sites[1..], f)
  }

  /**
   The coverage keys, distinct: the lower-cased formulas of the adsorbates
   the placeholder dictionary holds.
   */
  function Keys(ctx: Context, n: nat): (r: seq<string>)
    requires n <= |ctx.ads|
    ensures Distinct(r)
    ensures forall f :: f in r <==> exists j :: 0 <= j < n && Named(ctx, j) && KeyOf(ctx, j) == f
  {
    if n == 0 then []
    else
      var rest := Keys(ctx, n - 1);
      if Named(ctx, n - 1) && KeyOf(ctx, n - 1) !in rest then rest + [KeyOf(ctx, n - 1)] else rest
  }

  /**
   The record written for one labelling. Placing an adsorbate can raise
   IndexError; after the loop, the coverage division raises when there are
   coverage keys and no top-layer host.
   */
  function Postprocess(ctx: Context, lab: Structure): (r: Result<Row>)
    ensures r == Err(IndexOutOfRange) <==> Placed(ctx, lab.sites).Err?
    ensures r == Err(ZeroDivision) <==>
      Placed(ctx, lab.sites).Ok? && (exists j :: 0 <= j < |ctx.ads| && Named(ctx, j)) && TopCount(ctx, lab.sites) == 0
    ensures r.Err? ==> r.error == IndexOutOfRange || r.error == ZeroDivision
    ensures r.Ok? ==> r.value.atoms.sites == Hosts(ctx, lab.sites) + Placed(ctx, lab.sites).value
    ensures r.Ok? ==> r.value.atoms.topIndex.None? && r.value.atoms.results.None?
    ensures r.Ok? ==> TopKey in r.value.kvp && r.value.kvp[TopKey] == IntV(ctx.topIndex)
    ensures r.Ok? ==> forall j :: 0 <= j < |ctx.ads| && Named(ctx, j) && KeyOf(ctx, j) != TopKey ==>
      KeyOf(ctx, j) in r.value.kvp
      && r.value.kvp[KeyOf(ctx, j)] == RealV(PlacedCount(ctx, lab.sites, KeyOf(ctx, j)) as real
                                             / TopCount(ctx, lab.sites) as real)
    ensures r.Ok? ==> forall f :: f in r.value.kvp ==> f == TopKey || f in Keys(ctx, |ctx.ads|)
    ensures r.Ok? && |ctx.fixedLayers| > 0 ==>
      (|r.value.atoms.constraints| == 1
       && forall k: nat :: k in r.value.atoms.constraints[0] <==>
            k < |r.value.atoms.sites| && r.value.atoms.sites[k].z in ctx.fixedLayers)
    ensures r.Ok? && |ctx.fixedLayers| == 0 ==> r.value.atoms.constraints == lab.constraints
  {
    match Placed(ctx, lab.sites)
    case Err(e) => Err(e)
    case Ok(placed) =>
      var top := TopCount(ctx, lab.sites);
      KeysExistIffNamed(ctx);
      if |Keys(ctx, |ctx.ads|)| > 0 && top == 0 then Err(ZeroDivision)
      else Ok(RecordOf(ctx, lab, placed))
  }

  /** There is a coverage key exactly when the placeholder dictionary holds some adsorbate. */
  lemma KeysExistIffNamed(ctx: Context)
    ensures |Keys(ctx, |ctx.ads|)| > 0 <==> exists j :: 0 <= j < |ctx.ads| && Named(ctx, j)
  {
    var keys := Keys(ctx, |ctx.ads|);
    if |keys| > 0 {
      assert keys[0] in keys;
    }
    if exists j :: 0 <= j < |ctx.ads| && Named(ctx, j) {
      var j :| 0 <= j < |ctx.ads| && Named(ctx, j);
      assert KeyOf(ctx, j) in keys;
    }
  }

  /**
   The constraints written with a structure: with fixed heights, one FixAtoms
   over exactly the sites at those heights; otherwise the labelling's own.
   */
  function LayerConstraints(ctx: Context, sites: seq<Site>, given: seq<set<nat>>): (r: seq<set<nat>>)
    ensures |ctx.fixedLayers| > 0 ==>
      (|r| == 1 && forall k: nat :: k in r[0] <==> k < |sites| && sites[k].z in ctx.fixedLayers)
    ensures |ctx.fixedLayers| == 0 ==> r == given
  {
    if |ctx.fixedLayers| > 0 then [set k: nat | k < |sites| && sites[k].z in ctx.fixedLayers]
    else given
  }

  /**
   The row written once the adsorbates are placed and the division is safe.
   The copy of the labelling leaves any calculator behind, and the row does
   not keep the info dictionary, so the top index survives only as the
   top_layer_atom_index pair.
   */
  function RecordOf(ctx: Context, lab: Structure, placed: seq<Site>): (row: Row)
    requires |Keys(ctx, |ctx.ads|)| == 0 || TopCount(ctx, lab.sites) > 0
    ensures row.atoms.sites == Hosts(ctx, lab.sites) + placed
    ensures row.atoms.topIndex.None? && row.atoms.results.None?
    ensures TopKey in row.kvp && row.kvp[TopKey] == IntV(ctx.topIndex)
    ensures forall j :: 0 <= j < |ctx.ads| && Named(ctx, j) && KeyOf(ctx, j) != TopKey ==>
      KeyOf(ctx, j) in Keys(ctx, |ctx.ads|) && KeyOf(ctx, j) in row.kvp
      && row.kvp[KeyOf(ctx, j)] == RealV(PlacedCount(ctx, lab.sites, KeyOf(ctx, j)) as real
                                         / TopCount(ctx, lab.sites) as real)
    ensures forall f :: f in row.kvp ==> f == TopKey || f in Keys(ctx, |ctx.ads|)
    ensures |ctx.fixedLayers| > 0 ==>
      (|row.atoms.constraints| == 1
       && forall k: nat :: k in row.atoms.constraints[0] <==>
            k < |row.atoms.sites| && row.atoms.sites[k].z in ctx.fixedLayers)
    ensures |ctx.fixedLayers| == 0 ==> row.atoms.constraints == lab.constraints
  {
    var top := TopCount(ctx, lab.sites);
    var keys := Keys(ctx, |ctx.ads|);
    var cov := map f | f in keys :: RealV(PlacedCount(ctx, lab.sites, f) as real / top as real);
    var sites := Hosts(ctx, lab.sites) + placed;
    var constraints := LayerConstraints(ctx, sites, lab.constraints);
    var atoms := Stored(Structure(sites, lab.cell, constraints, Some(ctx.topIndex), None));
    assert forall j :: 0 <= j < |ctx.ads| && Named(ctx, j) ==> KeyOf(ctx, j) in keys;
    Row(atoms, cov[TopKey := IntV(ctx.topIndex)], map[])
  }

  // ---------------------------------------------------------------------------
  // Properties of the post-processing
  // ---------------------------------------------------------------------------

  /**
   The stored coverage can be recomputed from the record: the written sites
   (the hosts, then the placed atoms) tag as top layer exactly the sites the
   denominator counts, and tag as adsorbate exactly the placed atoms.
   */
  lemma TopLayerRecount(ctx: Context, lab: Structure)
    requires Placed(ctx, lab.sites).Ok?
    ensures CountTag(Hosts(ctx, lab.sites) + Placed(ctx, lab.sites).value, 1) == TopCount(ctx, lab.sites)
    ensures CountTag(Hosts(ctx, lab.sites) + Placed(ctx, lab.sites).value, 2) == PlacedAtoms(ctx, lab.sites)
  {
    var h := Hosts(ctx, lab.sites);
    var p := Placed(ctx, lab.sites).value;
    CountTagAppend(h, p, 1);
    CountTagAppend(h, p, 2);
    AllTaggedCount(p, 2);
    NoneTaggedCount(p, 1);
    NoneTaggedCount(h, 2);
  }

  lemma {:induction false} AllTaggedCount(s: seq<Site>, t: int)
    requires forall k :: 0 <= k < |s| ==> s[k].tag == t
    ensures CountTag(s, t) == |s|
  {
    if |s| > 0 {
      AllTaggedCount(s[1..], t);
    }
  }

  lemma {:induction false} NoneTaggedCount(s: seq<Site>, t: int)
    requires forall k :: 0 <= k < |s| ==> s[k].tag != t
    ensures CountTag(s, t) == 0
  {
    if |s| > 0 {
      NoneTaggedCount(s[1..], t);
    }
  }

  /** Vacancies and placeholders disappear; every host site survives, in order. */
  lemma {:induction false} HostsAreTheNonPlaceholderSites(ctx: Context, sites: seq<Site>)
    ensures |Hosts(ctx, sites)| == |sites| - LabelCount(ctx, sites, Vacant) - PlaceholderSites(ctx, sites)
    ensures forall k :: 0 <= k < |Hosts(ctx, sites)| ==>
      Hosts(ctx, sites)[k].symbol != Vacancy && Classify(ctx, Hosts(ctx, sites)[k].symbol).Host?
  {
    if |sites| > 0 {
      HostsAreTheNonPlaceholderSites(ctx, sites[1..]);
    }
  }

  function LabelCount(ctx: Context, sites: seq<Site>, l: Label): nat {
    if |sites| == 0 then 0
    else (if Classify(ctx, sites[0].symbol) == l then 1 else 0) + LabelCount(ctx, sites[1..], l)
  }

  function PlaceholderSites(ctx: Context, sites: seq<Site>): nat {
    if |sites| == 0 then 0
    else (if Classify(ctx, sites[0].symbol).Placeholder? then 1 else 0) + PlaceholderSites(ctx, sites[1..])
  }

  /** The count for one key, summed over a list of distinct keys. */
  function SumCounts(ctx: Context, sites: seq<Site>, keys: seq<string>): nat {
    if |keys| == 0 then 0 else PlacedCount(ctx, sites, keys[0]) + SumCounts(ctx, sites, keys[1..])
  }

  function Indicator(b: bool): nat {
    if b then 1 else 0
  }

  /** A key occurring once in a list of distinct keys is counted once. */
  lemma {:induction false} IndicatorSum(keys: seq<string>, f: string)
    requires Distinct(keys)
    ensures SumIndicator(keys, f) == Indicator(f in keys)
  {
    if |keys| > 0 {
      IndicatorSum(keys[1..], f);
      if keys[0] == f {
        assert f !in keys[1..] by {
          forall k | 0 <= k < |keys| - 1
            ensures keys[1..][k] != f
          {
            assert keys[1..][k] == keys[k + 1];
          }
        }
      }
    }
  }

  function SumIndicator(keys: seq<string>, f: string): nat {
    if |keys| == 0 then 0 else Indicator(keys[0] == f) + SumIndicator(keys[1..], f)
  }

  /**
   Every placeholder site increments exactly one coverage count: summed over
   all coverage keys, the counts equal the number of placeholder sites.
   */
  lemma {:induction false} EachPlaceholderCountedOnce(ctx: Context, sites: seq<Site>)
    ensures SumCounts(ctx, sites, Keys(ctx, |ctx.ads|)) == PlaceholderSites(ctx, sites)
  {
    var keys := Keys(ctx, |ctx.ads|);
    if |sites| > 0 {
      EachPlaceholderCountedOnce(ctx, sites[1..]);
      SumCountsSplit(ctx, sites, keys);
      var l := Classify(ctx, sites[0].symbol);
      if l.Placeholder? {
        assert KeyOf(ctx, l.j) in keys;
        IndicatorSum(keys, KeyOf(ctx, l.j));
        FirstSiteHitsIsIndicator(ctx, sites[0], keys, l.j);
        assert FirstSiteHits(ctx, sites[0], keys) == 1;
      } else {
        SumIndicatorNone(ctx, sites[0], keys);
      }
      assert PlaceholderSites(ctx, sites) == (if l.Placeholder? then 1 else 0) + PlaceholderSites(ctx, sites[1..]);
    } else {
      SumCountsNoSites(ctx, sites, keys);
    }
  }

  lemma {:induction false} SumCountsNoSites(ctx: Context, sites: seq<Site>, keys: seq<string>)
    requires |sites| == 0
    ensures SumCounts(ctx, sites, keys) == 0
  {
    if |keys| > 0 {
      SumCountsNoSites(ctx, sites, keys[1..]);
    }
  }

  /** Splitting off the first site splits every count. */
  lemma {:induction false} SumCountsSplit(ctx: Context, sites: seq<Site>, keys: seq<string>)
    requires |sites| > 0
    ensures SumCounts(ctx, sites, keys) == SumCounts(ctx, sites[1..], keys) + FirstSiteHits(ctx, sites[0], keys)
  {
    if |keys| > 0 {
      SumCountsSplit(ctx, sites, keys[1..]);
    }
  }

  /** How many of the keys the first site's count contributes to. */
  function FirstSiteHits(ctx: Context, s: Site, keys: seq<string>): nat {
    if |keys| == 0 then 0
    else
      (match Classify(ctx, s.symbol)
       case Placeholder(j) => if KeyOf(ctx, j) == keys[0] then 1 else 0
       case _ => 0)
      + FirstSiteHits(ctx, s, keys[1..])
  }

  lemma {:induction false} SumIndicatorNone(ctx: Context, s: Site, keys: seq<string>)
    requires !Classify(ctx, s.symbol).Placeholder?
    ensures FirstSiteHits(ctx, s, keys) == 0
  {
    if |keys| > 0 {
      SumIndicatorNone(ctx, s, keys[1..]);
    }
  }

  lemma {:induction false} FirstSiteHitsIsIndicator(ctx: Context, s: Site, keys: seq<string>, j: nat)
    requires Classify(ctx, s.symbol) == Placeholder(j)
    ensures FirstSiteHits(ctx, s, keys) == SumIndicator(keys, KeyOf(ctx, j))
  {
    if |keys| > 0 {
      FirstSiteHitsIsIndicator(ctx, s, keys[1..], j);
    }
  }

  // ---------------------------------------------------------------------------
  // The whole task (gen_str.py:16-120)
  // ---------------------------------------------------------------------------

  /** icet.tools.enumerate_structures: template, cell sizes and species pool to labellings. */
  type Enumerator = (Structure, seq<int>, seq<seq<string>>) -> seq<Structure>

  /** Everything generate_structures settles before opening the store. */
  datatype Plan = Plan(ctx: Context, reduced: Structure, sizes: seq<int>, pool: seq<seq<string>>)

  /** The heights of the template's top-layer sites. */
  function SurfaceHeights(sites: seq<Site>): set<real> {
    set i | 0 <= i < |sites| && sites[i].tag == 1 :: sites[i].z
  }

  /**
   The fixed heights: the heights of the first constraint's atoms. A FixAtoms
   object is always true in a Python test, so an empty one yields no heights
   rather than falling back to the caller's. A template without constraints
   fails with IndexError, and so does a fixed index past the template's end.
   */
  function FixedLayers(prim: Structure): (r: Result<set<real>>)
    ensures r.Ok? <==> (|prim.constraints| > 0 && forall i :: i in prim.constraints[0] ==> i < |prim.sites|)
    ensures r.Err? ==> r.error == IndexOutOfRange
    ensures r.Ok? ==> forall z :: z in r.value <==> exists i :: i in prim.constraints[0] && prim.sites[i].z == z
    ensures r.Ok? && |prim.constraints[0]| == 0 ==> r.value == {}
  {
    if |prim.constraints| == 0 then Err(IndexOutOfRange)
    else
      var c := prim.constraints[0];
      if exists i :: i in c && i >= |prim.sites| then Err(IndexOutOfRange)
      else Ok(set i | i in c :: prim.sites[i].z)
  }

  /**
   Everything decided before the store is opened, with the failures in the
   order generate_structures meets them: validation, then the constraint lookup, then the top-layer
   reference. The caller's fixed layers are rebound by the constraint lookup
   whenever it succeeds, so they never reach the plan.
   */
  function MakePlan(prim: Structure, ads: seq<AdsorbateDef>, centres: seq<int>, cellSize: int,
                    placeholders: seq<string>, fixedLayers: set<real>): (r: Result<Plan>)
    ensures r.Ok? <==> (Validate(prim.sites, |ads|, |placeholders|).Ok?
      && FixedLayers(prim).Ok? && TopReference(prim).Ok?)
    ensures Validate(prim.sites, |ads|, |placeholders|).Err? ==>
      r == Err(Validate(prim.sites, |ads|, |placeholders|).error)
    ensures Validate(prim.sites, |ads|, |placeholders|).Ok? && FixedLayers(prim).Err? ==>
      r == Err(FixedLayers(prim).error)
    ensures (Validate(prim.sites, |ads|, |placeholders|).Ok? && FixedLayers(prim).Ok?
      && TopReference(prim).Err?) ==> r == Err(TopReference(prim).error)
    ensures r.Ok? ==> r.value.ctx.ads == ads && r.value.ctx.placeholders == placeholders
    ensures r.Ok? ==> r.value.ctx.surfaceZs == SurfaceHeights(prim.sites)
    ensures r.Ok? ==> (r.value.ctx.topIndex == TopReference(prim).value.index
      && r.value.ctx.surfaceZ == TopReference(prim).value.surfaceZ)
    ensures r.Ok? ==> r.value.ctx.fixedLayers == FixedLayers(prim).value
    ensures r.Ok? ==> r.value.reduced.sites == Reduced(prim.sites, centres, 0)
    ensures r.Ok? ==> r.value.sizes == CellSizes(cellSize)
    ensures r.Ok? ==> r.value.pool == SpeciesPool(r.value.reduced.sites, placeholders, |ads|)
  {
    var _ :- Validate(prim.sites, |ads|, |placeholders|);
    var fixed :- FixedLayers(prim);
    var top :- TopReference(prim);
    var reduced := prim.(sites := Reduced(prim.sites, centres, 0));
    var ctx := Context(ads, placeholders, SurfaceHeights(prim.sites), top.index, top.surfaceZ, fixed);
    Ok(Plan(ctx, reduced, CellSizes(cellSize), SpeciesPool(reduced.sites, placeholders, |ads|)))
  }

  /** Every labelling yields a record. */
  ghost predicate AllOk(ctx: Context, labs: seq<Structure>) {
    forall k :: 0 <= k < |labs| ==> Postprocess(ctx, labs[k]).Ok?
  }

  /** The records of the labellings, in order. */
  function Records(ctx: Context, labs: seq<Structure>): (rows: seq<Row>)
    requires AllOk(ctx, labs)
    ensures |rows| == |labs|
    ensures forall k :: 0 <= k < |labs| ==> rows[k] == Postprocess(ctx, labs[k]).value
  {
    seq(|labs|, k requires 0 <= k < |labs| => Postprocess(ctx, labs[k]).value)
  }

  /** The records of all labellings, or the failure of the first labelling that fails. */
  function Collect(ctx: Context, labs: seq<Structure>): (r: Result<seq<Row>>)
    ensures r.Ok? <==> AllOk(ctx, labs)
    ensures r.Ok? ==> r.value == Records(ctx, labs)
    ensures r.Err? ==> exists k :: FirstErrAt(Postprocessed(ctx, labs), k, r.error)
    ensures r.Err? ==> r.error == IndexOutOfRange || r.error == ZeroDivision
  {
    var rs := Postprocessed(ctx, labs);
    var r := AllOrFirstError(rs);
    assert r.Ok? ==> r.value == Records(ctx, labs) by {
      if r.Ok? {
        assert forall k :: 0 <= k < |labs| ==> r.value[k] == Records(ctx, labs)[k];
      }
    }
    assert r.Err? ==> r.error == IndexOutOfRange || r.error == ZeroDivision by {
      if r.Err? {
        var i :| FirstErrAt(rs, i, r.error);
      }
    }
    r
  }

  /** The result of each labelling, in order. */
  function Postprocessed(ctx: Context, labs: seq<Structure>): (rs: seq<Result<Row>>)
    ensures |rs| == |labs| && forall k :: 0 <= k < |labs| ==> rs[k] == Postprocess(ctx, labs[k])
  {
    seq(|labs|, k requires 0 <= k < |labs| => Postprocess(ctx, labs[k]))
  }

  /** The caller's fixed layers change nothing: any two choices give the same run. */
  lemma CallerLayersHaveNoEffect(prim: Structure, ads: seq<AdsorbateDef>, centres: seq<int>, cellSize: int,
                                 placeholders: seq<string>, f1: set<real>, f2: set<real>,
                                 enumerate: Enumerator, db: Db)
    requires Valid(db)
    ensures GenerateStructures(prim, ads, centres, cellSize, placeholders, f1, enumerate, db)
         == GenerateStructures(prim, ads, centres, cellSize, placeholders, f2, enumerate, db)
  {
  }

  /** The labellings the enumerator yields for a plan. */
  function Labellings(plan: Plan, enumerate: Enumerator): seq<Structure> {
    enumerate(plan.reduced, plan.sizes, plan.pool)
  }

  /**
   generate_structures: validate, plan, enumerate and store one record per
   labelling. Any failure leaves the store as it was: the store's context
   manager rolls back on an exception.
   */
  function GenerateStructures(prim: Structure, ads: seq<AdsorbateDef>, centres: seq<int>, cellSize: int,
                              placeholders: seq<string>, fixedLayers: set<real>,
                              enumerate: Enumerator, db: Db): (r: Result<Db>)
    requires Valid(db)
    ensures |ads| > |placeholders| ==> r == Err(TooManyAdsorbates)
    ensures |ads| <= |placeholders| && TagSet(prim.sites) != {0, 1, 2} ==>
      r.Err? && r.error in {AdsorbatesNotTagged, SurfaceNotTagged, BulkTag, InvalidTag}
    ensures var plan := MakePlan(prim, ads, centres, cellSize, placeholders, fixedLayers);
      r.Ok? <==> plan.Ok? && AllOk(plan.value.ctx, Labellings(plan.value, enumerate))
    ensures var plan := MakePlan(prim, ads, centres, cellSize, placeholders, fixedLayers);
      plan.Err? ==> r == Err(plan.error)
    ensures var plan := MakePlan(prim, ads, centres, cellSize, placeholders, fixedLayers);
      plan.Ok? && r.Err? ==>
        exists k :: FirstErrAt(Postprocessed(plan.value.ctx, Labellings(plan.value, enumerate)), k, r.error)
    ensures r.Ok? ==> Valid(r.value)
    ensures r.Ok? ==> |ads| <= |placeholders| && TagSet(prim.sites) == {0, 1, 2}
    ensures r.Ok? ==> var plan := MakePlan(prim, ads, centres, cellSize, placeholders, fixedLayers).value;
      var labs := Labellings(plan, enumerate);
      Appended(db, r.value, Records(plan.ctx, labs))
  {
    var plan :- MakePlan(prim, ads, centres, cellSize, placeholders, fixedLayers);
    var rows :- Collect(plan.ctx, Labellings(plan, enumerate));
    Ok(InsertAll(db, rows))
  }
}

=== FILE: errors.dfy ===
/**
 Failure-compatible result types and the distinct error conditions raised by
 the structure-generation, sampling, verification and training-data tasks.
 Every Python exception the tasks can raise is one variant, so callers can
 branch on each kind separately.
 */
module Errors {

  datatype Error =
    | TooManyAdsorbates       // more adsorbate types than placeholder symbols
    | AdsorbatesNotTagged     // no site tagged 2
    | SurfaceNotTagged        // no site tagged 1
    | BulkTag                 // no site tagged 0
    | InvalidTag              // a tag outside {0, 1, 2} (ValueError)
    | IndexOutOfRange         // IndexError on a sequence or a structure
    | EmptyReduction          // max() / np.max() of an empty collection (ValueError)
    | ZeroDivision            // a coverage denominator of zero
    | NoStructureMatchQuery   // a coverage query that selects no row
    | UnboundSampleCount      // the warning at gen_str.py:163 reads a name not yet bound
    | NegativeSampleSize      // random.sample with a negative size (ValueError)
    | KeyNotFound             // a lookup that matches no row or no key (KeyError)
    | MultipleRowsMatched     // db.get that matches more than one row (AssertionError)
    | FileNotFound            // a database that must exist does not
    | StructuresNotValidated  // fresh mode over an output store with unfinished rows
    | MissingAttribute        // a row without the attribute being read (AttributeError)
    | CannotUnpack            // iterating bare ids as (atoms, id, kvp) triples (TypeError)
    | NotADatabasePath        // a database path without ".db" (ValueError)
    | NoCalculator            // energies or forces read from a structure without results
    | CalculatorFailed        // the calculator raised while evaluating a structure

  datatype Option<+T> = None | Some(value: T)

  datatype Result<+T> = Ok(value: T) | Err(error: Error) {

    predicate IsFailure() {
      Err?
    }

    function PropagateFailure<U>(): Result<U>
      requires Err?
    {
      Err(error)
    }

    function Extract(): T
      requires Ok?
    {
      value
    }
  }

  /** Index i holds the first failure among rs, with error e. */
  ghost predicate FirstErrAt<T>(rs: seq<Result<T>>, i: int, e: Error) {
    0 <= i < |rs| && rs[i] == Err(e) && forall j :: 0 <= j < i ==> rs[j].Ok?
  }

  /** The values of rs in order, or the first failure among them: a loop that stops at the first error. */
  function AllOrFirstError<T>(rs: seq<Result<T>>): (r: Result<seq<T>>)
    ensures r.Ok? <==> forall i :: 0 <= i < |rs| ==> rs[i].Ok?
    ensures r.Ok? ==> |r.value| == |rs| && forall i :: 0 <= i < |rs| ==> r.value[i] == rs[i].value
    ensures r.Err? ==> exists i :: FirstErrAt(rs, i, r.error)
  {
    if |rs| == 0 then Ok([])
    else
      var n := |rs| - 1;
      var prev := AllOrFirstError(rs[..n]);
      assert forall i :: 0 <= i < n ==> rs[..n][i] == rs[i];
      if prev.Err? then
        assert exists i :: FirstErrAt(rs, i, prev.error) by {
          var i :| FirstErrAt(rs[..n], i, prev.error);
          assert FirstErrAt(rs, i, prev.error);
        }
        Err(prev.error)
      else if rs[n].Err? then
        assert FirstErrAt(rs, n, rs[n].error);
        Err(rs[n].error)
      else
        Ok(prev.value + [rs[n].value])
  }
}

=== FILE: graph.dfy ===
/**
 The adsorbate graph of a structure and its connected components. Its nodes
 are the adsorbate sites (tag 2) and the sites they are joined to; an
 adsorbate site is joined to each neighbour that is not a surface site (tag
 1). The neighbour relation is an input: entry u of the neighbour list is the
 set of site indices near site u. Components are closures under the
 symmetric adjacency, rooted at their lowest index.
 */
module Graph {
  import opened Atoms
  import opened Seqs

  /** An edge added for the adsorbate site u. Neighbour indices outside the structure are not edges. */
  predicate Edge(sites: seq<Site>, nbrs: seq<set<nat>>, u: nat, v: nat) {
    && u < |sites| && u < |nbrs| && v < |sites|
    && sites[u].tag == AdsorbateTag && v in nbrs[u] && sites[v].tag != SurfaceTag
  }

  /** The graph is undirected: u and v are adjacent when either added an edge to the other. */
  predicate Adjacent(sites: seq<Site>, nbrs: seq<set<nat>>, u: nat, v: nat) {
    Edge(sites, nbrs, u, v) || Edge(sites, nbrs, v, u)
  }

  /** The nodes: every adsorbate site, and every site an edge reaches. */
  predicate IsNode(sites: seq<Site>, nbrs: seq<set<nat>>, x: nat) {
    (x < |sites| && sites[x].tag == AdsorbateTag) || exists u: nat :: u < |sites| && Edge(sites, nbrs, u, x)
  }

  /** Both ends of an adjacency are nodes. */
  lemma AdjacentAreNodes(sites: seq<Site>, nbrs: seq<set<nat>>, u: nat, v: nat)
    requires Adjacent(sites, nbrs, u, v)
    ensures IsNode(sites, nbrs, u) && IsNode(sites, nbrs, v)
  {
  }

  /** Indices of the structure, as a set bound. */
  predicate InSites(sites: seq<Site>, s: set<nat>) {
    forall x :: x in s ==> x < |sites|
  }

  /** One step of growth: s together with every site adjacent to a member of s. */
  function Grow(sites: seq<Site>, nbrs: seq<set<nat>>, s: set<nat>): (g: set<nat>)
    requires InSites(sites, s)
    ensures s <= g && InSites(sites, g)
    ensures forall v: nat :: v in g <==> v in s || exists u :: u in s && Adjacent(sites, nbrs, u, v)
  {
    s + set u, v: nat | u in s && v < |sites| && Adjacent(sites, nbrs, u, v) :: v
  }

  lemma ProperSubsetIsSmaller<T>(a: set<T>, b: set<T>)
    requires a <= b && a != b
    ensures |a| < |b|
  {
    var x :| x in b && x !in a;
    assert a <= b - {x};
    SubsetCardinality(a, b - {x});
  }

  /** The sites reachable from s: grow until nothing changes. */
  function Closure(sites: seq<Site>, nbrs: seq<set<nat>>, s: set<nat>): (c: set<nat>)
    requires InSites(sites, s)
    ensures s <= c && InSites(sites, c)
    decreases |sites| - |s|
  {
    var g := Grow(sites, nbrs, s);
    SubsetOfRangeIsSmall(g, |sites|);
    if g == s then s
    else
      ProperSubsetIsSmaller(s, g);
      Closure(sites, nbrs, g)
  }

  /** No adjacency leaves t. */
  ghost predicate Closed(sites: seq<Site>, nbrs: seq<set<nat>>, t: set<nat>) {
    forall u: nat, v: nat :: u in t && Adjacent(sites, nbrs, u, v) ==> v in t
  }

  /** The closure is closed under adjacency. */
  lemma {:induction false} ClosureIsClosed(sites: seq<Site>, nbrs: seq<set<nat>>, s: set<nat>)
    requires InSites(sites, s)
    ensures Closed(sites, nbrs, Closure(sites, nbrs, s))
    decreases |sites| - |s|
  {
    var g := Grow(sites, nbrs, s);
    SubsetOfRangeIsSmall(g, |sites|);
    if g == s {
      forall u: nat, v: nat | u in s && Adjacent(sites, nbrs, u, v)
        ensures v in s
      {
        assert v < |sites|;
        assert v in g;
      }
    } else {
      ProperSubsetIsSmaller(s, g);
      ClosureIsClosed(sites, nbrs, g);
    }
  }

  /** The closure is the least closed superset: any closed set containing s contains it. */
  lemma {:induction false} ClosureIsLeast(sites: seq<Site>, nbrs: seq<set<nat>>, s: set<nat>, t: set<nat>)
    requires InSites(sites, s) && s <= t && Closed(sites, nbrs, t)
    ensures Closure(sites, nbrs, s) <= t
    decreases |sites| - |s|
  {
    var g := Grow(sites, nbrs, s);
    SubsetOfRangeIsSmall(g, |sites|);
    if g != s {
      ProperSubsetIsSmaller(s, g);
      assert g <= t;
      ClosureIsLeast(sites, nbrs, g, t);
    }
  }

  /** The component of the site x. */
  function ComponentOf(sites: seq<Site>, nbrs: seq<set<nat>>, x: nat): (c: set<nat>)
    requires x < |sites|
    ensures x in c && InSites(sites, c)
  {
    Closure(sites, nbrs, {x})
  }

  /**
   Components do not overlap: a site in the component of x has the same
   component as x. The proof uses that adjacency is symmetric.
   */
  lemma SameComponent(sites: seq<Site>, nbrs: seq<set<nat>>, x: nat, y: nat)
    requires x < |sites| && y in ComponentOf(sites, nbrs, x)
    ensures ComponentOf(sites, nbrs, y) == ComponentOf(sites, nbrs, x)
  {
    var cx := ComponentOf(sites, nbrs, x);
    var cy := ComponentOf(sites, nbrs, y);
    ClosureIsClosed(sites, nbrs, {x});
    ClosureIsClosed(sites, nbrs, {y});
    ClosureIsLeast(sites, nbrs, {y}, cx);
    var rest := cx - cy;
    if x !in cy {
      forall u: nat, v: nat | u in rest && Adjacent(sites, nbrs, u, v)
        ensures v in rest
      {
        if v in cy {
          assert Adjacent(sites, nbrs, v, u);
        }
      }
      ClosureIsLeast(sites, nbrs, {x}, rest);
      assert false;
    }
    ClosureIsLeast(sites, nbrs, {x}, cy);
  }

  /** A component rooted at a node holds only nodes. */
  lemma ComponentOfNodeHasOnlyNodes(sites: seq<Site>, nbrs: seq<set<nat>>, x: nat)
    requires x < |sites| && IsNode(sites, nbrs, x)
    ensures forall y :: y in ComponentOf(sites, nbrs, x) ==> IsNode(sites, nbrs, y)
  {
    var nodes := set y: nat | y < |sites| && IsNode(sites, nbrs, y);
    forall u: nat, v: nat | u in nodes && Adjacent(sites, nbrs, u, v)
      ensures v in nodes
    {
      AdjacentAreNodes(sites, nbrs, u, v);
    }
    ClosureIsLeast(sites, nbrs, {x}, nodes);
  }

  /** Site x lies in one of the components rooted at roots. */
  predicate Covered(sites: seq<Site>, nbrs: seq<set<nat>>, roots: seq<nat>, x: nat)
    requires forall k :: 0 <= k < |roots| ==> roots[k] < |sites|
  {
    exists k :: 0 <= k < |roots| && x in ComponentOf(sites, nbrs, roots[k])
  }

  /**
   The roots of the components among the sites below n, in index order: a
   node becomes a root when no earlier component holds it. This is
   nx.connected_components up to the order of the components, which the
   counting does not depend on.
   */
  function Roots(sites: seq<Site>, nbrs: seq<set<nat>>, n: nat): (roots: seq<nat>)
    requires n <= |sites|
    ensures forall k :: 0 <= k < |roots| ==> roots[k] < n && IsNode(sites, nbrs, roots[k])
  {
    if n == 0 then []
    else
      var prev := Roots(sites, nbrs, n - 1);
      var x := n - 1;
      if IsNodeAt(sites, nbrs, x) && !Covered(sites, nbrs, prev, x) then prev + [x] else prev
  }

  /** Whether site x is a node, decided from the neighbour list. */
  function IsNodeAt(sites: seq<Site>, nbrs: seq<set<nat>>, x: nat): (b: bool)
    requires x < |sites|
    ensures b <==> IsNode(sites, nbrs, x)
  {
    var b := sites[x].tag == AdsorbateTag || exists u: nat | u < |sites| :: Edge(sites, nbrs, u, x);
    b
  }

  /** The components of the roots do not overlap. */
  ghost predicate Disjoint(sites: seq<Site>, nbrs: seq<set<nat>>, roots: seq<nat>)
    requires forall k :: 0 <= k < |roots| ==> roots[k] < |sites|
  {
    forall k, l, x :: (0 <= k < |roots| && 0 <= l < |roots| && x in ComponentOf(sites, nbrs, roots[k])
      && x in ComponentOf(sites, nbrs, roots[l])) ==> k == l
  }

  /** Every node below n lies in some component. */
  lemma {:induction false} RootsCoverNodes(sites: seq<Site>, nbrs: seq<set<nat>>, n: nat)
    requires n <= |sites|
    ensures forall x: nat :: x < n && IsNode(sites, nbrs, x) ==> Covered(sites, nbrs, Roots(sites, nbrs, n), x)
  {
    if n > 0 {
      var prev := Roots(sites, nbrs, n - 1);
      RootsCoverNodes(sites, nbrs, n - 1);
      var roots := Roots(sites, nbrs, n);
      forall y: nat | y < n && IsNode(sites, nbrs, y)
        ensures Covered(sites, nbrs, roots, y)
      {
        if y < n - 1 || Covered(sites, nbrs, prev, y) {
          var k :| 0 <= k < |prev| && y in ComponentOf(sites, nbrs, prev[k]);
          assert roots[k] == prev[k];
        } else {
          assert roots == prev + [y];
          assert y in ComponentOf(sites, nbrs, roots[|prev|]);
        }
      }
    }
  }

  /** No two components share a site. */
  lemma {:induction false} RootsDisjoint(sites: seq<Site>, nbrs: seq<set<nat>>, n: nat)
    requires n <= |sites|
    ensures Disjoint(sites, nbrs, Roots(sites, nbrs, n))
  {
    if n > 0 {
      var prev := Roots(sites, nbrs, n - 1);
      RootsDisjoint(sites, nbrs, n - 1);
      var roots := Roots(sites, nbrs, n);
      var x := n - 1;
      if roots != prev {
        assert roots == prev + [x] && !Covered(sites, nbrs, prev, x);
        forall k, l, z | 0 <= k < |roots| && 0 <= l < |roots| && z in ComponentOf(sites, nbrs, roots[k])
          && z in ComponentOf(sites, nbrs, roots[l])
          ensures k == l
        {
          if k < |prev| && l < |prev| {
            assert roots[k] == prev[k] && roots[l] == prev[l];
          } else if k != l {
            var j := if k < |prev| then k else l;
            assert roots[j] == prev[j];
            SameComponent(sites, nbrs, prev[j], z);
            SameComponent(sites, nbrs, x, z);
            assert false;
          }
        }
      }
    }
  }

  /** Each component holds only nodes. */
  lemma RootsHoldOnlyNodes(sites: seq<Site>, nbrs: seq<set<nat>>, n: nat, k: int, y: nat)
    requires n <= |sites|
    requires 0 <= k < |Roots(sites, nbrs, n)| && y in ComponentOf(sites, nbrs, Roots(sites, nbrs, n)[k])
    ensures IsNode(sites, nbrs, y)
  {
    ComponentOfNodeHasOnlyNodes(sites, nbrs, Roots(sites, nbrs, n)[k]);
  }
}

=== FILE: materialise.dfy ===
/**
 Materialisation of selected structures (make_trajs, get_slabs_from_db): the
 freeze rule that constrains every site at or below the fixed layer, the
 magnetic moment given to nickel, the in-place rewrite of the store, and the
 one-slab-per-cell selection with its adsorbates stripped. Writing trajectory
 files is modelled by returning the (directory id, structure) pairs written.
 */
module Materialise {
  import opened Errors
  import opened Atoms
  import opened Store
  import opened Dicts
  import opened Seqs

  /** The initial magnetic moment every Ni site receives. */
  const NiMagmom: real := 10.8

  function Abs(x: real): real {
    if x < 0.0 then -x else x
  }

  /** A site is frozen when it lies within the tolerance of the fixed layer or below it. */
  predicate Frozen(z: real, fixLayer: real, tolerance: real) {
    Abs(z - fixLayer) < tolerance || z < fixLayer
  }

  /** The freeze rule as one threshold: strictly below the fixed layer plus the (non-negative part of the) tolerance. */
  lemma FrozenIffBelowBand(z: real, fixLayer: real, tolerance: real)
    ensures Frozen(z, fixLayer, tolerance) <==> z < fixLayer + (if tolerance > 0.0 then tolerance else 0.0)
  {
  }

  /** The indices of the frozen sites. */
  function FrozenSet(sites: seq<Site>, fixLayer: real, tolerance: real): (r: set<nat>)
    ensures forall i: nat :: i in r <==> i < |sites| && Frozen(sites[i].z, fixLayer, tolerance)
  {
    set i: nat | i < |sites| && Frozen(sites[i].z, fixLayer, tolerance)
  }

  function Magnetise(s: Site): Site {
    if s.symbol == "Ni" then s.(magmom := NiMagmom) else s
  }

  /**
   The structure with its constraints replaced by one FixAtoms over the frozen
   sites and every Ni site's magnetic moment set to 10.8. A calculator's
   results stay attached only while the calculator sees the same atoms: a
   changed moment detaches them, so a later write stores none.
   */
  function Freeze(s: Structure, fixLayer: real, tolerance: real): (r: Structure)
    ensures |r.sites| == |s.sites|
    ensures forall i :: 0 <= i < |s.sites| ==>
      && r.sites[i].symbol == s.sites[i].symbol
      && r.sites[i].tag == s.sites[i].tag
      && r.sites[i].z == s.sites[i].z
      && r.sites[i].magmom == (if s.sites[i].symbol == "Ni" then NiMagmom else s.sites[i].magmom)
    ensures r.constraints == [FrozenSet(r.sites, fixLayer, tolerance)]
    ensures r.cell == s.cell && r.topIndex == s.topIndex
    ensures r.results == (if r.sites == s.sites then s.results else None)
  {
    var sites := seq(|s.sites|, i requires 0 <= i < |s.sites| => Magnetise(s.sites[i]));
    assert FrozenSet(sites, fixLayer, tolerance) == FrozenSet(s.sites, fixLayer, tolerance);
    var remagnetised := exists i :: 0 <= i < |s.sites| && s.sites[i].symbol == "Ni" && s.sites[i].magmom != NiMagmom;
    if remagnetised then
      var i :| 0 <= i < |s.sites| && s.sites[i].symbol == "Ni" && s.sites[i].magmom != NiMagmom;
      assert sites[i] != s.sites[i];
      s.(sites := sites, constraints := [FrozenSet(s.sites, fixLayer, tolerance)], results := None)
    else
      assert sites == s.sites;
      s.(sites := sites, constraints := [FrozenSet(s.sites, fixLayer, tolerance)])
  }

  /** Freezing keeps the results exactly when every Ni site already has the moment 10.8. */
  lemma FreezeKeepsResultsIff(s: Structure, fixLayer: real, tolerance: real)
    requires s.results.Some?
    ensures Freeze(s, fixLayer, tolerance).results == s.results <==>
      forall i :: 0 <= i < |s.sites| && s.sites[i].symbol == "Ni" ==> s.sites[i].magmom == NiMagmom
  {
    var r := Freeze(s, fixLayer, tolerance);
    if forall i :: 0 <= i < |s.sites| && s.sites[i].symbol == "Ni" ==> s.sites[i].magmom == NiMagmom {
      assert r.sites == s.sites;
    } else {
      var i :| 0 <= i < |s.sites| && s.sites[i].symbol == "Ni" && s.sites[i].magmom != NiMagmom;
      assert r.sites[i] != s.sites[i];
    }
  }

  /** Freezing an already frozen structure changes nothing. */
  lemma FreezeIsIdempotent(s: Structure, fixLayer: real, tolerance: real)
    ensures Freeze(Freeze(s, fixLayer, tolerance), fixLayer, tolerance) == Freeze(s, fixLayer, tolerance)
  {
    var once := Freeze(s, fixLayer, tolerance);
    var twice := Freeze(once, fixLayer, tolerance);
    assert twice.sites == once.sites;
  }

  /** A row as make_trajs writes it back: same pairs, frozen structure as the store keeps it, data dropped. */
  function RewriteRow(row: Row, fixLayer: real, tolerance: real): Row {
    Row(Stored(Freeze(row.atoms, fixLayer, tolerance)), row.kvp, map[])
  }

  /** The first pass of make_trajs: every row rewritten under its own id. */
  function RewriteAll(db: Db, fixLayer: real, tolerance: real): (r: Db)
    requires Valid(db)
    ensures Valid(r) && r.ids == db.ids && r.rows.Keys == db.rows.Keys
    ensures forall id :: id in db.rows ==> r.rows[id] == RewriteRow(db.rows[id], fixLayer, tolerance)
  {
    Db(db.ids, map id | id in db.rows :: RewriteRow(db.rows[id], fixLayer, tolerance))
  }

  /** The rewrite keeps every key-value pair, so every lookup by a pair finds the same rows. */
  lemma RewriteKeepsOwners(db: Db, fixLayer: real, tolerance: real, key: string, v: Value)
    requires Valid(db)
    ensures Owners(RewriteAll(db, fixLayer, tolerance), key, v) == Owners(db, key, v)
  {
    var db' := RewriteAll(db, fixLayer, tolerance);
    forall id
      ensures id in Owners(db', key, v) <==> id in Owners(db, key, v)
    {
      if id in db.rows {
        assert db'.rows[id].kvp == db.rows[id].kvp;
      }
    }
  }

  /**
   What the second pass of make_trajs leaves behind: the (directory id,
   structure) pairs whose init.traj was written, in order, and the error of
   the lookup that stopped the pass, if one did. Files already written stay.
   */
  datatype TrajRun = TrajRun(written: seq<(int, Structure)>, failure: Option<Error>)

  /**
   The second pass of make_trajs: for each requested id, in order, the row
   whose original_id is that id, written as `<original_id>/init.traj`. The
   first id without exactly one such row stops the pass with its error, after
   the files of the ids before it are written.
   */
  function InitTrajs(db: Db, structIds: seq<int>): (r: TrajRun)
    requires Valid(db)
    ensures |r.written| <= |structIds|
    ensures forall k :: 0 <= k < |r.written| ==> TrajOf(db, structIds[k]) == Ok(r.written[k])
    ensures r.failure.None? ==> |r.written| == |structIds|
    ensures r.failure.Some? ==>
      |r.written| < |structIds| && TrajOf(db, structIds[|r.written|]) == Err(r.failure.value)
    ensures r.failure.None? <==> AllRecorded(db, structIds)
    decreases |structIds|
  {
    if |structIds| == 0 then TrajRun([], None)
    else
      match TrajOf(db, structIds[0])
      case Err(e) => TrajRun([], Some(e))
      case Ok(p) =>
        var rest := InitTrajs(db, structIds[1..]);
        InitTrajsStep(db, structIds, p, rest);
        TrajRun([p] + rest.written, rest.failure)
  }

  /** A successful first lookup followed by the run over the remaining ids. */
  lemma InitTrajsStep(db: Db, structIds: seq<int>, p: (int, Structure), rest: TrajRun)
    requires Valid(db) && |structIds| > 0 && TrajOf(db, structIds[0]) == Ok(p)
    requires |rest.written| <= |structIds| - 1
    requires forall k :: 0 <= k < |rest.written| ==> TrajOf(db, structIds[1..][k]) == Ok(rest.written[k])
    requires rest.failure.None? ==> |rest.written| == |structIds| - 1
    requires rest.failure.Some? ==>
      |rest.written| < |structIds| - 1 && TrajOf(db, structIds[1..][|rest.written|]) == Err(rest.failure.value)
    requires rest.failure.None? <==> AllRecorded(db, structIds[1..])
    ensures var w := [p] + rest.written;
      && (forall k :: 0 <= k < |w| ==> TrajOf(db, structIds[k]) == Ok(w[k]))
      && (rest.failure.Some? ==> TrajOf(db, structIds[|w|]) == Err(rest.failure.value))
      && (rest.failure.None? <==> AllRecorded(db, structIds))
  {
    var tail := structIds[1..];
    var w := [p] + rest.written;
    forall k | 0 <= k < |w|
      ensures TrajOf(db, structIds[k]) == Ok(w[k])
    {
      if k > 0 {
        assert w[k] == rest.written[k - 1];
        assert tail[k - 1] == structIds[k];
      }
    }
    if rest.failure.Some? {
      assert tail[|rest.written|] == structIds[|w|];
    }
    AllRecordedCons(db, structIds);
  }

  /** Every id is recorded exactly when the first is and all the rest are. */
  lemma AllRecordedCons(db: Db, structIds: seq<int>)
    requires |structIds| > 0
    ensures AllRecorded(db, structIds) <==>
      UniqueOwner(db, OriginalIdKey, IntV(structIds[0])) && AllRecorded(db, structIds[1..])
  {
    var tail := structIds[1..];
    if UniqueOwner(db, OriginalIdKey, IntV(structIds[0])) && AllRecorded(db, tail) {
      forall k | 0 <= k < |structIds|
        ensures UniqueOwner(db, OriginalIdKey, IntV(structIds[k]))
      {
        if k > 0 {
          assert structIds[k] == tail[k - 1];
        }
      }
    }
    if AllRecorded(db, structIds) {
      forall k | 0 <= k < |tail|
        ensures UniqueOwner(db, OriginalIdKey, IntV(tail[k]))
      {
        assert tail[k] == structIds[k + 1];
      }
    }
  }

  /** The trajectory for one requested id: the structure of the one row recording it. */
  function TrajOf(db: Db, q: int): (r: Result<(int, Structure)>)
    requires Valid(db)
    ensures r.Ok? <==> UniqueOwner(db, OriginalIdKey, IntV(q))
    ensures r.Ok? ==> exists o :: Owners(db, OriginalIdKey, IntV(q)) == {o} && r.value == (q, db.rows[o].atoms)
    ensures r.Err? ==> r.error == KeyNotFound || r.error == MultipleRowsMatched
  {
    GetSucceedsIffUniqueOwner(db, OriginalIdKey, IntV(q));
    var o :- Get(db, OriginalIdKey, IntV(q));
    Ok((q, db.rows[o].atoms))
  }

  /** Every requested id is recorded by exactly one row. */
  ghost predicate AllRecorded(db: Db, structIds: seq<int>) {
    forall k :: 0 <= k < |structIds| ==> UniqueOwner(db, OriginalIdKey, IntV(structIds[k]))
  }

  /**
   The k-th trajectory written is the structure of the one row recording the
   k-th requested id, whether or not a later lookup fails.
   */
  lemma InitTrajsFindsTheOwners(db: Db, structIds: seq<int>, k: nat)
    requires Valid(db) && k < |InitTrajs(db, structIds).written|
    ensures exists o ::
      Owners(db, OriginalIdKey, IntV(structIds[k])) == {o} && InitTrajs(db, structIds).written[k] == (structIds[k], db.rows[o].atoms)
  {
    assert TrajOf(db, structIds[k]) == Ok(InitTrajs(db, structIds).written[k]);
  }

  /**
   make_trajs: the rewrite is committed before the lookups run, so the store
   comes back rewritten even when a lookup then fails, and so do the
   trajectories written before the failing lookup.
   */
  function MakeTrajs(db: Db, structIds: seq<int>, fixLayer: real, tolerance: real): (r: (Db, TrajRun))
    requires Valid(db)
    ensures r.0 == RewriteAll(db, fixLayer, tolerance)
    ensures r.1.failure.None? <==> forall k :: 0 <= k < |structIds| ==> UniqueOwner(db, OriginalIdKey, IntV(structIds[k]))
    ensures r.1.failure.None? ==> |r.1.written| == |structIds|
    ensures r.1.failure.Some? ==>
      && |r.1.written| < |structIds|
      && (forall k :: 0 <= k < |r.1.written| ==> UniqueOwner(db, OriginalIdKey, IntV(structIds[k])))
      && !UniqueOwner(db, OriginalIdKey, IntV(structIds[|r.1.written|]))
      && r.1.failure.value in {KeyNotFound, MultipleRowsMatched}
  {
    var db' := RewriteAll(db, fixLayer, tolerance);
    forall k | 0 <= k < |structIds|
      ensures Owners(db', OriginalIdKey, IntV(structIds[k])) == Owners(db, OriginalIdKey, IntV(structIds[k]))
    {
      RewriteKeepsOwners(db, fixLayer, tolerance, OriginalIdKey, IntV(structIds[k]));
    }
    (db', InitTrajs(db', structIds))
  }

  /**
   Every trajectory make_trajs writes, including those written before a
   failing lookup, is the frozen structure of the one row recording the
   requested id, under the constraint the freeze rule gives.
   */
  lemma MakeTrajsWritesFrozenStructures(db: Db, structIds: seq<int>, fixLayer: real, tolerance: real)
    requires Valid(db)
    ensures var out := MakeTrajs(db, structIds, fixLayer, tolerance).1.written;
      forall k :: 0 <= k < |out| ==>
        && out[k].0 == structIds[k]
        && out[k].1.constraints == [FrozenSet(out[k].1.sites, fixLayer, tolerance)]
        && exists o :: Owners(db, OriginalIdKey, IntV(structIds[k])) == {o} && out[k].1 == Stored(Freeze(db.rows[o].atoms, fixLayer, tolerance))
  {
    var db' := RewriteAll(db, fixLayer, tolerance);
    var out := MakeTrajs(db, structIds, fixLayer, tolerance).1.written;
    forall k | 0 <= k < |out|
      ensures out[k].0 == structIds[k]
      ensures out[k].1.constraints == [FrozenSet(out[k].1.sites, fixLayer, tolerance)]
      ensures exists o :: Owners(db, OriginalIdKey, IntV(structIds[k])) == {o} && out[k].1 == Stored(Freeze(db.rows[o].atoms, fixLayer, tolerance))
    {
      RewriteKeepsOwners(db, fixLayer, tolerance, OriginalIdKey, IntV(structIds[k]));
      InitTrajsFindsTheOwners(db', structIds, k);
      var o :| Owners(db', OriginalIdKey, IntV(structIds[k])) == {o} && out[k] == (structIds[k], db'.rows[o].atoms);
      assert o in db.rows;
    }
  }

  /**
   A slab: the structure with its adsorbate (tag 2) sites deleted. Deleting a
   site detaches the calculator's results, which no longer describe the atoms.
   */
  function Strip(s: Structure): (r: Structure)
    ensures r.sites == WithoutTag(s.sites, AdsorbateTag)
    ensures r.cell == s.cell && r.constraints == s.constraints && r.topIndex == s.topIndex
    ensures r.results == (if r.sites == s.sites then s.results else None)
  {
    if HasTag(s.sites, AdsorbateTag) then
      s.(sites := WithoutTag(s.sites, AdsorbateTag), results := None)
    else
      WithoutAbsentTag(s.sites, AdsorbateTag);
      s
  }

  /** The (cell, id) assignments get_slabs_from_db makes, one per row in store order. */
  function CellPairs(db: Db): (ps: seq<(seq<real>, int)>)
    requires Valid(db)
    ensures |ps| == |db.ids|
    ensures forall k :: 0 <= k < |db.ids| ==> ps[k] == (db.rows[db.ids[k]].atoms.cell, db.ids[k])
  {
    seq(|db.ids|, k requires 0 <= k < |db.ids| => (db.rows[db.ids[k]].atoms.cell, db.ids[k]))
  }

  /** The slab dictionary: cell signature to the id last seen with it. */
  function SlabIndex(db: Db): Dict<seq<real>, int>
    requires Valid(db)
  {
    FromPairs(CellPairs(db))
  }

  /**
   get_slabs_from_db: for each cell signature, in order of first appearance,
   the last row with that cell, stripped of adsorbates and frozen, written
   under that row's id.
   */
  function GetSlabs(db: Db, fixLayer: real, tolerance: real): (r: seq<(int, Structure)>)
    requires Valid(db)
    ensures |r| == |SlabIndex(db).keys|
    ensures forall k :: 0 <= k < |r| ==>
      && r[k].0 == SlabIndex(db).m[SlabIndex(db).keys[k]]
      && r[k].0 in db.rows
      && r[k].1 == Freeze(Strip(db.rows[r[k].0].atoms), fixLayer, tolerance)
  {
    var d := SlabIndex(db);
    SlabIndexNamesItsRows(db);
    seq(|d.keys|, k requires 0 <= k < |d.keys| =>
      var id := d.m[d.keys[k]];
      (id, Freeze(Strip(db.rows[id].atoms), fixLayer, tolerance)))
  }

  /**
   A slab carries results only when stripping and the Ni moments left the
   row's sites as they were, and then they are the row's results.
   */
  lemma SlabResultsDescribeItsSites(db: Db, fixLayer: real, tolerance: real, k: nat)
    requires Valid(db) && k < |GetSlabs(db, fixLayer, tolerance)|
    ensures var id := GetSlabs(db, fixLayer, tolerance)[k].0;
      var slab := GetSlabs(db, fixLayer, tolerance)[k].1;
      slab.results.Some? ==> slab.sites == db.rows[id].atoms.sites && slab.results == db.rows[id].atoms.results
  {
  }

  /** No two slabs share a cell signature. */
  lemma SlabCellsAreDistinct(db: Db, fixLayer: real, tolerance: real)
    requires Valid(db)
    ensures var r := GetSlabs(db, fixLayer, tolerance);
      forall k, l :: 0 <= k < l < |r| ==> db.rows[r[k].0].atoms.cell != db.rows[r[l].0].atoms.cell
  {
    SlabCells(db, fixLayer, tolerance);
  }

  lemma SlabCells(db: Db, fixLayer: real, tolerance: real)
    requires Valid(db)
    ensures var r := GetSlabs(db, fixLayer, tolerance);
      forall k :: 0 <= k < |r| ==> db.rows[r[k].0].atoms.cell == SlabIndex(db).keys[k]
  {
    var r := GetSlabs(db, fixLayer, tolerance);
    var d := SlabIndex(db);
    SlabIndexNamesItsRows(db);
    forall k | 0 <= k < |r|
      ensures db.rows[r[k].0].atoms.cell == d.keys[k]
    {
      assert d.keys[k] in d.m;
    }
  }

  /** Each cell signature of the index names a row carrying that cell. */
  lemma SlabIndexNamesItsRows(db: Db)
    requires Valid(db)
    ensures forall c :: c in SlabIndex(db).m ==> SlabIndex(db).m[c] in db.rows && db.rows[SlabIndex(db).m[c]].atoms.cell == c
  {
    var ps := CellPairs(db);
    var d := SlabIndex(db);
    forall c | c in d.m
      ensures d.m[c] in db.rows && db.rows[d.m[c]].atoms.cell == c
    {
      FromPairsValueIsLast(ps, c);
      var p :| LastFor(ps, p, c) && ps[p].1 == d.m[c];
      assert ps[p] == (db.rows[db.ids[p]].atoms.cell, db.ids[p]);
    }
  }

  /** Every cell signature in the store gets a slab. */
  lemma EveryCellHasASlab(db: Db, fixLayer: real, tolerance: real, id: int)
    requires Valid(db) && id in db.rows
    ensures var r := GetSlabs(db, fixLayer, tolerance);
      exists k :: 0 <= k < |r| && db.rows[r[k].0].atoms.cell == db.rows[id].atoms.cell
  {
    var ps := CellPairs(db);
    var d := SlabIndex(db);
    FromPairsLastWins(ps);
    SlabCells(db, fixLayer, tolerance);
    var p :| 0 <= p < |db.ids| && db.ids[p] == id;
    assert ps[p].0 in d.m;
    var k :| 0 <= k < |d.keys| && d.keys[k] == ps[p].0;
  }

  /** Each slab comes from the last row in store order carrying its cell: the last write wins. */
  lemma SlabIsLastRowWithItsCell(db: Db, fixLayer: real, tolerance: real, k: nat)
    requires Valid(db) && k < |GetSlabs(db, fixLayer, tolerance)|
    ensures var id := GetSlabs(db, fixLayer, tolerance)[k].0;
      exists p :: 0 <= p < |db.ids| && db.ids[p] == id &&
        forall q :: p < q < |db.ids| ==> db.rows[db.ids[q]].atoms.cell != db.rows[id].atoms.cell
  {
    var ps := CellPairs(db);
    var d := SlabIndex(db);
    FromPairsLastWins(ps);
    var p :| LastFor(ps, p, d.keys[k]) && ps[p].1 == d.m[d.keys[k]];
    assert db.ids[p] == GetSlabs(db, fixLayer, tolerance)[k].0;
  }

  /** No slab holds an adsorbate site. */
  lemma SlabsHaveNoAdsorbate(db: Db, fixLayer: real, tolerance: real, k: nat)
    requires Valid(db) && k < |GetSlabs(db, fixLayer, tolerance)|
    ensures !HasTag(GetSlabs(db, fixLayer, tolerance)[k].1.sites, AdsorbateTag)
  {
    var s := GetSlabs(db, fixLayer, tolerance)[k].1.sites;
    forall i | 0 <= i < |s|
      ensures s[i].tag != AdsorbateTag
    {
    }
  }
}

=== FILE: relaxation.dfy ===
/**
 The force-threshold decisions of CalculateEnergy. The optimiser, the
 calculator and the trajectory files are not modelled: a decision names the
 structure the optimiser would start from and the trajectory it would
 record into, or says that nothing is to be done.
 */
module Relaxation {
  import opened Errors
  import opened Atoms
  import opened Store
  import opened Text

  /** The trajectory an optimisation records into. */
  datatype Record =
    | RelaxTraj      // relax.traj next to the initial trajectory
    | InitTraj       // the initial trajectory itself, opened for appending
    | OutputPath     // the output path given by the caller

  datatype Decision = AlreadyRelaxed | Optimise(start: Structure, record: Record)

  function Last(frames: seq<Structure>): Structure
    requires |frames| > 0
  {
    frames[|frames| - 1]
  }

  /**
   calculate_energy. On restart the last frame of relax.traj is examined: at
   or under the force threshold there is nothing to do, otherwise it is
   optimised further with the steps appended to the initial trajectory.
   Without restart the first frame of the initial trajectory is optimised
   into relax.traj, whatever its forces.
   */
  function CalculateEnergy(restart: bool, initFrames: seq<Structure>, relaxFrames: seq<Structure>, fmax: real)
    : (r: Result<Decision>)
    ensures restart ==> (|relaxFrames| == 0 ==> r == Err(IndexOutOfRange))
    ensures restart && |relaxFrames| > 0 ==> (r.Err? <==> MaxForce(Last(relaxFrames)).Err?)
    ensures restart && r.Ok? ==> (r.value == AlreadyRelaxed <==> MaxForce(Last(relaxFrames)).value <= fmax)
    ensures restart && r.Ok? && r.value.Optimise? ==> r.value == Optimise(Last(relaxFrames), InitTraj)
    ensures !restart ==> (r.Ok? <==> |initFrames| > 0)
    ensures !restart && r.Ok? ==> r.value == Optimise(initFrames[0], RelaxTraj)
    ensures r.Err? ==> r.error in {IndexOutOfRange, NoCalculator, EmptyReduction}
  {
    if restart then
      if |relaxFrames| == 0 then Err(IndexOutOfRange)
      else
        var adslab := Last(relaxFrames);
        var f :- MaxForce(adslab);
        if f <= fmax then Ok(AlreadyRelaxed) else Ok(Optimise(adslab, InitTraj))
    else if |initFrames| == 0 then Err(IndexOutOfRange)
    else Ok(Optimise(initFrames[0], RelaxTraj))
  }

  /**
   calculate_energy_from_db. The path must contain ".db"; the structure with
   the given id is read from the store and optimised into the output path
   when its largest force reaches the threshold, and skipped otherwise.
   */
  function CalculateEnergyFromDb(path: string, db: Db, structId: int, fmax: real): (r: Result<Decision>)
    ensures r == Err(NotADatabasePath) <==> !exists i :: OccursAt(path, ".db", i)
    ensures Contains(path, ".db") ==> (r == Err(KeyNotFound) <==> structId !in db.rows)
    ensures r.Ok? <==> Contains(path, ".db") && structId in db.rows && MaxForce(db.rows[structId].atoms).Ok?
    ensures Contains(path, ".db") && structId in db.rows && MaxForce(db.rows[structId].atoms).Err? ==>
      r == Err(MaxForce(db.rows[structId].atoms).error)
    ensures r.Err? ==> r.error in {NotADatabasePath, KeyNotFound, NoCalculator, EmptyReduction}
    ensures r.Ok? ==> (r.value.Optimise? <==> MaxForce(db.rows[structId].atoms).value >= fmax)
    ensures r.Ok? && r.value.Optimise? ==> r.value == Optimise(db.rows[structId].atoms, OutputPath)
  {
    ContainsIffOccurs(path, ".db");
    if !Contains(path, ".db") then Err(NotADatabasePath)
    else
      var row :- GetById(db, structId);
      var f :- MaxForce(row.atoms);
      if f >= fmax then Ok(Optimise(row.atoms, OutputPath)) else Ok(AlreadyRelaxed)
  }

  /**
   The two entry points disagree exactly at the threshold: a structure whose
   largest force equals fmax counts as relaxed on restart but is optimised
   again when read from a store.
   */
  lemma EntryPointsDisagreeAtThreshold(s: Structure, fmax: real, path: string, db: Db, id: int)
    requires MaxForce(s) == Ok(fmax)
    requires Contains(path, ".db") && id in db.rows && db.rows[id].atoms == s
    ensures CalculateEnergy(true, [], [s], fmax) == Ok(AlreadyRelaxed)
    ensures CalculateEnergyFromDb(path, db, id, fmax) == Ok(Optimise(s, OutputPath))
  {
    assert Last([s]) == s;
  }
}

=== FILE: sampling.dfy ===
/**
 Coverage-constrained sampling (select_covs): build the range query over the
 coverage keys, keep the matching rows under an optional atom-count cap, draw
 a random sample of them and copy the drawn rows into an output store with
 their provenance.
 */
module Sampling {
  import opened Errors
  import opened Store
  import opened Text
  import opened Seqs

  /** One entry of the adsorbate-range dictionary: the adsorbate and its coverage bounds. */
  datatype AdsRange = AdsRange(name: string, lo: real, hi: real)

  datatype Op = AtLeast | AtMost

  /** One comparison of the range query: key >= bound or key <= bound. */
  datatype Clause = Clause(key: string, op: Op, bound: real)

  /** The key recording which sampling round produced a row. */
  const RoundKey: string := "round"

  /** The clauses in query order: for each adsorbate, its lower then its upper bound, on the lower-cased name. */
  function Clauses(ranges: seq<AdsRange>): (r: seq<Clause>)
    ensures |r| == 2 * |ranges|
    ensures forall i :: 0 <= i < |ranges| ==> r[2 * i] == Clause(Lower(ranges[i].name), AtLeast, ranges[i].lo)
    ensures forall i :: 0 <= i < |ranges| ==> r[2 * i + 1] == Clause(Lower(ranges[i].name), AtMost, ranges[i].hi)
  {
    if |ranges| == 0 then []
    else
      var a := ranges[0];
      var rest := Clauses(ranges[1..]);
      assert forall i :: 1 <= i < |ranges| ==> ranges[1..][i - 1] == ranges[i];
      [Clause(Lower(a.name), AtLeast, a.lo), Clause(Lower(a.name), AtMost, a.hi)] + rest
  }

  /** The text of one clause; `show` is Python's formatting of a float. */
  function Render(c: Clause, show: real -> string): string {
    c.key + (if c.op == AtLeast then ">=" else "<=") + show(c.bound)
  }

  function RenderAll(cs: seq<Clause>, show: real -> string): (r: seq<string>)
    ensures |r| == |cs|
    ensures forall i :: 0 <= i < |cs| ==> r[i] == Render(cs[i], show)
  {
    seq(|cs|, i requires 0 <= i < |cs| => Render(cs[i], show))
  }

  /** The query string handed to the store: the rendered clauses joined by ','. */
  function QueryString(ranges: seq<AdsRange>, show: real -> string): string {
    Join(RenderAll(Clauses(ranges), show), ',')
  }

  /** Neither an adsorbate name nor a formatted bound holds a comma. */
  predicate CommaFree(ranges: seq<AdsRange>, show: real -> string) {
    forall i :: 0 <= i < |ranges| ==>
      ',' !in ranges[i].name && ',' !in show(ranges[i].lo) && ',' !in show(ranges[i].hi)
  }

  /** Then no rendered clause holds a comma either. */
  lemma RenderedClausesAreCommaFree(ranges: seq<AdsRange>, show: real -> string)
    requires CommaFree(ranges, show)
    ensures forall k :: 0 <= k < 2 * |ranges| ==> ',' !in RenderAll(Clauses(ranges), show)[k]
  {
    var cs := Clauses(ranges);
    var parts := RenderAll(cs, show);
    forall k | 0 <= k < |parts|
      ensures ',' !in parts[k]
    {
      var i := k / 2;
      assert k == 2 * i || k == 2 * i + 1;
      LowerKeepsComma(ranges[i].name);
      var op := if cs[k].op == AtLeast then ">=" else "<=";
      assert parts[k] == cs[k].key + op + show(cs[k].bound);
    }
  }

  /**
   Splitting a non-empty query string on ',' gives back exactly the rendered
   clauses, in order.
   */
  lemma QueryStringSplitsIntoClauses(ranges: seq<AdsRange>, show: real -> string)
    requires |ranges| > 0 && CommaFree(ranges, show)
    ensures Split(QueryString(ranges, show), ',') == RenderAll(Clauses(ranges), show)
  {
    RenderedClausesAreCommaFree(ranges, show);
    SplitJoin(RenderAll(Clauses(ranges), show), ',');
  }

  lemma LowerKeepsComma(s: string)
    requires ',' !in s
    ensures ',' !in Lower(s)
  {
    forall k | 0 <= k < |s|
      ensures Lower(s)[k] != ','
    {
      assert s[k] != ',';
    }
  }

  /** How the store evaluates one clause on a row: the key must be present and compare as stated. */
  predicate Satisfies(row: Row, c: Clause) {
    c.key in row.kvp &&
    match c.op
    case AtLeast => row.kvp[c.key].AsReal() >= c.bound
    case AtMost => row.kvp[c.key].AsReal() <= c.bound
  }

  predicate SatisfiesAll(row: Row, cs: seq<Clause>) {
    forall i :: 0 <= i < |cs| ==> Satisfies(row, cs[i])
  }

  /** The meaning of one dictionary entry: the row's coverage of that adsorbate lies in [lo, hi]. */
  predicate InRange(row: Row, a: AdsRange) {
    var key := Lower(a.name);
    key in row.kvp && a.lo <= row.kvp[key].AsReal() <= a.hi
  }

  /** A row satisfies the query exactly when every adsorbate's coverage lies in its range. */
  lemma QueryMeansAllInRange(row: Row, ranges: seq<AdsRange>)
    ensures SatisfiesAll(row, Clauses(ranges)) <==> forall i :: 0 <= i < |ranges| ==> InRange(row, ranges[i])
  {
    var cs := Clauses(ranges);
    if SatisfiesAll(row, cs) {
      forall i | 0 <= i < |ranges|
        ensures InRange(row, ranges[i])
      {
        assert Satisfies(row, cs[2 * i]) && Satisfies(row, cs[2 * i + 1]);
      }
    }
    if forall i :: 0 <= i < |ranges| ==> InRange(row, ranges[i]) {
      forall k | 0 <= k < |cs|
        ensures Satisfies(row, cs[k])
      {
        var i := k / 2;
        assert k == 2 * i || k == 2 * i + 1;
        assert InRange(row, ranges[i]);
      }
    }
  }

  /** The ids, in store order, of the rows the query selects. */
  function Matching(src: Db, ranges: seq<AdsRange>): (r: seq<int>)
    requires Valid(src)
    ensures Increasing(r)
    ensures forall k :: 0 <= k < |r| ==> r[k] in src.rows
    ensures forall id :: id in src.rows ==> (id in r <==> SatisfiesAll(src.rows[id], Clauses(ranges)))
  {
    var cs := Clauses(ranges);
    Where(src.ids, src.rows, (row: Row) => SatisfiesAll(row, cs))
  }

  /** The atom-count cap: a zero (falsy) cap keeps everything, otherwise rows with more atoms are dropped. */
  predicate WithinCap(row: Row, cap: int) {
    cap == 0 || |row.atoms.sites| <= cap
  }

  /** The matching rows that pass the cap, in store order. */
  function Filtered(src: Db, ranges: seq<AdsRange>, cap: int): (r: seq<int>)
    requires Valid(src)
    ensures Increasing(r)
    ensures forall k :: 0 <= k < |r| ==> r[k] in src.rows
    ensures forall id :: id in src.rows ==>
      (id in r <==> SatisfiesAll(src.rows[id], Clauses(ranges)) && WithinCap(src.rows[id], cap))
  {
    var m := Matching(src, ranges);
    if cap == 0 then m
    else Where(m, src.rows, (row: Row) => |row.atoms.sites| <= cap)
  }

  /** A drawn row as written to the output store: its pairs plus original_id and round = 1. */
  function Stamp(row: Row, id: int): (r: Row)
    ensures r.atoms == row.atoms && r.data == row.data
    ensures r.kvp.Keys == row.kvp.Keys + {OriginalIdKey, RoundKey}
    ensures r.kvp[OriginalIdKey] == IntV(id) && r.kvp[RoundKey] == IntV(1)
    ensures forall k :: k in row.kvp && k != OriginalIdKey && k != RoundKey ==> r.kvp[k] == row.kvp[k]
  {
    Row(row.atoms, row.kvp[OriginalIdKey := IntV(id)][RoundKey := IntV(1)], row.data)
  }

  /** The output rows for the drawn ids, in draw order. */
  function Stamped(src: Db, ids: seq<int>): (r: seq<Row>)
    requires forall k :: 0 <= k < |ids| ==> ids[k] in src.rows
    ensures |r| == |ids|
    ensures forall k :: 0 <= k < |ids| ==> r[k] == Stamp(src.rows[ids[k]], ids[k])
  {
    seq(|ids|, k requires 0 <= k < |ids| => Stamp(src.rows[ids[k]], ids[k]))
  }

  /** The source ids at the drawn positions of the filtered list. */
  function Pick(f: seq<int>, draw: seq<nat>): (r: seq<int>)
    requires forall k :: 0 <= k < |draw| ==> draw[k] < |f|
    ensures |r| == |draw|
    ensures forall k :: 0 <= k < |draw| ==> r[k] == f[draw[k]]
  {
    seq(|draw|, k requires 0 <= k < |draw| => f[draw[k]])
  }

  /** Distinct positions of a strictly increasing list name distinct ids. */
  lemma PickIsDistinct(f: seq<int>, draw: seq<nat>)
    requires Increasing(f) && Distinct(draw)
    requires forall k :: 0 <= k < |draw| ==> draw[k] < |f|
    ensures Distinct(Pick(f, draw))
  {
    var r := Pick(f, draw);
    forall i, j | 0 <= i < j < |r|
      ensures r[i] != r[j]
    {
      assert draw[i] != draw[j];
      if draw[i] < draw[j] {
        assert f[draw[i]] < f[draw[j]];
      } else {
        assert f[draw[j]] < f[draw[i]];
      }
    }
  }

  /**
   select_covs. The query selects the matching rows; none at all raises before
   the output store is opened. With a positive cap the larger structures are
   dropped. Asking for more structures than remain fails at the warning, which
   reads the sample before it is bound; a negative count fails in the sampler.
   Otherwise `draw` (the sampler's choice of positions in the filtered list)
   picks the rows, which are appended to `out` with their provenance, and the
   picked source ids are returned in draw order.
   */
  function SelectCovs(src: Db, out: Db, ranges: seq<AdsRange>, structureNum: int, cap: int, draw: seq<nat>)
    : (r: Result<(Db, seq<int>)>)
    requires Valid(src) && Valid(out)
    requires 0 <= structureNum <= |Filtered(src, ranges, cap)| ==>
      IsSample(draw, |Filtered(src, ranges, cap)|, structureNum)
    ensures r == Err(NoStructureMatchQuery) <==> |Matching(src, ranges)| == 0
    ensures r == Err(UnboundSampleCount) <==>
      |Matching(src, ranges)| > 0 && structureNum > |Filtered(src, ranges, cap)|
    ensures r == Err(NegativeSampleSize) <==> |Matching(src, ranges)| > 0 && structureNum < 0
    ensures r.Ok? <==> |Matching(src, ranges)| > 0 && 0 <= structureNum <= |Filtered(src, ranges, cap)|
    ensures r.Err? ==> r.error in {NoStructureMatchQuery, UnboundSampleCount, NegativeSampleSize}
    ensures r.Ok? ==> var (db', ids) := r.value;
      && Valid(db')
      && |ids| == structureNum
      && (forall k :: 0 <= k < |ids| ==> ids[k] == Filtered(src, ranges, cap)[draw[k]])
      && Appended(out, db', Stamped(src, ids))
  {
    var m := Matching(src, ranges);
    if |m| == 0 then Err(NoStructureMatchQuery)
    else
      var f := Filtered(src, ranges, cap);
      if structureNum > |f| then Err(UnboundSampleCount)
      else if structureNum < 0 then Err(NegativeSampleSize)
      else
        var ids := Pick(f, draw);
        Ok((InsertAll(out, Stamped(src, ids)), ids))
  }

  /** The returned ids are distinct: no source row is copied twice. */
  lemma SampledIdsAreDistinct(src: Db, out: Db, ranges: seq<AdsRange>, structureNum: int, cap: int, draw: seq<nat>)
    requires Valid(src) && Valid(out)
    requires 0 <= structureNum <= |Filtered(src, ranges, cap)| ==>
      IsSample(draw, |Filtered(src, ranges, cap)|, structureNum)
    requires SelectCovs(src, out, ranges, structureNum, cap, draw).Ok?
    ensures Distinct(SelectCovs(src, out, ranges, structureNum, cap, draw).value.1)
  {
    PickIsDistinct(Filtered(src, ranges, cap), draw);
  }

  /** Every returned id names a source row inside every coverage range and under the cap. */
  lemma SampledRowsMatchQuery(src: Db, out: Db, ranges: seq<AdsRange>, structureNum: int, cap: int, draw: seq<nat>)
    requires Valid(src) && Valid(out)
    requires 0 <= structureNum <= |Filtered(src, ranges, cap)| ==>
      IsSample(draw, |Filtered(src, ranges, cap)|, structureNum)
    requires SelectCovs(src, out, ranges, structureNum, cap, draw).Ok?
    ensures var ids := SelectCovs(src, out, ranges, structureNum, cap, draw).value.1;
      forall k :: 0 <= k < |ids| ==>
        && ids[k] in src.rows
        && WithinCap(src.rows[ids[k]], cap)
        && forall i :: 0 <= i < |ranges| ==> InRange(src.rows[ids[k]], ranges[i])
  {
    var f := Filtered(src, ranges, cap);
    var ids := SelectCovs(src, out, ranges, structureNum, cap, draw).value.1;
    forall k | 0 <= k < |ids|
      ensures ids[k] in src.rows && WithinCap(src.rows[ids[k]], cap)
      ensures forall i :: 0 <= i < |ranges| ==> InRange(src.rows[ids[k]], ranges[i])
    {
      assert ids[k] == f[draw[k]];
      QueryMeansAllInRange(src.rows[ids[k]], ranges);
    }
  }

  /**
   The row written for the k-th drawn id carries that id as original_id and
   round = 1, next to the source row's structure.
   */
  lemma WrittenRowsRecordProvenance(src: Db, out: Db, ranges: seq<AdsRange>, structureNum: int, cap: int, draw: seq<nat>, k: nat)
    requires Valid(src) && Valid(out)
    requires 0 <= structureNum <= |Filtered(src, ranges, cap)| ==>
      IsSample(draw, |Filtered(src, ranges, cap)|, structureNum)
    requires SelectCovs(src, out, ranges, structureNum, cap, draw).Ok?
    requires k < |SelectCovs(src, out, ranges, structureNum, cap, draw).value.1|
    ensures var (db', ids) := SelectCovs(src, out, ranges, structureNum, cap, draw).value;
      var row := db'.rows[db'.ids[|out.ids| + k]];
      && OriginalIdKey in row.kvp && row.kvp[OriginalIdKey] == IntV(ids[k])
      && RoundKey in row.kvp && row.kvp[RoundKey] == IntV(1)
      && row.atoms == src.rows[ids[k]].atoms
  {
    var r := SelectCovs(src, out, ranges, structureNum, cap, draw).value;
    AppendedRow(out, r.0, Stamped(src, r.1), k);
  }
}

=== FILE: seqs.dfy ===
/** Small facts about sequences shared by the modules of this model. */
module Seqs {

  predicate Distinct<T(==)>(xs: seq<T>) {
    forall i, j :: 0 <= i < j < |xs| ==> xs[i] != xs[j]
  }

  /**
   What random.sample(range(n), k) returns: k distinct indices below n, in the
   order they were drawn.
   */
  predicate IsSample(draw: seq<nat>, n: nat, k: nat) {
    |draw| == k && Distinct(draw) && forall i :: 0 <= i < |draw| ==> draw[i] < n
  }

  /** Indices 0 .. n-1 as a set. */
  function Range(n: nat): (r: set<nat>)
    ensures forall i: nat :: i in r <==> i < n
    ensures |r| == n
  {
    if n == 0 then {} else Range(n - 1) + {n - 1}
  }

  /** A set of indices below n has at most n elements. */
  lemma SubsetOfRangeIsSmall(s: set<nat>, n: nat)
    requires forall i :: i in s ==> i < n
    ensures |s| <= n
  {
    assert s <= Range(n);
    SubsetCardinality(s, Range(n));
  }

  lemma SubsetCardinality<T>(a: set<T>, b: set<T>)
    requires a <= b
    ensures |a| <= |b|
  {
    assert b == a + (b - a);
  }

  /** A sequence without repetitions has as many elements as its set. */
  lemma {:induction false} DistinctCardinality<T>(xs: seq<T>)
    requires Distinct(xs)
    ensures |set x | x in xs| == |xs|
  {
    if |xs| > 0 {
      var tail := xs[1..];
      DistinctCardinality(tail);
      assert (set x | x in xs) == (set x | x in tail) + {xs[0]};
      assert xs[0] !in tail by {
        forall k | 0 <= k < |tail|
          ensures tail[k] != xs[0]
        {
          assert tail[k] == xs[k + 1];
        }
      }
    }
  }
}

=== FILE: store.dfy ===
/**
 The structure-record store (an ASE database): rows keyed by positive integer
 ids handed out in increasing order, each row holding a structure, its
 key-value pairs and its data dictionary. Lookups by a key-value pair and the
 `reserve` operation are modelled by their sequential semantics.
 */
module Store {
  import opened Errors
  import opened Atoms

  /** A scalar key-value entry: ids and counters are integers, coverages are reals. */
  datatype Value = IntV(i: int) | RealV(r: real) {
    function AsReal(): real {
      match this
      case IntV(i) => i as real
      case RealV(r) => r
    }
  }

  type Pairs = map<string, Value>

  /** The key under which a derived row records the id of the row it came from. */
  const OriginalIdKey: string := "original_id"

  datatype Row = Row(atoms: Structure, kvp: Pairs, data: Pairs)

  /** A store: its ids in insertion (= increasing) order and the rows they name. */
  datatype Db = Db(ids: seq<int>, rows: map<int, Row>)

  const EmptyDb: Db := Db([], map[])

  ghost predicate Increasing(xs: seq<int>) {
    forall i, j :: 0 <= i < j < |xs| ==> xs[i] < xs[j]
  }

  ghost predicate Valid(db: Db) {
    && Increasing(db.ids)
    && (forall k :: 0 <= k < |db.ids| ==> db.ids[k] >= 1)
    && (forall id :: id in db.rows <==> id in db.ids)
  }

  /** The id the next insertion receives: one past the largest id, 1 for an empty store. */
  function NextId(db: Db): (id: int)
    requires Valid(db)
    ensures id >= 1
    ensures forall k :: 0 <= k < |db.ids| ==> db.ids[k] < id
  {
    if |db.ids| == 0 then 1 else db.ids[|db.ids| - 1] + 1
  }

  /** db.write(row) without an id: the row is appended under a fresh id. */
  function Insert(db: Db, row: Row): (r: (Db, int))
    requires Valid(db)
    ensures Valid(r.0)
    ensures r.1 !in db.rows && r.1 >= 1
    ensures r.0.ids == db.ids + [r.1]
    ensures r.0.rows == db.rows[r.1 := row]
  {
    var id := NextId(db);
    (Db(db.ids + [id], db.rows[id := row]), id)
  }

  /** Rewriting an existing row in place: the id set does not change. */
  function Update(db: Db, id: int, row: Row): (r: Db)
    requires Valid(db) && id in db.rows
    ensures Valid(r)
    ensures r.ids == db.ids
    ensures r.rows.Keys == db.rows.Keys
    ensures r.rows[id] == row
    ensures forall j :: j in db.rows && j != id ==> r.rows[j] == db.rows[j]
  {
    Db(db.ids, db.rows[id := row])
  }

  /** db.get(id=...) */
  function GetById(db: Db, id: int): (r: Result<Row>)
    ensures r.Ok? <==> id in db.rows
    ensures r.Ok? ==> r.value == db.rows[id]
    ensures r.Err? ==> r.error == KeyNotFound
  {
    if id in db.rows then Ok(db.rows[id]) else Err(KeyNotFound)
  }

  predicate HasPair(row: Row, key: string, v: Value) {
    key in row.kvp && row.kvp[key] == v
  }

  /** The ids, in order, of the rows satisfying p. */
  function Where(ids: seq<int>, rows: map<int, Row>, p: Row -> bool): (r: seq<int>)
    requires forall k :: 0 <= k < |ids| ==> ids[k] in rows
    ensures |r| <= |ids|
    ensures forall k :: 0 <= k < |r| ==> r[k] in ids && p(rows[r[k]])
    ensures forall k :: 0 <= k < |ids| && p(rows[ids[k]]) ==> ids[k] in r
    ensures Increasing(ids) ==> Increasing(r)
  {
    if |ids| == 0 then []
    else
      var rest := Where(ids[1..], rows, p);
      assert forall k :: 0 <= k < |rest| ==> rest[k] in ids[1..];
      assert forall k :: 1 <= k < |ids| ==> ids[k] == ids[1..][k - 1];
      if p(rows[ids[0]]) then
        FirstBelowRest(ids, rest);
        [ids[0]] + rest
      else rest
  }

  /** In an increasing sequence, the first element is below every later one. */
  lemma FirstBelowRest(ids: seq<int>, rest: seq<int>)
    requires |ids| > 0
    requires forall k :: 0 <= k < |rest| ==> rest[k] in ids[1..]
    requires Increasing(ids) ==> Increasing(rest)
    ensures Increasing(ids) ==> Increasing([ids[0]] + rest)
  {
    if Increasing(ids) {
      FirstBelowIncreasing(ids, rest);
    }
  }

  lemma FirstBelowIncreasing(ids: seq<int>, rest: seq<int>)
    requires |ids| > 0 && Increasing(ids)
    requires forall k :: 0 <= k < |rest| ==> rest[k] in ids[1..]
    requires Increasing(rest)
    ensures Increasing([ids[0]] + rest)
  {
    var r := [ids[0]] + rest;
    forall i, j | 0 <= i < j < |r|
      ensures r[i] < r[j]
    {
      assert r[j] == rest[j - 1];
      if i == 0 {
        var m :| 0 <= m < |ids| - 1 && ids[1..][m] == rest[j - 1];
        assert ids[m + 1] == rest[j - 1];
      } else {
        assert r[i] == rest[i - 1];
      }
    }
  }

  /** The ids of the rows carrying key = v. */
  ghost function Owners(db: Db, key: string, v: Value): set<int> {
    set id | id in db.rows && HasPair(db.rows[id], key, v)
  }

  function Find(db: Db, key: string, v: Value): (r: seq<int>)
    requires Valid(db)
    ensures forall k :: 0 <= k < |r| ==> r[k] in Owners(db, key, v)
    ensures forall id :: id in Owners(db, key, v) ==> id in r
    ensures Increasing(r)
  {
    Where(db.ids, db.rows, (row: Row) => HasPair(row, key, v))
  }

  /**
   db.get(key=v): the one row carrying the pair; KeyError when none does, an
   assertion failure when more than one does.
   */
  function Get(db: Db, key: string, v: Value): (r: Result<int>)
    requires Valid(db)
    ensures r == Err(KeyNotFound) <==> Owners(db, key, v) == {}
    ensures r.Ok? ==> Owners(db, key, v) == {r.value}
    ensures r.Err? ==> r.error == KeyNotFound || r.error == MultipleRowsMatched
    ensures r == Err(MultipleRowsMatched) ==>
      exists a, b :: a in Owners(db, key, v) && b in Owners(db, key, v) && a != b
  {
    var f := Find(db, key, v);
    if |f| == 0 then Err(KeyNotFound)
    else if |f| > 1 then
      assert f[0] in Owners(db, key, v) && f[1] in Owners(db, key, v);
      Err(MultipleRowsMatched)
    else
      assert f[0] in Owners(db, key, v);
      Ok(f[0])
  }

  /** Exactly one row carries the pair. */
  ghost predicate UniqueOwner(db: Db, key: string, v: Value) {
    exists o :: Owners(db, key, v) == {o}
  }

  /** A lookup by a pair succeeds exactly when one row carries it. */
  lemma GetSucceedsIffUniqueOwner(db: Db, key: string, v: Value)
    requires Valid(db)
    ensures Get(db, key, v).Ok? <==> UniqueOwner(db, key, v)
  {
    var g := Get(db, key, v);
    var owners := Owners(db, key, v);
    if g.Ok? {
      assert owners == {g.value};
    }
    if UniqueOwner(db, key, v) {
      var o :| owners == {o};
      assert o in owners;
      forall a, b | a in owners && b in owners
        ensures a == b
      {
        assert a in {o} && b in {o};
      }
    }
  }

  /**
   db.reserve(key=v): when no row carries the pair, write an empty row carrying
   it and return its id; otherwise write nothing and return None.
   */
  function Reserve(db: Db, key: string, v: Value): (r: (Db, Option<int>))
    requires Valid(db)
    ensures Valid(r.0)
    ensures r.1.None? <==> Owners(db, key, v) != {}
    ensures r.1.None? ==> r.0 == db
    ensures r.1.Some? ==> r.1.value !in db.rows
    ensures r.1.Some? ==> r.0.ids == db.ids + [r.1.value]
    ensures r.1.Some? ==> r.0.rows == db.rows[r.1.value := Row(Empty, map[key := v], map[])]
    ensures r.1.Some? ==> Owners(r.0, key, v) == {r.1.value}
  {
    var f := Find(db, key, v);
    if |f| > 0 then
      assert f[0] in Owners(db, key, v);
      (db, None)
    else
      var (db', id) := Insert(db, Row(Empty, map[key := v], map[]));
      assert Owners(db, key, v) == {};
      InsertedOwner(db, db', id, key, v);
      (db', Some(id))
  }

  /** Inserting the only row that carries a pair makes it the pair's one owner. */
  lemma InsertedOwner(db: Db, db': Db, id: int, key: string, v: Value)
    requires Valid(db) && id !in db.rows
    requires db'.rows == db.rows[id := Row(Empty, map[key := v], map[])]
    requires Owners(db, key, v) == {}
    ensures Owners(db', key, v) == {id}
  {
    assert HasPair(db'.rows[id], key, v);
    assert forall j :: j in db'.rows && j != id ==> db'.rows[j] == db.rows[j];
  }

  /** Only one of two reservations of the same pair succeeds; the second writes nothing. */
  lemma ReserveIsExclusive(db: Db, key: string, v: Value)
    requires Valid(db)
    ensures var (db1, first) := Reserve(db, key, v);
      var (db2, second) := Reserve(db1, key, v);
      second.None? && db2 == db1
  {
    var (db1, first) := Reserve(db, key, v);
    if first.Some? {
      assert first.value in Owners(db1, key, v);
    }
  }

  /**
   A row whose structure has no sites: its chemical formula is empty, which
   is how an output row reserved but never completed is recognised.
   */
  predicate Unfilled(row: Row) {
    |row.atoms.sites| == 0
  }

  /** db' is db with the given rows appended under fresh ids, nothing else changed. */
  ghost predicate Appended(db: Db, db': Db, rows: seq<Row>) {
    && |db'.ids| == |db.ids| + |rows|
    && db'.ids[..|db.ids|] == db.ids
    && (forall id :: id in db.rows ==> id in db'.rows && db'.rows[id] == db.rows[id])
    && (forall p :: |db.ids| <= p < |db'.ids| ==> db'.ids[p] in db'.rows && db'.rows[db'.ids[p]] == rows[p - |db.ids|])
  }

  lemma AppendedStep(db: Db, db1: Db, db2: Db, row: Row, rows: seq<Row>)
    requires Valid(db) && Valid(db1)
    requires Appended(db, db1, [row]) && Appended(db1, db2, rows)
    ensures Appended(db, db2, [row] + rows)
  {
    var n := |db.ids|;
    assert db2.ids[..n] == db2.ids[..n + 1][..n];
    assert db2.ids[n] == db2.ids[..n + 1][n] == db1.ids[n];
    forall p | n + 1 <= p < |db2.ids|
      ensures db2.rows[db2.ids[p]] == ([row] + rows)[p - n]
    {
      assert ([row] + rows)[p - n] == rows[p - (n + 1)];
    }
  }

  /** Writing rows one after another under fresh ids. */
  function InsertAll(db: Db, rows: seq<Row>): (r: Db)
    requires Valid(db)
    ensures Valid(r) && Appended(db, r, rows)
    decreases |rows|
  {
    if |rows| == 0 then db
    else
      var (db1, id) := Insert(db, rows[0]);
      assert Appended(db, db1, [rows[0]]);
      var r := InsertAll(db1, rows[1..]);
      assert [rows[0]] + rows[1..] == rows;
      AppendedStep(db, db1, r, rows[0], rows[1..]);
      r
  }

  /** Appending one more row under a fresh id extends an append. */
  lemma AppendedExtend(db: Db, db1: Db, db2: Db, rows: seq<Row>, row: Row, id: int)
    requires Appended(db, db1, rows)
    requires id !in db1.rows && db2.ids == db1.ids + [id] && db2.rows == db1.rows[id := row]
    ensures Appended(db, db2, rows + [row])
  {
    var n := |db.ids|;
    assert db2.ids[..n] == db1.ids[..n];
    forall p | n <= p < |db2.ids|
      ensures db2.ids[p] in db2.rows && db2.rows[db2.ids[p]] == (rows + [row])[p - n]
    {
      if p < |db1.ids| {
        assert db2.ids[p] == db1.ids[p];
        assert db1.ids[p] in db1.rows && db1.ids[p] != id;
      }
    }
  }

  /** The ids an append gives to the appended rows that carry a pair. */
  ghost function AddedOwners(db: Db, db': Db, rows: seq<Row>, key: string, v: Value): set<int>
    requires Appended(db, db', rows)
  {
    set k | 0 <= k < |rows| && HasPair(rows[k], key, v) :: db'.ids[|db.ids| + k]
  }

  /** After an append, the rows carrying a pair are the old ones plus the appended rows that carry it. */
  lemma AppendedOwners(db: Db, db': Db, rows: seq<Row>, key: string, v: Value)
    requires Valid(db) && Valid(db') && Appended(db, db', rows)
    ensures Owners(db', key, v) == Owners(db, key, v) + AddedOwners(db, db', rows, key, v)
  {
    forall x | x in Owners(db', key, v)
      ensures x in Owners(db, key, v) || x in AddedOwners(db, db', rows, key, v)
    {
      OwnerAfterAppend(db, db', rows, key, v, x);
    }
    forall x | x in AddedOwners(db, db', rows, key, v)
      ensures x in Owners(db', key, v)
    {
      AddedOwnerOwns(db, db', rows, key, v, x);
    }
    forall x | x in Owners(db, key, v)
      ensures x in Owners(db', key, v)
    {
      assert db'.rows[x] == db.rows[x];
    }
  }

  lemma OwnerAfterAppend(db: Db, db': Db, rows: seq<Row>, key: string, v: Value, x: int)
    requires Valid(db) && Valid(db') && Appended(db, db', rows)
    requires x in Owners(db', key, v)
    ensures x in Owners(db, key, v) || x in AddedOwners(db, db', rows, key, v)
  {
    var n := |db.ids|;
    assert x in db'.ids;
    var p :| 0 <= p < |db'.ids| && db'.ids[p] == x;
    if p < n {
      assert db.ids[p] == db'.ids[..n][p];
      assert x in db.rows;
    } else {
      var k := p - n;
      assert db'.rows[x] == rows[k];
      assert db'.ids[n + k] == x;
    }
  }

  lemma AddedOwnerOwns(db: Db, db': Db, rows: seq<Row>, key: string, v: Value, x: int)
    requires Appended(db, db', rows)
    requires x in AddedOwners(db, db', rows, key, v)
    ensures x in Owners(db', key, v)
  {
    var n := |db.ids|;
    var k :| 0 <= k < |rows| && HasPair(rows[k], key, v) && x == db'.ids[n + k];
    assert db'.rows[db'.ids[n + k]] == rows[(n + k) - n];
  }

  /** When exactly one appended row carries the pair, it alone is added. */
  lemma SingleAddedOwner(db: Db, db': Db, rows: seq<Row>, key: string, v: Value, k: int)
    requires Appended(db, db', rows) && 0 <= k < |rows| && HasPair(rows[k], key, v)
    requires forall l :: 0 <= l < |rows| && HasPair(rows[l], key, v) ==> l == k
    ensures AddedOwners(db, db', rows, key, v) == {db'.ids[|db.ids| + k]}
  {
  }

  /** The k-th appended row sits under the k-th new id. */
  lemma AppendedRow(db: Db, db': Db, rows: seq<Row>, k: int)
    requires Appended(db, db', rows) && 0 <= k < |rows|
    ensures |db.ids| + k < |db'.ids|
    ensures db'.ids[|db.ids| + k] in db'.rows && db'.rows[db'.ids[|db.ids| + k]] == rows[k]
  {
    var p := |db.ids| + k;
    assert db'.rows[db'.ids[p]] == rows[p - |db.ids|];
  }
}

=== FILE: text.dfy ===
/**
 String helpers the tasks rely on: ASCII lower-casing (element symbols and
 chemical formulas are ASCII), joining and splitting on a separator, and
 substring search.
 */
module Text {

  function LowerChar(c: char): char {
    if 'A' <= c <= 'Z' then (c as int + 32) as char else c
  }

  /** str.lower() on ASCII text. */
  function Lower(s: string): (r: string)
    ensures |r| == |s|
    ensures forall k :: 0 <= k < |s| ==> r[k] == LowerChar(s[k])
  {
    seq(|s|, k requires 0 <= k < |s| => LowerChar(s[k]))
  }

  /** Lower-casing leaves no upper-case letter and is idempotent. */
  lemma LowerIsIdempotent(s: string)
    ensures forall k :: 0 <= k < |s| ==> !('A' <= Lower(s)[k] <= 'Z')
    ensures Lower(Lower(s)) == Lower(s)
  {
  }

  /** sep.join(parts) */
  function Join(parts: seq<string>, sep: char): (r: string)
    ensures |parts| == 0 ==> r == []
    ensures |parts| > 0 ==> parts[0] <= r
  {
    if |parts| == 0 then []
    else if |parts| == 1 then parts[0]
    else parts[0] + [sep] + Join(parts[1..], sep)
  }

  /** Index of the first occurrence of c in s, or |s| when there is none. */
  function FirstIndex(s: string, c: char): (i: nat)
    ensures i <= |s|
    ensures i < |s| ==> s[i] == c
    ensures forall k :: 0 <= k < i ==> s[k] != c
  {
    if |s| == 0 then 0
    else if s[0] == c then 0
    else 1 + FirstIndex(s[1..], c)
  }

  /** s.split(sep): the pieces between separators, always at least one. */
  function Split(s: string, sep: char): (r: seq<string>)
    ensures |r| > 0
    decreases |s|
  {
    var i := FirstIndex(s, sep);
    if i == |s| then [s]
    else [s[..i]] + Split(s[i + 1..], sep)
  }

  /** Splitting a joined list on its separator gives the list back. */
  lemma {:induction false} SplitJoin(parts: seq<string>, sep: char)
    requires |parts| > 0
    requires forall k :: 0 <= k < |parts| ==> sep !in parts[k]
    ensures Split(Join(parts, sep), sep) == parts
  {
    var p := parts[0];
    FirstIndexAbsent(p, sep);
    if |parts| == 1 {
    } else {
      var rest := Join(parts[1..], sep);
      var j := p + [sep] + rest;
      FirstIndexAfter(p, sep, rest);
      assert j[..|p|] == p;
      assert j[|p| + 1..] == rest;
      SplitJoin(parts[1..], sep);
    }
  }

  lemma FirstIndexAbsent(s: string, c: char)
    requires c !in s
    ensures FirstIndex(s, c) == |s|
  {
  }

  lemma {:induction false} FirstIndexAfter(p: string, c: char, rest: string)
    requires c !in p
    ensures FirstIndex(p + [c] + rest, c) == |p|
  {
    if |p| > 0 {
      assert (p + [c] + rest)[1..] == p[1..] + [c] + rest;
      FirstIndexAfter(p[1..], c, rest);
    }
  }

  /** Python's `sub in s` for strings. */
  function Contains(s: string, sub: string): bool
    decreases |s|
  {
    if sub <= s then true
    else if |s| == 0 then false
    else Contains(s[1..], sub)
  }

  /** The text sub occurs in s starting at offset i. */
  predicate OccursAt(s: string, sub: string, i: int) {
    0 <= i <= |s| - |sub| && s[i..i + |sub|] == sub
  }

  /** Substring search finds exactly the offsets where the text occurs. */
  lemma {:induction false} ContainsIffOccurs(s: string, sub: string)
    ensures Contains(s, sub) <==> exists i :: OccursAt(s, sub, i)
    decreases |s|
  {
    if sub <= s {
      assert s[0..|sub|] == sub;
      assert OccursAt(s, sub, 0);
    } else if |s| == 0 {
    } else {
      ContainsIffOccurs(s[1..], sub);
      if Contains(s[1..], sub) {
        var i :| OccursAt(s[1..], sub, i);
        assert s[i + 1..i + 1 + |sub|] == s[1..][i..i + |sub|];
        assert OccursAt(s, sub, i + 1);
      } else {
        forall i | 0 <= i <= |s| - |sub|
          ensures !OccursAt(s, sub, i)
        {
          if i == 0 {
            assert !(sub <= s);
          } else {
            assert s[i..i + |sub|] == s[1..][i - 1..i - 1 + |sub|];
            assert !OccursAt(s[1..], sub, i - 1);
          }
        }
      }
    }
  }
}

=== FILE: trainingdb.dfy ===
/**
 Building the machine-learning training store from finished relaxations:
 the tag check and anomaly screen of a trajectory, the counting of the
 adsorbates in a structure against the gas references, and the skip and
 lookup rules that decide which trajectories are written and with which
 binding energies. Energies are exact reals; the anomaly detector, the
 neighbour list and the chemical formula are inputs.
 */
module TrainingDb {
  import opened Errors
  import opened Atoms
  import opened Store
  import opened Dicts
  import opened Seqs
  import opened Graph

  /** The four questions the trajectory anomaly detector answers for the first and second frame. */
  datatype Anomalies = Anomalies(dissociated: bool, desorbed: bool, surfaceChanged: bool, intercalated: bool)

  type Detector = (Structure, Structure) -> Anomalies

  predicate ValidTag(t: int) {
    0 <= t <= 2
  }

  /**
   check_problematic_structs: the tags of the first frame must lie in
   {0, 1, 2}; then the first two frames are screened and any of the four
   anomalies flags the trajectory.
   */
  function CheckProblematic(frames: seq<Structure>, detect: Detector): (r: Result<bool>)
    ensures |frames| == 0 ==> r == Err(IndexOutOfRange)
    ensures |frames| > 0 ==>
      (r == Err(InvalidTag) <==> exists i :: 0 <= i < |frames[0].sites| && !ValidTag(frames[0].sites[i].tag))
    ensures r.Ok? <==> |frames| >= 2 && forall i :: 0 <= i < |frames[0].sites| ==> ValidTag(frames[0].sites[i].tag)
    ensures r.Ok? ==> (r.value <==>
      || detect(frames[0], frames[1]).dissociated
      || detect(frames[0], frames[1]).desorbed
      || detect(frames[0], frames[1]).surfaceChanged
      || detect(frames[0], frames[1]).intercalated)
  {
    if |frames| == 0 then Err(IndexOutOfRange)
    else if exists t | t in TagSet(frames[0].sites) :: !ValidTag(t) then
      var t :| t in TagSet(frames[0].sites) && !ValidTag(t);
      var i :| 0 <= i < |frames[0].sites| && frames[0].sites[i].tag == t;
      Err(InvalidTag)
    else if |frames| < 2 then
      assert forall i :: 0 <= i < |frames[0].sites| ==> frames[0].sites[i].tag in TagSet(frames[0].sites);
      Err(IndexOutOfRange)
    else
      assert forall i :: 0 <= i < |frames[0].sites| ==> frames[0].sites[i].tag in TagSet(frames[0].sites);
      var a := detect(frames[0], frames[1]);
      Ok(a.dissociated || a.desorbed || a.surfaceChanged || a.intercalated)
  }

  /** The paths the training-store builder is configured with. */
  datatype Config = Config(files: seq<string>, slabDb: string, adsDb: string, dbName: string)

  /** The default location of the training store. */
  const DefaultDbName: string := "training_data/ml_train.db"

  /** The constructor: the slab store must exist, then the gas-reference store. */
  function NewTrainingDb(files: seq<string>, slabDb: string, adsDb: string, dbName: string, exists_: string -> bool)
    : (r: Result<Config>)
    ensures r.Ok? <==> exists_(slabDb) && exists_(adsDb)
    ensures !exists_(slabDb) ==> r == Err(FileNotFound)
    ensures exists_(slabDb) && !exists_(adsDb) ==> r == Err(FileNotFound)
    ensures r.Ok? ==> r.value == Config(files, slabDb, adsDb, dbName)
  {
    if !exists_(slabDb) then Err(FileNotFound)
    else if !exists_(adsDb) then Err(FileNotFound)
    else Ok(Config(files, slabDb, adsDb, dbName))
  }

  function Symbols(sites: seq<Site>): (r: seq<string>)
    ensures |r| == |sites|
    ensures forall k :: 0 <= k < |sites| ==> r[k] == sites[k].symbol
  {
    seq(|sites|, k requires 0 <= k < |sites| => sites[k].symbol)
  }

  /** Counter of the symbols of the sites below n that lie in c. */
  function Bag(sites: seq<Site>, c: set<nat>, n: nat): (b: multiset<string>)
    requires n <= |sites|
    ensures |b| <= n
    ensures forall s :: s in b ==> exists x :: x in c && x < n && sites[x].symbol == s
  {
    if n == 0 then multiset{}
    else Bag(sites, c, n - 1) + (if n - 1 in c then multiset{sites[n - 1].symbol} else multiset{})
  }

  /** The symbol counters of the components of the adsorbate graph. */
  function ComponentBags(sites: seq<Site>, nbrs: seq<set<nat>>): (bags: seq<multiset<string>>)
    ensures |bags| == |Roots(sites, nbrs, |sites|)|
  {
    var roots := Roots(sites, nbrs, |sites|);
    seq(|roots|, k requires 0 <= k < |roots| => Bag(sites, ComponentOf(sites, nbrs, roots[k]), |sites|))
  }

  /** The reference has exactly the symbols of the component, counted with multiplicity. */
  predicate Matches(bag: multiset<string>, ref: Structure) {
    bag == multiset(Symbols(ref.sites))
  }

  /** The number of references with formula f that match the component. */
  function RefCount(bag: multiset<string>, refs: seq<Structure>, formula: Structure -> string, f: string): nat {
    if |refs| == 0 then 0
    else
      var last := refs[|refs| - 1];
      RefCount(bag, refs[..|refs| - 1], formula, f) + (if formula(last) == f && Matches(bag, last) then 1 else 0)
  }

  /** The number of (component, reference) pairs that match and whose reference has formula f. */
  function PairCount(bags: seq<multiset<string>>, refs: seq<Structure>, formula: Structure -> string, f: string): nat {
    if |bags| == 0 then 0
    else PairCount(bags[..|bags| - 1], refs, formula, f) + RefCount(bags[|bags| - 1], refs, formula, f)
  }

  /** A key for every reference formula, each mapped to 0. */
  function Zeros(refs: seq<Structure>, formula: Structure -> string): (d: Dict<string, nat>)
    ensures WellFormed(d)
    ensures forall f :: f in d.m <==> exists j :: 0 <= j < |refs| && formula(refs[j]) == f
    ensures forall f :: f in d.m ==> d.m[f] == 0
  {
    var ps := seq(|refs|, j requires 0 <= j < |refs| => (formula(refs[j]), 0 as nat));
    FromPairsLastWins(ps);
    var d := FromPairs(ps);
    forall f | f in d.m
      ensures (exists j :: 0 <= j < |refs| && formula(refs[j]) == f) && d.m[f] == 0
    {
      var i :| LastFor(ps, i, f) && ps[i].1 == d.m[f];
    }
    forall j | 0 <= j < |refs|
      ensures formula(refs[j]) in d.m
    {
      assert ps[j].0 == formula(refs[j]);
    }
    d
  }

  /** The inner loop for one component: each matching reference bumps its formula's count. */
  function TallyOne(d: Dict<string, nat>, bag: multiset<string>, refs: seq<Structure>, formula: Structure -> string)
    : (r: Dict<string, nat>)
    requires WellFormed(d)
    requires forall j :: 0 <= j < |refs| ==> formula(refs[j]) in d.m
    ensures WellFormed(r) && r.keys == d.keys && r.m.Keys == d.m.Keys
    ensures forall f :: f in d.m ==> r.m[f] == d.m[f] + RefCount(bag, refs, formula, f)
  {
    if |refs| == 0 then d
    else
      var d' := TallyOne(d, bag, refs[..|refs| - 1], formula);
      var last := refs[|refs| - 1];
      if Matches(bag, last) then Put(d', formula(last), d'.m[formula(last)] + 1) else d'
  }

  /** The outer loop over the components. */
  function Tally(d: Dict<string, nat>, bags: seq<multiset<string>>, refs: seq<Structure>, formula: Structure -> string)
    : (r: Dict<string, nat>)
    requires WellFormed(d)
    requires forall j :: 0 <= j < |refs| ==> formula(refs[j]) in d.m
    ensures WellFormed(r) && r.keys == d.keys && r.m.Keys == d.m.Keys
    ensures forall f :: f in d.m ==> r.m[f] == d.m[f] + PairCount(bags, refs, formula, f)
  {
    if |bags| == 0 then d
    else TallyOne(Tally(d, bags[..|bags| - 1], refs, formula), bags[|bags| - 1], refs, formula)
  }

  /**
   count_adsorbates: a key for every gas-reference formula, counting the
   (component, reference) pairs whose symbol counters agree.
   */
  function CountAdsorbates(sites: seq<Site>, nbrs: seq<set<nat>>, refs: seq<Structure>, formula: Structure -> string)
    : (r: Dict<string, nat>)
    ensures WellFormed(r)
    ensures forall f :: f in r.m <==> exists j :: 0 <= j < |refs| && formula(refs[j]) == f
    ensures forall f :: f in r.m ==> r.m[f] == PairCount(ComponentBags(sites, nbrs), refs, formula, f)
  {
    Tally(Zeros(refs, formula), ComponentBags(sites, nbrs), refs, formula)
  }

  /** A formula's count is positive exactly when some component matches some reference with that formula. */
  lemma {:induction false} PairCountPositive(bags: seq<multiset<string>>, refs: seq<Structure>, formula: Structure -> string, f: string)
    ensures PairCount(bags, refs, formula, f) > 0 <==>
      exists k, j :: 0 <= k < |bags| && 0 <= j < |refs| && formula(refs[j]) == f && Matches(bags[k], refs[j])
  {
    if |bags| > 0 {
      var n := |bags| - 1;
      PairCountPositive(bags[..n], refs, formula, f);
      RefCountPositive(bags[n], refs, formula, f);
      if PairCount(bags, refs, formula, f) > 0 {
        if PairCount(bags[..n], refs, formula, f) > 0 {
          var k, j :| 0 <= k < n && 0 <= j < |refs| && formula(refs[j]) == f && Matches(bags[..n][k], refs[j]);
          assert bags[k] == bags[..n][k];
        }
      }
      if exists k, j :: 0 <= k < |bags| && 0 <= j < |refs| && formula(refs[j]) == f && Matches(bags[k], refs[j]) {
        var k, j :| 0 <= k < |bags| && 0 <= j < |refs| && formula(refs[j]) == f && Matches(bags[k], refs[j]);
        if k < n {
          assert bags[..n][k] == bags[k];
        }
      }
    }
  }

  lemma {:induction false} RefCountPositive(bag: multiset<string>, refs: seq<Structure>, formula: Structure -> string, f: string)
    ensures RefCount(bag, refs, formula, f) > 0 <==>
      exists j :: 0 <= j < |refs| && formula(refs[j]) == f && Matches(bag, refs[j])
  {
    if |refs| > 0 {
      var n := |refs| - 1;
      RefCountPositive(bag, refs[..n], formula, f);
      if RefCount(bag, refs[..n], formula, f) > 0 {
        var j :| 0 <= j < n && formula(refs[..n][j]) == f && Matches(bag, refs[..n][j]);
        assert refs[..n][j] == refs[j];
      }
      if exists j :: 0 <= j < |refs| && formula(refs[j]) == f && Matches(bag, refs[j]) {
        var j :| 0 <= j < |refs| && formula(refs[j]) == f && Matches(bag, refs[j]);
        if j < n {
          assert refs[..n][j] == refs[j];
        }
      }
    }
  }

  /** get_potential_energy: the attached energy, or a failure when nothing is attached. */
  function Energy(s: Structure): (r: Result<real>)
    ensures r.Ok? <==> s.results.Some?
    ensures r.Ok? ==> r.value == s.results.value.energy
    ensures r.Err? ==> r.error == NoCalculator
  {
    if s.results.None? then Err(NoCalculator) else Ok(s.results.value.energy)
  }

  /** Every counted formula has a gas reference with an energy attached. */
  predicate Priced(keys: seq<string>, gas: map<string, Structure>) {
    forall k :: 0 <= k < |keys| ==> keys[k] in gas && gas[keys[k]].results.Some?
  }

  /** The term of formula f: its reference energy times its count. */
  function Term(f: string, counts: map<string, nat>, gas: map<string, Structure>): real
    requires f in counts && f in gas && gas[f].results.Some?
  {
    gas[f].results.value.energy * counts[f] as real
  }

  /** sum() over the terms in key order: the running total, adding the last term last. */
  function PythonSum(keys: seq<string>, counts: map<string, nat>, gas: map<string, Structure>): real
    requires forall k :: 0 <= k < |keys| ==> keys[k] in counts
    requires Priced(keys, gas)
  {
    if |keys| == 0 then 0.0
    else
      var n := |keys| - 1;
      assert forall k :: 0 <= k < n ==> keys[..n][k] == keys[k];
      PythonSum(keys[..n], counts, gas) + Term(keys[n], counts, gas)
  }

  /**
   The gas-reference energy of a count: the sum over the counted formulas,
   in key order, of the reference energy times the count. Each reference's
   energy is read even when its count is 0.
   */
  function GasEnergy(keys: seq<string>, counts: map<string, nat>, gas: map<string, Structure>): (r: Result<real>)
    requires forall k :: 0 <= k < |keys| ==> keys[k] in counts
    ensures r.Ok? <==> Priced(keys, gas)
    ensures r.Ok? ==> r.value == PythonSum(keys, counts, gas)
    ensures r.Err? ==> r.error == KeyNotFound || r.error == NoCalculator
  {
    if |keys| == 0 then Ok(0.0)
    else
      var f := keys[0];
      if f !in gas then Err(KeyNotFound)
      else
        var e :- Energy(gas[f]);
        assert forall k :: 0 <= k < |keys| - 1 ==> keys[1..][k] == keys[k + 1];
        var rest :- GasEnergy(keys[1..], counts, gas);
        PythonSumHead(keys, counts, gas);
        Ok(e * counts[f] as real + rest)
  }

  /** Peeling the first term off the running total. */
  lemma {:induction false} PythonSumHead(keys: seq<string>, counts: map<string, nat>, gas: map<string, Structure>)
    requires |keys| > 0
    requires forall k :: 0 <= k < |keys| ==> keys[k] in counts
    requires Priced(keys, gas)
    ensures forall k :: 0 <= k < |keys| - 1 ==> keys[1..][k] in counts
    ensures Priced(keys[1..], gas)
    ensures PythonSum(keys, counts, gas) == Term(keys[0], counts, gas) + PythonSum(keys[1..], counts, gas)
    decreases |keys|
  {
    assert forall k :: 0 <= k < |keys| - 1 ==> keys[1..][k] == keys[k + 1];
    var n := |keys| - 1;
    if n > 0 {
      var init := keys[..n];
      assert forall k :: 0 <= k < n ==> init[k] == keys[k];
      PythonSumHead(init, counts, gas);
      assert init[1..] == keys[1..][..n - 1];
      assert keys[1..][n - 1] == keys[n];
    }
  }

  /** With every count zero the gas-reference energy is 0, whatever the references' energies. */
  lemma {:induction false} GasEnergyOfZeroCounts(keys: seq<string>, counts: map<string, nat>, gas: map<string, Structure>)
    requires forall k :: 0 <= k < |keys| ==> keys[k] in counts && counts[keys[k]] == 0
    requires Priced(keys, gas)
    ensures GasEnergy(keys, counts, gas) == Ok(0.0)
  {
    if |keys| > 0 {
      var n := |keys| - 1;
      var init := keys[..n];
      assert forall k :: 0 <= k < n ==> init[k] == keys[k];
      GasEnergyOfZeroCounts(init, counts, gas);
    }
  }

  /**
   A written frame as the store keeps it: its structure with the binding
   energy in place of its energy; its forces stay, its info does not.
   */
  function Bound(frame: Structure, shift: real): Structure
    requires frame.results.Some?
  {
    Stored(frame.(results := Some(Calc(frame.results.value.energy - shift, frame.results.value.forceNorms))))
  }

  /** The binding energies of a trajectory: every frame, shifted by the slab and gas-reference energies. */
  function BindingRows(frames: seq<Structure>, shift: real): (r: Result<seq<Row>>)
    ensures r.Ok? <==> forall k :: 0 <= k < |frames| ==> frames[k].results.Some?
    ensures r.Err? ==> r.error == NoCalculator
    ensures r.Ok? ==> |r.value| == |frames|
    ensures r.Ok? ==> forall k :: 0 <= k < |frames| ==> r.value[k] == Row(Bound(frames[k], shift), map[], map[])
  {
    if |frames| == 0 then Ok([])
    else
      var _ :- Energy(frames[0]);
      assert forall k :: 0 <= k < |frames| - 1 ==> frames[1..][k] == frames[k + 1];
      var rest :- BindingRows(frames[1..], shift);
      Ok([Row(Bound(frames[0], shift), map[], map[])] + rest)
  }

  /** Binding energies differ between frames by exactly what the frame energies differ by. */
  lemma BindingKeepsDifferences(frames: seq<Structure>, shift: real, k: int, l: int)
    requires BindingRows(frames, shift).Ok? && 0 <= k < |frames| && 0 <= l < |frames|
    ensures var rows := BindingRows(frames, shift).value;
      rows[k].atoms.results.value.energy - rows[l].atoms.results.value.energy
      == frames[k].results.value.energy - frames[l].results.value.energy
    ensures BindingRows(frames, shift).value[k].atoms.sites == frames[k].sites
    ensures BindingRows(frames, shift).value[k].atoms.results.value.forceNorms == frames[k].results.value.forceNorms
  {
  }

  /** The inputs every trajectory is written against. */
  datatype Refs = Refs(
    slabs: Dict<seq<real>, Structure>,   // slabs by cell signature, the last row per cell
    gas: Dict<string, Structure>,        // gas references by formula, the last row per formula
    refs: seq<Structure>)                // gas references in row order

  /** The (cell, structure) assignments of the slab index, one per row in store order. */
  function SlabPairs(slabDb: Db): (ps: seq<(seq<real>, Structure)>)
    requires Valid(slabDb)
    ensures |ps| == |slabDb.ids|
    ensures forall k :: 0 <= k < |ps| ==> ps[k] == (slabDb.rows[slabDb.ids[k]].atoms.cell, slabDb.rows[slabDb.ids[k]].atoms)
  {
    seq(|slabDb.ids|, k requires 0 <= k < |slabDb.ids| => (slabDb.rows[slabDb.ids[k]].atoms.cell, slabDb.rows[slabDb.ids[k]].atoms))
  }

  function SlabsByCell(slabDb: Db): (d: Dict<seq<real>, Structure>)
    requires Valid(slabDb)
    ensures WellFormed(d)
  {
    FromPairs(SlabPairs(slabDb))
  }

  /** The (formula, structure) assignments of the gas-reference index, one per row in store order. */
  function GasPairs(adsDb: Db, formula: Structure -> string): (ps: seq<(string, Structure)>)
    requires Valid(adsDb)
    ensures |ps| == |adsDb.ids|
    ensures forall k :: 0 <= k < |ps| ==> ps[k] == (formula(adsDb.rows[adsDb.ids[k]].atoms), adsDb.rows[adsDb.ids[k]].atoms)
  {
    seq(|adsDb.ids|, k requires 0 <= k < |adsDb.ids| => (formula(adsDb.rows[adsDb.ids[k]].atoms), adsDb.rows[adsDb.ids[k]].atoms))
  }

  function GasByFormula(adsDb: Db, formula: Structure -> string): (d: Dict<string, Structure>)
    requires Valid(adsDb)
    ensures WellFormed(d)
  {
    FromPairs(GasPairs(adsDb, formula))
  }

  /** Row p is the last row in store order whose structure has cell c. */
  ghost predicate LastWithCell(db: Db, p: int, c: seq<real>)
    requires Valid(db)
  {
    0 <= p < |db.ids| && db.rows[db.ids[p]].atoms.cell == c
    && forall q :: p < q < |db.ids| ==> db.rows[db.ids[q]].atoms.cell != c
  }

  /** Every slab row's cell is a key, and each key holds the last slab in store order with that cell. */
  lemma SlabsByCellLastWins(slabDb: Db)
    requires Valid(slabDb)
    ensures forall id :: id in slabDb.rows ==> slabDb.rows[id].atoms.cell in SlabsByCell(slabDb).m
    ensures forall c :: c in SlabsByCell(slabDb).m ==>
      exists p :: LastWithCell(slabDb, p, c) && SlabsByCell(slabDb).m[c] == slabDb.rows[slabDb.ids[p]].atoms
  {
    var ps := SlabPairs(slabDb);
    var d := SlabsByCell(slabDb);
    FromPairsLastWins(ps);
    forall id | id in slabDb.rows
      ensures slabDb.rows[id].atoms.cell in d.m
    {
      var p :| 0 <= p < |slabDb.ids| && slabDb.ids[p] == id;
      assert ps[p].0 == slabDb.rows[id].atoms.cell;
    }
    forall c | c in d.m
      ensures exists p :: LastWithCell(slabDb, p, c) && d.m[c] == slabDb.rows[slabDb.ids[p]].atoms
    {
      var p :| LastFor(ps, p, c) && ps[p].1 == d.m[c];
      assert forall q :: p < q < |ps| ==> ps[q].0 == slabDb.rows[slabDb.ids[q]].atoms.cell;
      assert LastWithCell(slabDb, p, c);
    }
  }

  /** Row p is the last row in store order whose structure has formula f. */
  ghost predicate LastWithFormula(db: Db, formula: Structure -> string, p: int, f: string)
    requires Valid(db)
  {
    0 <= p < |db.ids| && formula(db.rows[db.ids[p]].atoms) == f
    && forall q :: p < q < |db.ids| ==> formula(db.rows[db.ids[q]].atoms) != f
  }

  /** Every gas reference's formula is a key, and each key holds the last reference in store order with that formula. */
  lemma GasByFormulaLastWins(adsDb: Db, formula: Structure -> string)
    requires Valid(adsDb)
    ensures forall id :: id in adsDb.rows ==> formula(adsDb.rows[id].atoms) in GasByFormula(adsDb, formula).m
    ensures forall f :: f in GasByFormula(adsDb, formula).m ==>
      exists p :: LastWithFormula(adsDb, formula, p, f) && GasByFormula(adsDb, formula).m[f] == adsDb.rows[adsDb.ids[p]].atoms
  {
    var ps := GasPairs(adsDb, formula);
    var d := GasByFormula(adsDb, formula);
    FromPairsLastWins(ps);
    forall id | id in adsDb.rows
      ensures formula(adsDb.rows[id].atoms) in d.m
    {
      var p :| 0 <= p < |adsDb.ids| && adsDb.ids[p] == id;
      assert ps[p].0 == formula(adsDb.rows[id].atoms);
    }
    forall f | f in d.m
      ensures exists p :: LastWithFormula(adsDb, formula, p, f) && d.m[f] == adsDb.rows[adsDb.ids[p]].atoms
    {
      var p :| LastFor(ps, p, f) && ps[p].1 == d.m[f];
      assert forall q :: p < q < |ps| ==> ps[q].0 == formula(adsDb.rows[adsDb.ids[q]].atoms);
      assert LastWithFormula(adsDb, formula, p, f);
    }
  }

  function RefList(adsDb: Db): (r: seq<Structure>)
    requires Valid(adsDb)
    ensures |r| == |adsDb.ids|
  {
    seq(|adsDb.ids|, k requires 0 <= k < |adsDb.ids| => adsDb.rows[adsDb.ids[k]].atoms)
  }

  /** The gas-reference energy of the first frame's adsorbates. */
  function FrameGasEnergy(frame: Structure, rs: Refs, neighbours: Structure -> seq<set<nat>>, formula: Structure -> string)
    : Result<real>
  {
    var counts := CountAdsorbates(frame.sites, neighbours(frame), rs.refs, formula);
    GasEnergy(counts.keys, counts.m, rs.gas.m)
  }

  /**
   The rows one trajectory contributes. An anomalous trajectory and one
   whose gas-reference energy is 0 contribute none; otherwise the slab
   with the first frame's cell gives the slab energy and every frame is
   written with its binding energy.
   */
  function FileRows(frames: seq<Structure>, rs: Refs, detect: Detector,
                    neighbours: Structure -> seq<set<nat>>, formula: Structure -> string)
    : (r: Result<seq<Row>>)
    ensures r.Err? ==> r.error in {IndexOutOfRange, InvalidTag, KeyNotFound, NoCalculator}
  {
    var anomalous :- CheckProblematic(frames, detect);
    if anomalous then Ok([])
    else
      var gasE :- FrameGasEnergy(frames[0], rs, neighbours, formula);
      if gasE == 0.0 then Ok([])
      else if frames[0].cell !in rs.slabs.m then Err(KeyNotFound)
      else
        var slabE :- Energy(rs.slabs.m[frames[0].cell]);
        BindingRows(frames, slabE + gasE)
  }

  /** Trajectories that fail the screen propagate its error; anomalous ones are skipped whole. */
  lemma FileRowsScreen(frames: seq<Structure>, rs: Refs, detect: Detector,
                       neighbours: Structure -> seq<set<nat>>, formula: Structure -> string)
    ensures CheckProblematic(frames, detect).Err? ==>
      FileRows(frames, rs, detect, neighbours, formula) == Err(CheckProblematic(frames, detect).error)
    ensures CheckProblematic(frames, detect) == Ok(true) ==> FileRows(frames, rs, detect, neighbours, formula) == Ok([])
  {
  }

  /**
   A trajectory that passes the screen writes nothing exactly when its gas
   energy is 0, and otherwise fails its slab lookup exactly when no slab has
   the first frame's cell.
   */
  lemma FileRowsSkipRules(frames: seq<Structure>, rs: Refs, detect: Detector,
                          neighbours: Structure -> seq<set<nat>>, formula: Structure -> string)
    requires CheckProblematic(frames, detect) == Ok(false)
    requires FrameGasEnergy(frames[0], rs, neighbours, formula).Ok?
    ensures FileRows(frames, rs, detect, neighbours, formula) == Ok([])
      <==> FrameGasEnergy(frames[0], rs, neighbours, formula).value == 0.0
    ensures FrameGasEnergy(frames[0], rs, neighbours, formula).value != 0.0 ==>
      (FileRows(frames, rs, detect, neighbours, formula) == Err(KeyNotFound) <==> frames[0].cell !in rs.slabs.m)
  {
  }

  /**
   A trajectory that passes the screen, has a non-zero gas energy and a slab
   with an energy for its first frame's cell is written whole, every frame
   shifted by the slab and gas-reference energies.
   */
  lemma FileRowsWriteEveryFrame(frames: seq<Structure>, rs: Refs, detect: Detector,
                                neighbours: Structure -> seq<set<nat>>, formula: Structure -> string)
    requires CheckProblematic(frames, detect) == Ok(false)
    requires FrameGasEnergy(frames[0], rs, neighbours, formula).Ok?
    requires FrameGasEnergy(frames[0], rs, neighbours, formula).value != 0.0
    requires frames[0].cell in rs.slabs.m && rs.slabs.m[frames[0].cell].results.Some?
    ensures FileRows(frames, rs, detect, neighbours, formula) ==
      BindingRows(frames, rs.slabs.m[frames[0].cell].results.value.energy
                          + FrameGasEnergy(frames[0], rs, neighbours, formula).value)
  {
  }

  /** The rows of all trajectories, in order; the first failing trajectory decides the error. */
  function AllRows(files: seq<seq<Structure>>, rs: Refs, detect: Detector,
                   neighbours: Structure -> seq<set<nat>>, formula: Structure -> string)
    : (r: Result<seq<Row>>)
    ensures r.Ok? <==> forall k :: 0 <= k < |files| ==> FileRows(files[k], rs, detect, neighbours, formula).Ok?
    ensures r.Err? ==> exists k :: FirstErrAt(PerFile(files, rs, detect, neighbours, formula), k, r.error)
    ensures r.Ok? ==> r.value == Flatten(AllOrFirstError(PerFile(files, rs, detect, neighbours, formula)).value)
  {
    var perFile :- AllOrFirstError(PerFile(files, rs, detect, neighbours, formula));
    Ok(Flatten(perFile))
  }

  /** The outcome of each trajectory, in order. */
  function PerFile(files: seq<seq<Structure>>, rs: Refs, detect: Detector,
                   neighbours: Structure -> seq<set<nat>>, formula: Structure -> string)
    : (r: seq<Result<seq<Row>>>)
    ensures |r| == |files| && forall k :: 0 <= k < |files| ==> r[k] == FileRows(files[k], rs, detect, neighbours, formula)
  {
    seq(|files|, k requires 0 <= k < |files| => FileRows(files[k], rs, detect, neighbours, formula))
  }

  /** The rows of each trajectory one after another. */
  function Flatten(xss: seq<seq<Row>>): seq<Row> {
    if |xss| == 0 then [] else xss[0] + Flatten(xss[1..])
  }

  /**
   create_ase_database: the slabs and gas references are indexed, then
   every trajectory's rows are written to the training store. The writes
   happen in one `with` block, read here as one transaction, so a failure
   leaves the store as it was (ASE's commit after every 5000th use of the
   connection is not modelled).
   */
  function CreateAseDatabase(files: seq<seq<Structure>>, slabDb: Db, adsDb: Db, out: Db, detect: Detector,
                             neighbours: Structure -> seq<set<nat>>, formula: Structure -> string)
    : (r: Result<Db>)
    requires Valid(slabDb) && Valid(adsDb) && Valid(out)
    ensures var rs := Refs(SlabsByCell(slabDb), GasByFormula(adsDb, formula), RefList(adsDb));
      r.Ok? <==> forall k :: 0 <= k < |files| ==> FileRows(files[k], rs, detect, neighbours, formula).Ok?
    ensures var rs := Refs(SlabsByCell(slabDb), GasByFormula(adsDb, formula), RefList(adsDb));
      r.Ok? ==> Valid(r.value) && Appended(out, r.value, AllRows(files, rs, detect, neighbours, formula).value)
  {
    var rs := Refs(SlabsByCell(slabDb), GasByFormula(adsDb, formula), RefList(adsDb));
    var rows :- AllRows(files, rs, detect, neighbours, formula);
    Ok(InsertAll(out, rows))
  }
}

=== FILE: utils.dfy ===
/**
 The helpers of src/utils/utils.py: the placeholder symbols the enumeration
 uses for adsorbate types, and the surface-reconstruction check.
 */
module Utils {
  import opened Errors
  import opened Atoms
  import opened Seqs

  /**
   Noble-gas symbols standing in for adsorbate types during enumeration; the
   i-th placeholder stands for the i-th adsorbate, so there is room for six.
   */
  const PlaceHolders: seq<string> := ["He", "Ne", "Ar", "Kr", "Xe", "Rn"]

  /** The placeholders can neither be confused with each other nor with the vacancy 'X' or the centre label 'O'. */
  lemma PlaceHoldersAreUsable()
    ensures |PlaceHolders| == 6
    ensures Distinct(PlaceHolders)
    ensures "X" !in PlaceHolders && "O" !in PlaceHolders
  {
  }

  /** The height of the top layer: the largest z of any site (np.max fails on no site). */
  function TopLayerZ(sites: seq<Site>): (r: Result<real>)
    ensures |sites| == 0 <==> r == Err(EmptyReduction)
    ensures r.Ok? ==> exists i :: 0 <= i < |sites| && sites[i].z == r.value
    ensures r.Ok? ==> forall i :: 0 <= i < |sites| ==> sites[i].z <= r.value
  {
    if |sites| == 0 then Err(EmptyReduction)
    else
      var zs := Heights(sites);
      var m := Max(zs);
      var i :| 0 <= i < |zs| && zs[i] == m;
      assert sites[i].z == m;
      Ok(m)
  }

  /** The indices of the sites at height z, in order. */
  function TopIds(sites: seq<Site>, z: real): (r: seq<nat>)
    ensures forall k :: 0 <= k < |r| ==> r[k] < |sites| && sites[r[k]].z == z
    ensures forall i :: 0 <= i < |sites| && sites[i].z == z ==> i in r
    ensures forall k, l :: 0 <= k < l < |r| ==> r[k] < r[l]
  {
    if |sites| == 0 then []
    else
      var rest := TopIds(sites[..|sites| - 1], z);
      if sites[|sites| - 1].z == z then rest + [|sites| - 1] else rest
  }

  /**
   check_reconstruction: true when some top-layer site stands more than the
   tolerance above the top layer.
   */
  function CheckReconstruction(sites: seq<Site>, tolerance: real): (r: Result<bool>)
    ensures |sites| == 0 <==> r == Err(EmptyReduction)
  {
    var top :- TopLayerZ(sites);
    var ids := TopIds(sites, top);
    Ok(exists k :: 0 <= k < |ids| && sites[ids[k]].z - top > tolerance)
  }

  /** Some site is at the top height, so the top-id list of a non-empty structure is never empty. */
  lemma TopIdsNonEmpty(sites: seq<Site>)
    requires |sites| > 0
    ensures |TopIds(sites, TopLayerZ(sites).value)| > 0
  {
    var top := TopLayerZ(sites).value;
    var i :| 0 <= i < |sites| && sites[i].z == top;
    assert i in TopIds(sites, top);
  }

  /**
   Every top id sits exactly at the top height, so the check reports a
   reconstruction exactly when the tolerance is negative: with the default
   tolerance 0.1 it always answers false.
   */
  lemma CheckReconstructionIffNegativeTolerance(sites: seq<Site>, tolerance: real)
    requires |sites| > 0
    ensures CheckReconstruction(sites, tolerance) == Ok(tolerance < 0.0)
  {
    var top := TopLayerZ(sites).value;
    var ids := TopIds(sites, top);
    TopIdsNonEmpty(sites);
    assert sites[ids[0]].z - top == 0.0;
  }
}

=== FILE: validation.dfy ===
/**
 The verification driver ml_val: a sequential state machine over an output
 store. In fresh mode it reserves one output row per requested source
 structure not yet recorded there, then evaluates each queued structure once
 and fills its reserved row in place. In restart mode it collects the
 unfinished rows. The calculator is a parameter that may fail.
 */
module Validation {
  import opened Errors
  import opened Atoms
  import opened Store
  import opened Seqs

  /** A queued evaluation: the source structure, its source id and its key-value pairs. */
  datatype Job = Job(atoms: Structure, originalId: int, kvp: Pairs)

  /** The calculator: the energy and forces of a structure, or None when it raises. */
  type Evaluator = Structure -> Option<Calc>

  function JobFor(src: Db, id: int): Job
    requires id in src.rows
  {
    Job(src.rows[id].atoms, id, src.rows[id].kvp)
  }

  function Origins(queue: seq<Job>): (r: seq<int>)
    ensures |r| == |queue|
    ensures forall k :: 0 <= k < |queue| ==> r[k] == queue[k].originalId
  {
    seq(|queue|, k requires 0 <= k < |queue| => queue[k].originalId)
  }

  /** The row a reservation writes for a source id: no structure, only the original_id pair. */
  function Reservation(q: int): Row {
    Row(Empty, map[OriginalIdKey := IntV(q)], map[])
  }

  function Reservations(queue: seq<Job>): (r: seq<Row>)
    ensures |r| == |queue|
    ensures forall k :: 0 <= k < |queue| ==> r[k] == Reservation(queue[k].originalId)
  {
    seq(|queue|, k requires 0 <= k < |queue| => Reservation(queue[k].originalId))
  }

  /**
   db.update(index, s, data=kvp) after the evaluation: a non-empty structure
   replaces the stored one together with its results, the pairs stay, and the
   source pairs are merged into the row's data.
   */
  function Filled(row: Row, job: Job, c: Calc): Row {
    Row(if |job.atoms.sites| > 0 then job.atoms.(results := Some(c)) else row.atoms, row.kvp, row.data + job.kvp)
  }

  /** Two or more rows record the source id: the lookup fails its uniqueness assertion. */
  ghost predicate MultiOwned(db: Db, q: int) {
    exists a, b :: a in Owners(db, OriginalIdKey, IntV(q)) && b in Owners(db, OriginalIdKey, IntV(q)) && a != b
  }

  /** A requested id the reservation pass gets past: it exists in the source and at most one output row records it. */
  ghost predicate Admissible(src: Db, out: Db, q: int) {
    q in src.rows && !MultiOwned(out, q)
  }

  /** The one row recording q. */
  ghost function OwnerOf(db: Db, q: int): int
    requires UniqueOwner(db, OriginalIdKey, IntV(q))
  {
    var o :| Owners(db, OriginalIdKey, IntV(q)) == {o}; o
  }

  /** Reserving a pair leaves the owners of every other value alone. */
  lemma ReserveKeepsOtherOwners(db: Db, v: Value, w: Value)
    requires Valid(db) && v != w
    ensures Owners(Reserve(db, OriginalIdKey, v).0, OriginalIdKey, w) == Owners(db, OriginalIdKey, w)
  {
    var (db', id) := Reserve(db, OriginalIdKey, v);
    if id.Some? {
      forall x
        ensures x in Owners(db', OriginalIdKey, w) <==> x in Owners(db, OriginalIdKey, w)
      {
        if x == id.value {
          assert !HasPair(db'.rows[x], OriginalIdKey, w);
        }
      }
    }
  }

  /** Stores that agree on every row's pairs have the same owners. */
  lemma SamePairsSameOwners(db: Db, db': Db, v: Value)
    requires db.rows.Keys == db'.rows.Keys
    requires forall id :: id in db.rows ==> db'.rows[id].kvp == db.rows[id].kvp
    ensures Owners(db', OriginalIdKey, v) == Owners(db, OriginalIdKey, v)
  {
    forall x
      ensures x in Owners(db', OriginalIdKey, v) <==> x in Owners(db, OriginalIdKey, v)
    {
      if x in db.rows {
        assert HasPair(db'.rows[x], OriginalIdKey, v) == HasPair(db.rows[x], OriginalIdKey, v);
      }
    }
  }

  /** The reservation state: out extended by one reservation per queued, distinct, previously unrecorded id. */
  ghost predicate Reserved(out: Db, db: Db, queue: seq<Job>) {
    && Valid(out) && Valid(db) && Appended(out, db, Reservations(queue))
    && Distinct(Origins(queue))
    && forall k :: 0 <= k < |queue| ==> Owners(out, OriginalIdKey, IntV(queue[k].originalId)) == {}
  }

  /** An id not queued is recorded by the same rows as before the reservations. */
  lemma UnqueuedOwners(out: Db, db: Db, queue: seq<Job>, x: int)
    requires Reserved(out, db, queue) && x !in Origins(queue)
    ensures Owners(db, OriginalIdKey, IntV(x)) == Owners(out, OriginalIdKey, IntV(x))
  {
    var rs := Reservations(queue);
    AppendedOwners(out, db, rs, OriginalIdKey, IntV(x));
    forall k | 0 <= k < |rs|
      ensures !HasPair(rs[k], OriginalIdKey, IntV(x))
    {
      assert Origins(queue)[k] != x;
    }
  }

  /** A queued id is recorded by its reservation alone. */
  lemma QueuedOwners(out: Db, db: Db, queue: seq<Job>, k: int)
    requires Reserved(out, db, queue) && 0 <= k < |queue|
    ensures Owners(db, OriginalIdKey, IntV(queue[k].originalId)) == {db.ids[|out.ids| + k]}
  {
    var rs := Reservations(queue);
    var x := queue[k].originalId;
    assert HasPair(rs[k], OriginalIdKey, IntV(x));
    forall l | 0 <= l < |rs| && HasPair(rs[l], OriginalIdKey, IntV(x))
      ensures l == k
    {
      assert Origins(queue)[l] == Origins(queue)[k];
    }
    SingleAddedOwner(out, db, rs, OriginalIdKey, IntV(x), k);
    AppendedOwners(out, db, rs, OriginalIdKey, IntV(x));
  }

  /**
   The reservation pass of fresh mode. Requested ids are processed in order:
   a missing source row stops the pass with KeyNotFound, an id recorded by
   two output rows stops it with the failed uniqueness assertion, an id
   already recorded once is skipped, and any other id gets exactly one
   reserved row and is queued with its source structure and pairs.
   */
  method ReserveAll(src: Db, out: Db, ids: seq<int>) returns (db: Db, queue: seq<Job>, res: Result<()>)
    requires Valid(src) && Valid(out)
    ensures res.Ok? <==> forall j :: 0 <= j < |ids| ==> Admissible(src, out, ids[j])
    ensures res.Err? ==> exists j :: FirstRejected(src, out, ids, j, res.error)
    ensures res.Ok? ==> Reserved(out, db, queue)
    ensures res.Ok? ==> forall k :: 0 <= k < |queue| ==>
      queue[k].originalId in ids && queue[k].originalId in src.rows && queue[k] == JobFor(src, queue[k].originalId)
    ensures res.Ok? ==> forall j :: 0 <= j < |ids| && Owners(out, OriginalIdKey, IntV(ids[j])) == {} ==> ids[j] in Origins(queue)
  {
    db := out;
    queue := [];
    var i := 0;
    while i < |ids|
      invariant 0 <= i <= |ids|
      invariant Reserved(out, db, queue)
      invariant forall k :: 0 <= k < |queue| ==>
        queue[k].originalId in ids && queue[k].originalId in src.rows && queue[k] == JobFor(src, queue[k].originalId)
      invariant forall j :: 0 <= j < i ==> Admissible(src, out, ids[j])
      invariant forall j :: 0 <= j < i && Owners(out, OriginalIdKey, IntV(ids[j])) == {} ==> ids[j] in Origins(queue)
    {
      var q := ids[i];
      var step;
      db, queue, step := ReserveOne(src, out, db, queue, q);
      if step.Err? {
        assert FirstRejected(src, out, ids, i, step.error);
        res := step;
        return;
      }
      i := i + 1;
    }
    res := Ok(());
  }

  /** One requested id: lookup in the source, lookup in the output, then skip, fail or reserve. */
  method ReserveOne(src: Db, out: Db, db: Db, queue: seq<Job>, q: int) returns (db': Db, queue': seq<Job>, res: Result<()>)
    requires Valid(src) && Reserved(out, db, queue)
    ensures res.Err? ==> if q !in src.rows then res.error == KeyNotFound else MultiOwned(out, q) && res.error == MultipleRowsMatched
    ensures res.Ok? ==> Admissible(src, out, q) && Reserved(out, db', queue')
    ensures res.Ok? ==> queue' == queue || queue' == queue + [JobFor(src, q)]
    ensures res.Ok? ==> forall x :: x in Origins(queue) ==> x in Origins(queue')
    ensures res.Ok? && Owners(out, OriginalIdKey, IntV(q)) == {} ==> q in Origins(queue')
  {
    db', queue' := db, queue;
    if q !in src.rows {
      return db, queue, Err(KeyNotFound);
    }
    var g := Get(db, OriginalIdKey, IntV(q));
    if g.Ok? {
      RecordedOnce(out, db, queue, q);
      res := Ok(());
    } else if g.error == MultipleRowsMatched {
      RecordedTwice(out, db, queue, q);
      res := Err(MultipleRowsMatched);
    } else {
      db' := ReserveFor(src, out, db, queue, q);
      queue' := queue + [JobFor(src, q)];
      res := Ok(());
    }
  }

  /** An id one row records is admissible, and was recorded in out unless it is queued. */
  lemma RecordedOnce(out: Db, db: Db, queue: seq<Job>, q: int)
    requires Reserved(out, db, queue) && UniqueOwner(db, OriginalIdKey, IntV(q))
    ensures !MultiOwned(out, q)
    ensures Owners(out, OriginalIdKey, IntV(q)) == {} ==> q in Origins(queue)
  {
    if q !in Origins(queue) {
      UnqueuedOwners(out, db, queue, q);
    } else {
      var k :| 0 <= k < |queue| && Origins(queue)[k] == q;
    }
  }

  /** An id two rows record was already recorded twice in out: reservations never duplicate. */
  lemma RecordedTwice(out: Db, db: Db, queue: seq<Job>, q: int)
    requires Reserved(out, db, queue) && MultiOwned(db, q)
    ensures MultiOwned(out, q)
  {
    QueuedOnlyOnce(out, db, queue, q);
    UnqueuedOwners(out, db, queue, q);
  }

  lemma QueuedOnlyOnce(out: Db, db: Db, queue: seq<Job>, q: int)
    requires Reserved(out, db, queue)
    ensures q in Origins(queue) ==> !MultiOwned(db, q)
  {
    if q in Origins(queue) {
      var k :| 0 <= k < |queue| && Origins(queue)[k] == q;
      QueuedOwners(out, db, queue, k);
    }
  }

  /** Reserving an id nobody records yet adds its reservation and keeps the state well formed. */
  function ReserveFor(src: Db, out: Db, db: Db, queue: seq<Job>, q: int): (db1: Db)
    requires Reserved(out, db, queue) && q in src.rows && Owners(db, OriginalIdKey, IntV(q)) == {}
    ensures Reserved(out, db1, queue + [JobFor(src, q)])
    ensures db1 == Reserve(db, OriginalIdKey, IntV(q)).0
    ensures Owners(out, OriginalIdKey, IntV(q)) == {} && !MultiOwned(out, q)
    ensures Origins(queue + [JobFor(src, q)]) == Origins(queue) + [q]
  {
    ReservationExtends(src, out, db, queue, q);
    Reserve(db, OriginalIdKey, IntV(q)).0
  }

  /** The proof for ReserveFor: the new reservation row extends out by the new job's reservation. */
  lemma ReservationExtends(src: Db, out: Db, db: Db, queue: seq<Job>, q: int)
    requires Reserved(out, db, queue) && q in src.rows && Owners(db, OriginalIdKey, IntV(q)) == {}
    ensures Reserved(out, Reserve(db, OriginalIdKey, IntV(q)).0, queue + [JobFor(src, q)])
    ensures Owners(out, OriginalIdKey, IntV(q)) == {} && !MultiOwned(out, q)
    ensures Origins(queue + [JobFor(src, q)]) == Origins(queue) + [q]
  {
    NotYetQueued(out, db, queue, q);
    var r := Reserve(db, OriginalIdKey, IntV(q));
    ReservationAppends(out, db, queue, JobFor(src, q), r.0, r.1.value);
  }

  /** An id no row of db records is not queued, and no row of out records it. */
  lemma NotYetQueued(out: Db, db: Db, queue: seq<Job>, q: int)
    requires Reserved(out, db, queue) && Owners(db, OriginalIdKey, IntV(q)) == {}
    ensures q !in Origins(queue) && Owners(out, OriginalIdKey, IntV(q)) == {}
  {
    if q in Origins(queue) {
      var k :| 0 <= k < |queue| && Origins(queue)[k] == q;
      QueuedOwners(out, db, queue, k);
    }
    UnqueuedOwners(out, db, queue, q);
  }

  /** Appending the reservation row of a new job keeps the reservation facts. */
  lemma ReservationAppends(out: Db, db: Db, queue: seq<Job>, job: Job, db1: Db, slot: int)
    requires Reserved(out, db, queue) && Valid(db1)
    requires job.originalId !in Origins(queue) && Owners(out, OriginalIdKey, IntV(job.originalId)) == {}
    requires slot !in db.rows && db1.ids == db.ids + [slot] && db1.rows == db.rows[slot := Reservation(job.originalId)]
    ensures Reserved(out, db1, queue + [job]) && !MultiOwned(out, job.originalId)
    ensures Origins(queue + [job]) == Origins(queue) + [job.originalId]
  {
    AppendedExtend(out, db, db1, Reservations(queue), Reservation(job.originalId), slot);
    assert Reservations(queue) + [Reservation(job.originalId)] == Reservations(queue + [job]);
    ReservedSnoc(out, db1, queue, job);
  }

  /** Queueing a job whose id is neither queued nor recorded in out keeps the reservation facts. */
  lemma ReservedSnoc(out: Db, db1: Db, queue: seq<Job>, job: Job)
    requires Valid(out) && Valid(db1) && Appended(out, db1, Reservations(queue + [job]))
    requires Distinct(Origins(queue)) && job.originalId !in Origins(queue)
    requires forall k :: 0 <= k < |queue| ==> Owners(out, OriginalIdKey, IntV(queue[k].originalId)) == {}
    requires Owners(out, OriginalIdKey, IntV(job.originalId)) == {}
    ensures Origins(queue + [job]) == Origins(queue) + [job.originalId]
    ensures Reserved(out, db1, queue + [job])
  {
    var queue' := queue + [job];
    assert Origins(queue') == Origins(queue) + [job.originalId];
    forall k | 0 <= k < |queue'|
      ensures Owners(out, OriginalIdKey, IntV(queue'[k].originalId)) == {}
    {
      if k < |queue| {
        assert queue'[k] == queue[k];
      }
    }
  }

  /** The j-th requested id is the first the reservation pass rejects, with this error. */
  ghost predicate FirstRejected(src: Db, out: Db, ids: seq<int>, j: int, e: Error) {
    && 0 <= j < |ids|
    && (forall l :: 0 <= l < j ==> Admissible(src, out, ids[l]))
    && (if ids[j] !in src.rows then e == KeyNotFound else MultiOwned(out, ids[j]) && e == MultipleRowsMatched)
  }

  /** The row records one of the first n queued ids. */
  ghost predicate RecordsQueued(row: Row, queue: seq<Job>, n: int) {
    exists k :: 0 <= k < n && k < |queue| && HasPair(row, OriginalIdKey, IntV(queue[k].originalId))
  }

  /** The job can be carried out on db: the calculator succeeds and exactly one row records its id. */
  ghost predicate Evaluable(db: Db, job: Job, evaluate: Evaluator) {
    evaluate(job.atoms).Some? && UniqueOwner(db, OriginalIdKey, IntV(job.originalId))
  }

  /** Each of the first n jobs has filled the one row of db0 recording its id. */
  ghost predicate FilledUpTo(db0: Db, db: Db, queue: seq<Job>, n: int, evaluate: Evaluator) {
    forall k :: 0 <= k < n && k < |queue| ==>
      && Evaluable(db0, queue[k], evaluate)
      && OwnerOf(db0, queue[k].originalId) in db0.rows
      && OwnerOf(db0, queue[k].originalId) in db.rows
      && db.rows[OwnerOf(db0, queue[k].originalId)]
         == Filled(db0.rows[OwnerOf(db0, queue[k].originalId)], queue[k], evaluate(queue[k].atoms).value)
  }

  /** Job j is the first to fail, with this error: the calculator first, then the lookup of its row. */
  ghost predicate FirstFailure(db0: Db, queue: seq<Job>, evaluate: Evaluator, j: int, e: Error) {
    && 0 <= j < |queue|
    && (forall k :: 0 <= k < j ==> Evaluable(db0, queue[k], evaluate))
    && (if evaluate(queue[j].atoms).None? then e == CalculatorFailed
        else if Owners(db0, OriginalIdKey, IntV(queue[j].originalId)) == {} then e == KeyNotFound
        else MultiOwned(db0, queue[j].originalId) && e == MultipleRowsMatched)
  }

  lemma OwnerOfIs(db: Db, q: int, o: int)
    requires Owners(db, OriginalIdKey, IntV(q)) == {o}
    ensures UniqueOwner(db, OriginalIdKey, IntV(q)) && OwnerOf(db, q) == o
  {
  }

  /**
   The evaluation loop: each queued structure is evaluated once and the row
   recording its id is updated in place with the structure, its results and
   the source pairs as data. Each update commits on its own, so a failure
   keeps the updates made before it. No row is added or removed and no pair
   changes.
   */
  method EvaluateQueue(db0: Db, queue: seq<Job>, evaluate: Evaluator) returns (db: Db, res: Result<()>)
    requires Valid(db0)
    ensures Valid(db) && db.ids == db0.ids && db.rows.Keys == db0.rows.Keys
    ensures forall id :: id in db0.rows ==> db.rows[id].kvp == db0.rows[id].kvp
    ensures forall id :: id in db0.rows && !RecordsQueued(db0.rows[id], queue, |queue|) ==> db.rows[id] == db0.rows[id]
    ensures res.Ok? <==> forall k :: 0 <= k < |queue| ==> Evaluable(db0, queue[k], evaluate)
    ensures res.Err? ==> exists j :: FirstFailure(db0, queue, evaluate, j, res.error)
    ensures res.Ok? && Distinct(Origins(queue)) ==> FilledUpTo(db0, db, queue, |queue|, evaluate)
  {
    db := db0;
    var i := 0;
    while i < |queue|
      invariant 0 <= i <= |queue|
      invariant Valid(db) && db.ids == db0.ids && db.rows.Keys == db0.rows.Keys
      invariant forall id :: id in db0.rows ==> db.rows[id].kvp == db0.rows[id].kvp
      invariant forall id :: id in db0.rows && !RecordsQueued(db0.rows[id], queue, i) ==> db.rows[id] == db0.rows[id]
      invariant forall k :: 0 <= k < i ==> Evaluable(db0, queue[k], evaluate)
      invariant Distinct(Origins(queue)) ==> FilledUpTo(db0, db, queue, i, evaluate)
    {
      var step;
      db, step := EvaluateOne(db0, db, queue, i, evaluate);
      if step.Err? {
        FailureIsNotEvaluable(db0, queue, evaluate, i, step.error);
        return db, step;
      }
      i := i + 1;
    }
    res := Ok(());
  }

  /** The job that fails first cannot be carried out. */
  lemma FailureIsNotEvaluable(db0: Db, queue: seq<Job>, evaluate: Evaluator, j: int, e: Error)
    requires FirstFailure(db0, queue, evaluate, j, e)
    ensures !Evaluable(db0, queue[j], evaluate)
  {
    UniqueIsNotMulti(db0, queue[j].originalId);
  }

  /** A value recorded by exactly one row is not recorded twice. */
  lemma UniqueIsNotMulti(db: Db, q: int)
    ensures UniqueOwner(db, OriginalIdKey, IntV(q)) ==> !MultiOwned(db, q)
  {
    if UniqueOwner(db, OriginalIdKey, IntV(q)) {
      var o :| Owners(db, OriginalIdKey, IntV(q)) == {o};
      forall a, b | a in Owners(db, OriginalIdKey, IntV(q)) && b in Owners(db, OriginalIdKey, IntV(q))
        ensures a == b
      {
        assert a in {o} && b in {o};
      }
    }
  }

  /** Job i: evaluate it, look up its row, and fill that row. */
  method EvaluateOne(db0: Db, db: Db, queue: seq<Job>, i: int, evaluate: Evaluator) returns (db': Db, res: Result<()>)
    requires Valid(db0) && 0 <= i < |queue|
    requires Valid(db) && db.ids == db0.ids && db.rows.Keys == db0.rows.Keys
    requires forall id :: id in db0.rows ==> db.rows[id].kvp == db0.rows[id].kvp
    requires forall id :: id in db0.rows && !RecordsQueued(db0.rows[id], queue, i) ==> db.rows[id] == db0.rows[id]
    requires forall k :: 0 <= k < i ==> Evaluable(db0, queue[k], evaluate)
    requires Distinct(Origins(queue)) ==> FilledUpTo(db0, db, queue, i, evaluate)
    ensures res.Err? ==> db' == db && FirstFailure(db0, queue, evaluate, i, res.error)
    ensures res.Ok? ==> Valid(db') && db'.ids == db0.ids && db'.rows.Keys == db0.rows.Keys
    ensures res.Ok? ==> forall id :: id in db0.rows ==> db'.rows[id].kvp == db0.rows[id].kvp
    ensures res.Ok? ==> forall id :: id in db0.rows && !RecordsQueued(db0.rows[id], queue, i + 1) ==> db'.rows[id] == db0.rows[id]
    ensures res.Ok? ==> forall k :: 0 <= k < i + 1 ==> Evaluable(db0, queue[k], evaluate)
    ensures res.Ok? ==> Distinct(Origins(queue)) ==> FilledUpTo(db0, db', queue, i + 1, evaluate)
  {
    db' := db;
    var job := queue[i];
    var c := evaluate(job.atoms);
    if c.None? {
      return db, Err(CalculatorFailed);
    }
    var v := IntV(job.originalId);
    SamePairsSameOwners(db0, db, v);
    var g := Get(db, OriginalIdKey, v);
    if g.Err? {
      return db, Err(g.error);
    }
    var o := g.value;
    OwnerOfIs(db0, job.originalId, o);
    db' := Update(db, o, Filled(db.rows[o], job, c.value));
    StepFill(db0, db, db', queue, i, evaluate, o);
    res := Ok(());
  }

  /** Filling the row of job i keeps the loop's facts for the first i + 1 jobs. */
  lemma StepFill(db0: Db, db: Db, db': Db, queue: seq<Job>, i: int, evaluate: Evaluator, o: int)
    requires Valid(db0) && 0 <= i < |queue|
    requires Valid(db) && db.ids == db0.ids && db.rows.Keys == db0.rows.Keys
    requires forall id :: id in db0.rows ==> db.rows[id].kvp == db0.rows[id].kvp
    requires forall id :: id in db0.rows && !RecordsQueued(db0.rows[id], queue, i) ==> db.rows[id] == db0.rows[id]
    requires forall k :: 0 <= k < i ==> Evaluable(db0, queue[k], evaluate)
    requires Distinct(Origins(queue)) ==> FilledUpTo(db0, db, queue, i, evaluate)
    requires evaluate(queue[i].atoms).Some? && Owners(db0, OriginalIdKey, IntV(queue[i].originalId)) == {o}
    requires o in db.rows && db' == Update(db, o, Filled(db.rows[o], queue[i], evaluate(queue[i].atoms).value))
    ensures Valid(db') && db'.ids == db0.ids && db'.rows.Keys == db0.rows.Keys
    ensures forall id :: id in db0.rows ==> db'.rows[id].kvp == db0.rows[id].kvp
    ensures forall id :: id in db0.rows && !RecordsQueued(db0.rows[id], queue, i + 1) ==> db'.rows[id] == db0.rows[id]
    ensures forall k :: 0 <= k < i + 1 ==> Evaluable(db0, queue[k], evaluate)
    ensures Distinct(Origins(queue)) ==> FilledUpTo(db0, db', queue, i + 1, evaluate)
  {
    assert o in Owners(db0, OriginalIdKey, IntV(queue[i].originalId));
    OwnerOfIs(db0, queue[i].originalId, o);
    StepKeepsOthers(db0, db, db', queue, i, o);
    StepKeepsKeys(db0, db, db', o);
    assert Evaluable(db0, queue[i], evaluate);
    if Distinct(Origins(queue)) {
      OwnerRecordsNoEarlierJob(db0, queue, i, o);
      StepFillsJob(db0, db, db', queue, i, evaluate, o);
    }
  }

  /** With distinct ids, the row recording job i records none of the jobs before it. */
  lemma OwnerRecordsNoEarlierJob(db0: Db, queue: seq<Job>, i: int, o: int)
    requires 0 <= i < |queue| && Distinct(Origins(queue))
    requires Owners(db0, OriginalIdKey, IntV(queue[i].originalId)) == {o}
    ensures !RecordsQueued(db0.rows[o], queue, i)
  {
    assert o in Owners(db0, OriginalIdKey, IntV(queue[i].originalId));
    forall k | 0 <= k < i
      ensures !HasPair(db0.rows[o], OriginalIdKey, IntV(queue[k].originalId))
    {
      assert Origins(queue)[k] != Origins(queue)[i];
    }
  }

  /** Filling a row keeps every row's key-value pairs. */
  lemma StepKeepsKeys(db0: Db, db: Db, db': Db, o: int)
    requires db.rows.Keys == db0.rows.Keys && o in db.rows
    requires forall id :: id in db0.rows ==> db.rows[id].kvp == db0.rows[id].kvp
    requires db'.rows.Keys == db.rows.Keys && db'.rows[o].kvp == db.rows[o].kvp
    requires forall j :: j in db.rows && j != o ==> db'.rows[j] == db.rows[j]
    ensures forall id :: id in db0.rows ==> db'.rows[id].kvp == db0.rows[id].kvp
  {
  }

  /** The filled row records job i, so every row recording none of the first i + 1 jobs is untouched. */
  lemma StepKeepsOthers(db0: Db, db: Db, db': Db, queue: seq<Job>, i: int, o: int)
    requires 0 <= i < |queue| && db.rows.Keys == db0.rows.Keys && o in db.rows
    requires forall id :: id in db0.rows && !RecordsQueued(db0.rows[id], queue, i) ==> db.rows[id] == db0.rows[id]
    requires o in Owners(db0, OriginalIdKey, IntV(queue[i].originalId))
    requires db'.rows.Keys == db.rows.Keys && forall j :: j in db.rows && j != o ==> db'.rows[j] == db.rows[j]
    ensures forall id :: id in db0.rows && !RecordsQueued(db0.rows[id], queue, i + 1) ==> db'.rows[id] == db0.rows[id]
  {
    forall id | id in db0.rows && !RecordsQueued(db0.rows[id], queue, i + 1)
      ensures db'.rows[id] == db0.rows[id]
    {
      assert !HasPair(db0.rows[id], OriginalIdKey, IntV(queue[i].originalId));
      assert id != o;
      assert !RecordsQueued(db0.rows[id], queue, i);
    }
  }

  /** With distinct ids, filling job i's row leaves the rows of the earlier jobs filled. */
  lemma StepFillsJob(db0: Db, db: Db, db': Db, queue: seq<Job>, i: int, evaluate: Evaluator, o: int)
    requires Valid(db0) && 0 <= i < |queue| && Distinct(Origins(queue))
    requires FilledUpTo(db0, db, queue, i, evaluate)
    requires evaluate(queue[i].atoms).Some? && Owners(db0, OriginalIdKey, IntV(queue[i].originalId)) == {o}
    requires OwnerOf(db0, queue[i].originalId) == o
    requires o in db.rows && db.rows.Keys == db0.rows.Keys && db.rows[o] == db0.rows[o]
    requires db' == Db(db.ids, db.rows[o := Filled(db.rows[o], queue[i], evaluate(queue[i].atoms).value)])
    ensures FilledUpTo(db0, db', queue, i + 1, evaluate)
  {
    assert o in Owners(db0, OriginalIdKey, IntV(queue[i].originalId));
    forall k | 0 <= k < i + 1 && k < |queue|
      ensures Evaluable(db0, queue[k], evaluate)
      ensures OwnerOf(db0, queue[k].originalId) in db0.rows
      ensures OwnerOf(db0, queue[k].originalId) in db'.rows
      ensures db'.rows[OwnerOf(db0, queue[k].originalId)]
        == Filled(db0.rows[OwnerOf(db0, queue[k].originalId)], queue[k], evaluate(queue[k].atoms).value)
    {
      if k < i {
        var ok := OwnerOf(db0, queue[k].originalId);
        assert ok in Owners(db0, OriginalIdKey, IntV(queue[k].originalId));
        assert Origins(queue)[k] != Origins(queue)[i];
        assert ok != o;
      }
    }
  }

  /** Some row of the store is unfinished: reserved but never filled. */
  ghost predicate HasUnfilled(db: Db) {
    exists id :: id in db.rows && Unfilled(db.rows[id])
  }

  /** The scan over every row for an empty chemical formula. */
  function AnyUnfilled(db: Db): (r: bool)
    requires Valid(db)
    ensures r <==> HasUnfilled(db)
  {
    UnfilledRowIsFound(db);
    |Where(db.ids, db.rows, Unfilled)| > 0
  }

  lemma UnfilledRowIsFound(db: Db)
    requires Valid(db)
    ensures HasUnfilled(db) <==> |Where(db.ids, db.rows, Unfilled)| > 0
  {
    var w := Where(db.ids, db.rows, Unfilled);
    if HasUnfilled(db) {
      var id :| id in db.rows && Unfilled(db.rows[id]);
      var k :| 0 <= k < |db.ids| && db.ids[k] == id;
    }
    if |w| > 0 {
      assert w[0] in db.rows && Unfilled(db.rows[w[0]]);
    }
  }

  /**
   The restart collection step: the original_id value of every unfinished
   row, in row order. Reading the attribute of a row that lacks it fails.
   */
  function PendingIds(ids: seq<int>, rows: map<int, Row>): (r: Result<seq<Value>>)
    requires forall k :: 0 <= k < |ids| ==> ids[k] in rows
    ensures r.Err? <==> exists k :: 0 <= k < |ids| && Unfilled(rows[ids[k]]) && OriginalIdKey !in rows[ids[k]].kvp
    ensures r.Err? ==> r.error == MissingAttribute
  {
    if |ids| == 0 then Ok([])
    else
      var row := rows[ids[0]];
      if Unfilled(row) && OriginalIdKey !in row.kvp then Err(MissingAttribute)
      else
        assert forall k :: 0 <= k < |ids| - 1 ==> ids[1..][k] == ids[k + 1];
        var rest :- PendingIds(ids[1..], rows);
        if Unfilled(row) then Ok([row.kvp[OriginalIdKey]] + rest) else Ok(rest)
  }

  /** One value is collected per unfinished row. */
  lemma {:induction false} PendingIdsCount(ids: seq<int>, rows: map<int, Row>)
    requires forall k :: 0 <= k < |ids| ==> ids[k] in rows
    requires PendingIds(ids, rows).Ok?
    ensures |PendingIds(ids, rows).value| == |Where(ids, rows, Unfilled)|
  {
    if |ids| > 0 {
      assert forall k :: 0 <= k < |ids| - 1 ==> ids[1..][k] == ids[k + 1];
      PendingIdsCount(ids[1..], rows);
    }
  }

  /** The collected values are the original_id of the unfinished rows, in row order. */
  lemma {:induction false} PendingIdsAreOriginals(ids: seq<int>, rows: map<int, Row>, k: int)
    requires forall k :: 0 <= k < |ids| ==> ids[k] in rows
    requires PendingIds(ids, rows).Ok?
    requires 0 <= k < |Where(ids, rows, Unfilled)|
    ensures |PendingIds(ids, rows).value| == |Where(ids, rows, Unfilled)|
    ensures OriginalIdKey in rows[Where(ids, rows, Unfilled)[k]].kvp
    ensures PendingIds(ids, rows).value[k] == rows[Where(ids, rows, Unfilled)[k]].kvp[OriginalIdKey]
  {
    PendingIdsCount(ids, rows);
    var row := rows[ids[0]];
    var w := Where(ids, rows, Unfilled);
    var r := PendingIds(ids, rows).value;
    assert forall j :: 0 <= j < |ids| - 1 ==> ids[1..][j] == ids[j + 1];
    var w' := Where(ids[1..], rows, Unfilled);
    var rest := PendingIds(ids[1..], rows).value;
    if Unfilled(row) {
      assert w == [ids[0]] + w';
      assert r == [row.kvp[OriginalIdKey]] + rest;
      if k > 0 {
        PendingIdsAreOriginals(ids[1..], rows, k - 1);
      }
    } else {
      assert w == w';
      assert r == rest;
      PendingIdsAreOriginals(ids[1..], rows, k);
    }
  }

  /**
   What restart mode ends with. The ids it collects are never turned into
   jobs (the list it loops over to build them stays empty), so the
   evaluation loop receives bare ids and fails to unpack the first one.
   */
  function RestartOutcome(db: Db): (r: Result<()>)
    requires Valid(db)
  {
    var pending :- PendingIds(db.ids, db.rows);
    if |pending| == 0 then Ok(()) else Err(CannotUnpack)
  }

  /** Restart mode succeeds exactly when there is nothing to restart: it never completes an unfinished row. */
  lemma RestartSucceedsIffNothingPending(db: Db)
    requires Valid(db)
    ensures RestartOutcome(db).Ok? <==> !HasUnfilled(db)
    ensures RestartOutcome(db).Err? ==> RestartOutcome(db).error in {MissingAttribute, CannotUnpack}
  {
    UnfilledRowIsFound(db);
    if PendingIds(db.ids, db.rows).Ok? {
      PendingIdsCount(db.ids, db.rows);
    }
  }

  /** The store a fresh run writes to: the existing output store, or a new empty one. */
  function Base(out: Option<Db>): Db {
    if out.Some? then out.value else EmptyDb
  }

  /** Every requested source id that no row of base records has a structure the calculator evaluates. */
  ghost predicate AllEvaluate(src: Db, base: Db, ids: seq<int>, evaluate: Evaluator) {
    forall j :: 0 <= j < |ids| && ids[j] in src.rows && Owners(base, OriginalIdKey, IntV(ids[j])) == {} ==>
      evaluate(src.rows[ids[j]].atoms).Some?
  }

  /** The row a fresh run leaves for a newly recorded source id: its reservation, filled. */
  ghost function Completed(src: Db, q: int, evaluate: Evaluator): Row
    requires q in src.rows && evaluate(src.rows[q].atoms).Some?
  {
    Filled(Reservation(q), JobFor(src, q), evaluate(src.rows[q].atoms).value)
  }

  /**
   ml_val. The output store is None when its file does not exist.

   Restart mode needs the output store and otherwise changes nothing. Fresh
   mode refuses an output store with unfinished rows, then reserves and
   evaluates; a failed reservation pass is read as committing nothing (ASE's
   commit after every 5000th use of the connection is not modelled), while
   each evaluation commits on its own.
   */
  method MlVal(ids: seq<int>, src: Db, out: Option<Db>, evaluate: Evaluator, restart: bool)
    returns (final: Option<Db>, res: Result<()>)
    requires Valid(src) && (out.Some? ==> Valid(out.value))
    ensures restart && out.None? ==> final.None? && res == Err(FileNotFound)
    ensures restart && out.Some? ==> final == out && res == RestartOutcome(out.value)
    ensures !restart && out.Some? && HasUnfilled(out.value) ==> final == out && res == Err(StructuresNotValidated)
    ensures !restart && !(out.Some? && HasUnfilled(out.value)) ==>
      && final.Some? && Valid(final.value)
      && (res.Ok? <==> (forall j :: 0 <= j < |ids| ==> Admissible(src, Base(out), ids[j])) && AllEvaluate(src, Base(out), ids, evaluate))
      && (res.Ok? ==> Fresh(src, Base(out), ids, evaluate, final.value))
  {
    if restart {
      if out.None? {
        return None, Err(FileNotFound);
      }
      return out, RestartOutcome(out.value);
    }
    if out.Some? && AnyUnfilled(out.value) {
      return out, Err(StructuresNotValidated);
    }
    var base := Base(out);
    var db1, queue, r := ReserveAll(src, base, ids);
    if r.Err? {
      assert !(forall j :: 0 <= j < |ids| ==> Admissible(src, base, ids[j]));
      return Some(base), r;
    }
    var db2, r2 := EvaluateQueue(db1, queue, evaluate);
    QueueEvaluatesIff(src, base, db1, queue, ids, evaluate);
    if r2.Ok? {
      FreshOutcome(src, base, db1, queue, ids, evaluate, db2);
    }
    return Some(db2), r2;
  }

  /**
   What a successful fresh run leaves: every requested id is recorded by
   exactly one row, the rows that were there are untouched, and every other
   row is the filled reservation of a requested id nothing recorded before.
   */
  ghost predicate Fresh(src: Db, base: Db, ids: seq<int>, evaluate: Evaluator, db: Db) {
    && (forall j :: 0 <= j < |ids| ==> UniqueOwner(db, OriginalIdKey, IntV(ids[j])))
    && (forall id :: id in base.rows ==> id in db.rows && db.rows[id] == base.rows[id])
    && (forall id :: id in db.rows && id !in base.rows ==>
          exists q :: q in ids && q in src.rows && Owners(base, OriginalIdKey, IntV(q)) == {}
            && evaluate(src.rows[q].atoms).Some? && db.rows[id] == Completed(src, q, evaluate))
  }

  /** The facts the reservation pass establishes when it succeeds. */
  ghost predicate QueueFrom(src: Db, base: Db, db1: Db, queue: seq<Job>, ids: seq<int>) {
    && Valid(src)
    && (forall j :: 0 <= j < |ids| ==> Admissible(src, base, ids[j]))
    && Reserved(base, db1, queue)
    && (forall k :: 0 <= k < |queue| ==>
          queue[k].originalId in ids && queue[k].originalId in src.rows && queue[k] == JobFor(src, queue[k].originalId))
    && (forall j :: 0 <= j < |ids| && Owners(base, OriginalIdKey, IntV(ids[j])) == {} ==> ids[j] in Origins(queue))
  }

  /** The evaluation loop succeeds on the queue exactly when the calculator handles every newly requested structure. */
  lemma QueueEvaluatesIff(src: Db, base: Db, db1: Db, queue: seq<Job>, ids: seq<int>, evaluate: Evaluator)
    requires QueueFrom(src, base, db1, queue, ids)
    ensures (forall k :: 0 <= k < |queue| ==> Evaluable(db1, queue[k], evaluate)) <==> AllEvaluate(src, base, ids, evaluate)
  {
    forall k | 0 <= k < |queue|
      ensures UniqueOwner(db1, OriginalIdKey, IntV(queue[k].originalId))
    {
      QueuedOwners(base, db1, queue, k);
    }
    if AllEvaluate(src, base, ids, evaluate) {
      forall k | 0 <= k < |queue|
        ensures evaluate(queue[k].atoms).Some?
      {
        var q := queue[k].originalId;
        assert q in ids && queue[k] == JobFor(src, q);
        assert Owners(base, OriginalIdKey, IntV(Origins(queue)[k])) == {};
        var j :| 0 <= j < |ids| && ids[j] == q;
      }
    } else {
      var j :| 0 <= j < |ids| && ids[j] in src.rows && Owners(base, OriginalIdKey, IntV(ids[j])) == {}
        && evaluate(src.rows[ids[j]].atoms).None?;
      var k :| 0 <= k < |queue| && Origins(queue)[k] == ids[j];
      assert !Evaluable(db1, queue[k], evaluate);
    }
  }

  /** A successful reservation and evaluation leave the state Fresh describes. */
  lemma FreshOutcome(src: Db, base: Db, db1: Db, queue: seq<Job>, ids: seq<int>, evaluate: Evaluator, db2: Db)
    requires QueueFrom(src, base, db1, queue, ids)
    requires Valid(db2) && db2.ids == db1.ids && db2.rows.Keys == db1.rows.Keys
    requires forall id :: id in db1.rows ==> db2.rows[id].kvp == db1.rows[id].kvp
    requires forall id :: id in db1.rows && !RecordsQueued(db1.rows[id], queue, |queue|) ==> db2.rows[id] == db1.rows[id]
    requires FilledUpTo(db1, db2, queue, |queue|, evaluate)
    ensures Fresh(src, base, ids, evaluate, db2)
  {
    RequestedOwned(src, base, db1, queue, ids, db2);
    BaseRowsKept(src, base, db1, queue, ids, db2);
    NewRowsCompleted(src, base, db1, queue, ids, evaluate, db2);
  }

  lemma RequestedOwned(src: Db, base: Db, db1: Db, queue: seq<Job>, ids: seq<int>, db2: Db)
    requires QueueFrom(src, base, db1, queue, ids)
    requires db2.rows.Keys == db1.rows.Keys
    requires forall id :: id in db1.rows ==> db2.rows[id].kvp == db1.rows[id].kvp
    ensures forall j :: 0 <= j < |ids| ==> UniqueOwner(db2, OriginalIdKey, IntV(ids[j]))
  {
    forall j | 0 <= j < |ids|
      ensures UniqueOwner(db2, OriginalIdKey, IntV(ids[j]))
    {
      var q := ids[j];
      SamePairsSameOwners(db1, db2, IntV(q));
      if q in Origins(queue) {
        var k :| 0 <= k < |queue| && Origins(queue)[k] == q;
        QueuedOwners(base, db1, queue, k);
      } else {
        UnqueuedOwners(base, db1, queue, q);
        assert Owners(base, OriginalIdKey, IntV(q)) != {};
        assert Admissible(src, base, ids[j]);
        GetSucceedsIffUniqueOwner(base, OriginalIdKey, IntV(q));
      }
    }
  }

  lemma BaseRowsKept(src: Db, base: Db, db1: Db, queue: seq<Job>, ids: seq<int>, db2: Db)
    requires QueueFrom(src, base, db1, queue, ids)
    requires db2.rows.Keys == db1.rows.Keys
    requires forall id :: id in db1.rows && !RecordsQueued(db1.rows[id], queue, |queue|) ==> db2.rows[id] == db1.rows[id]
    ensures forall id :: id in base.rows ==> id in db2.rows && db2.rows[id] == base.rows[id]
  {
    forall id | id in base.rows
      ensures id in db2.rows && db2.rows[id] == base.rows[id]
    {
      forall k | 0 <= k < |queue|
        ensures !HasPair(db1.rows[id], OriginalIdKey, IntV(queue[k].originalId))
      {
        assert id !in Owners(base, OriginalIdKey, IntV(queue[k].originalId));
      }
    }
  }

  lemma NewRowsCompleted(src: Db, base: Db, db1: Db, queue: seq<Job>, ids: seq<int>, evaluate: Evaluator, db2: Db)
    requires QueueFrom(src, base, db1, queue, ids)
    requires db2.rows.Keys == db1.rows.Keys
    requires FilledUpTo(db1, db2, queue, |queue|, evaluate)
    ensures forall id :: id in db2.rows && id !in base.rows ==>
      exists q :: (q in ids && q in src.rows && Owners(base, OriginalIdKey, IntV(q)) == {}
        && evaluate(src.rows[q].atoms).Some? && db2.rows[id] == Completed(src, q, evaluate))
  {
    forall id | id in db2.rows && id !in base.rows
      ensures exists q :: (q in ids && q in src.rows && Owners(base, OriginalIdKey, IntV(q)) == {}
        && evaluate(src.rows[q].atoms).Some? && db2.rows[id] == Completed(src, q, evaluate))
    {
      var k := NewRowIsReserved(base, db1, queue, id);
      NewRowCompleted(src, base, db1, queue, ids, evaluate, db2, k);
    }
  }

  /** A row of db1 that is not in base is the reservation of some queued job. */
  lemma NewRowIsReserved(base: Db, db1: Db, queue: seq<Job>, id: int) returns (k: int)
    requires Reserved(base, db1, queue)
    requires id in db1.rows && id !in base.rows
    ensures 0 <= k < |queue| && db1.ids[|base.ids| + k] == id
  {
    var n := |base.ids|;
    var p :| 0 <= p < |db1.ids| && db1.ids[p] == id;
    if p < n {
      assert false;
    }
    k := p - n;
  }

  /** The reservation of the k-th queued job ends up completed with that job's results. */
  lemma NewRowCompleted(src: Db, base: Db, db1: Db, queue: seq<Job>, ids: seq<int>, evaluate: Evaluator, db2: Db, k: int)
    requires QueueFrom(src, base, db1, queue, ids)
    requires db2.rows.Keys == db1.rows.Keys
    requires FilledUpTo(db1, db2, queue, |queue|, evaluate)
    requires 0 <= k < |queue|
    ensures var id := db1.ids[|base.ids| + k]; var q := queue[k].originalId;
      && q in ids && q in src.rows && Owners(base, OriginalIdKey, IntV(q)) == {}
      && evaluate(src.rows[q].atoms).Some? && db2.rows[id] == Completed(src, q, evaluate)
  {
    var id := db1.ids[|base.ids| + k];
    var q := queue[k].originalId;
    AppendedRow(base, db1, Reservations(queue), k);
    QueuedOwners(base, db1, queue, k);
    OwnerOfIs(db1, q, id);
    assert db1.rows[id] == Reservation(q);
  }
}
